=== FILE: README.md ===
# Realtime core of the Amigo social app, in Dafny

This project models the part of the Amigo social site that moves
notifications, chat messages and "seen" receipts between users. It also
models the HTTP handlers and client code around that traffic. The model
has these layers:

- **The socket relay** (`server.js`, `lib/io.js`). A client `join`s the room
  `user:<id>`. The server forwards `notification` and `chatMessage` to the
  room named by the payload's `toUserId`, and `changeMsgSeen` to the room
  named by its `senderId`. Every other event is ignored.
- **The client socket and its subscribers** (`lib/socket-client.ts`,
  `Components/SocketProvider.tsx`, `hooks/useNotication.ts`,
  `hooks/useGetChatNotification.ts`). There is one lazily created socket.
  The provider joins the user's room on every `connect`. The two hooks
  register and remove handlers.
- **The producers** (`lib/apiCalls.ts`). These are the client calls that
  announce a change over the socket once the HTTP call has resolved.
- **The route handlers** that write the rows the events talk about: messages,
  comments, likes, friend requests (send, check, accept, reject), friends,
  notifications, posts and the user profile. Each write to the hosted relay
  goes to the channel `user-<id>`.
- **The client logic around them**: the post form and the change-password
  form, the feed page's comment draft and like list, the navigation bar, the
  authentication middleware, and the HTTP client's token-refresh queue
  (`lib/axios.ts`).

Each `.dfy` file holds one Dafny module. The app's modules map to app files
as follows: `Session` covers the socket provider and the two hooks, and
`FriendRoutes` covers the four friend-request and friends routes. The rest
(`Common`, `Strs`, `Store`, `Sorting`, `Wire`, `Images`, `RelayChannel` and
`Listeners`) are shared definitions that correspond to no single app file.
The model is functional: state is an
immutable record, and every operation is a function from the old state and
the inputs to the new state and its outputs.

A route handler takes the store (`Store.Db`) and returns
`Outcome(db, reply, published)`:

- `db` is the store after the handler.
- `reply` is the JSON answer, as a datatype with one constructor per reply
  the code can send. Status codes are derived from it.
- `published` lists what the handler wrote to the relay.

JavaScript's falsiness is `Common.Truthy`: a present, non-empty string. An
absent query or body field is `None`.

Writes are not transactional, as in the code. A Prisma `update` or `delete`
of a missing row throws into the handler's `catch`, and every row written
before the throw stays written. Ids, clocks, upload results and relay
failures are parameters of the operations (`*Env`, `Upload`, `publishOk`).

## Model

| member | source | states |
|---|---|---|
| Wire.RoomName | server.js:31 | the room of user `id` is `user:` followed by exactly `id` |
| Wire.RoomNameInjective | server.js:31 | two users share a room name only when they are the same user |
| ServerHandle.Initial | lib/io.js:3 | before `setIO`, no server handle is held |
| ServerHandle.SetIO | lib/io.js:5-7 | after `setIO(x)` the holder holds exactly `x` |
| ServerHandle.GetIO | lib/io.js:9-12 | `getIO` returns the handle iff one is held, and otherwise fails with "Socket.IO not initialized" |
| ServerHandle.UnsetThrows | lib/io.js:3-12 | calling `getIO` before any `setIO` fails with the not-initialized error |
| ServerHandle.LastWriteWins | lib/io.js:5-12 | `getIO` returns the last handle set, and an earlier `setIO` is overwritten |
| ClientSocket.Create | lib/socket-client.ts:8-13 | a new socket does not auto-connect and reconnects after 1000 ms; it starts inactive, unconnected, with no listeners and nothing sent |
| ClientSocket.GetSocket | lib/socket-client.ts:6-19 | `getSocket` returns the held socket when there is one, creates one otherwise, and holds what it returns |
| ClientSocket.GetSocketIdempotent | lib/socket-client.ts:6-19 | a second `getSocket` returns the same socket and leaves the holder unchanged |
| ClientSocket.Connect | Components/SocketProvider.tsx:17 | `connect()` makes the socket active; listeners, sent events and options are unchanged |
| ClientSocket.Disconnect | Components/SocketProvider.tsx:34 | `disconnect()` leaves the socket inactive and unconnected and keeps its listeners |
| ClientSocket.Send | Components/SocketProvider.tsx:22 | `emit` appends exactly that event to what the socket sent, changing nothing else |
| Listeners.On | hooks/useNotication.ts:28 | `on(ev, h)` appends `h` to the handlers of `ev` and leaves other events alone |
| Listeners.IndexOf | hooks/useNotication.ts:31 | the first position of a handler in a list that holds it |
| Listeners.RemoveFirst | hooks/useNotication.ts:31 | a list without the handler is unchanged; otherwise the result is the list with exactly its first occurrence cut out, one copy fewer |
| Listeners.Off | hooks/useNotication.ts:31 | `off(ev, h)` leaves `ev`'s handlers as that list with the first `h` cut out, and leaves other events alone |
| Listeners.OffAll | hooks/useNotication.ts:32-34 | `off(ev)` without a handler removes every handler of `ev`, whoever registered it |
| Listeners.OffUndoesOn | hooks/useNotication.ts:28-31 | `off` with the handler just registered by `on` restores every event's handler list |
| Listeners.RemoveAppended | hooks/useNotication.ts:28-31 | removing a handler just appended, when it was not there before, gives back the original list |
| SocketServer.Init | server.js:17-24 | the server starts with no connections and no rooms |
| SocketServer.Connect | server.js:26 | a new connection starts in no room with an empty inbox; other connections are untouched |
| SocketServer.Disconnect | server.js:50-52 | a disconnected socket leaves every room; the others keep their rooms and inboxes |
| SocketServer.JoinRoom | server.js:31 | `socket.join(room)` adds the room to that connection only |
| SocketServer.Deliver | server.js:35 | `io.to(room).emit` appends the event to the inbox of every member of the room, and only theirs |
| SocketServer.Route | server.js:34-48 | `notification` and `chatMessage` go to the room of `toUserId`, `changeMsgSeen` to the room of `senderId`, and any other event nowhere |
| SocketServer.OnClientEvent | server.js:26-53 | handling one client event keeps the relay state well formed |
| SocketServer.JoinEntersRoom | server.js:29-32 | `join(u)` puts the joining connection into `user:u` and delivers nothing |
| SocketServer.OnlyJoinChangesRooms | server.js:26-53 | no event other than `join` changes any room membership |
| SocketServer.RelayToRecipient | server.js:34-41 | a notification or chat message reaches exactly the members of the recipient's room |
| SocketServer.SeenRoutedBySender | server.js:44-48 | a seen receipt reaches exactly the members of the message author's room |
| SocketServer.UnhandledEventIgnored | server.js:26-53 | an event the server has no handler for (such as `delete-notification`) changes nothing |
| SocketServer.Run | server.js:26-53 | a run of connections, joins, events and disconnects keeps the relay state well formed |
| SocketServer.NoJoinNoDelivery | server.js:26-53 | a connection that never joins a room receives nothing, whatever others send |
| SocketServer.ReconnectDropsMembership | server.js:26-32 | after a reconnect the socket is in no room until it joins again |
| SocketServer.JoinThenDeliver | server.js:29-36 | two sockets that join the same user's room both receive a notification for that user |
| RelayChannel.ChannelName | app/api/chats/message/route.ts:84 | the relay channel of user `id` is `user-` followed by exactly `id` |
| RelayChannel.ChannelNameInjective | app/api/chats/message/route.ts:84 | two users share a channel only when they are the same user |
| RelayChannel.ChannelIsNotRoom | app/api/chats/message/route.ts:84 | no relay channel name equals any socket room name |
| Session.Initial | Components/SocketProvider.tsx:12-13 | a page starts with no socket, the connected flag down and no notifications |
| Session.Sock | lib/socket-client.ts:6-19 | the socket every component sees is the held one, or a fresh one before the first `getSocket` |
| Session.ProviderEffect | Components/SocketProvider.tsx:14-31 | without a user, or with the flag up, the effect does nothing; otherwise it connects, joins at once if already connected, registers its onConnect closure and raises the flag |
| Session.ProviderCleanup | Components/SocketProvider.tsx:33-36 | the cleanup disconnects and lowers the flag, but leaves the onConnect closure registered |
| Session.RegisterLoggers | hooks/useNotication.ts:16-26 | the hook adds one logger each to `connect`, `connect_error` and `disconnect` and touches no other event |
| Session.OffLifecycle | hooks/useNotication.ts:32-34 | the hook's cleanup empties `connect`, `disconnect` and `connect_error` of every listener |
| Session.NotifOn | hooks/useNotication.ts:16-28 | the hook's effect appends one logger each to `connect`, `connect_error` and `disconnect` and its handler to `notification`, and no other event changes |
| Session.NotifOff | hooks/useNotication.ts:30-35 | the hook's cleanup cuts its first handler out of `notification`, empties the three lifecycle events, and no other event changes |
| Session.ChatOn | hooks/useGetChatNotification.ts:33-45 | the chat hook's effect appends the three loggers, its chat handler to `chatMessage` and its seen handler to `changeMsgSeen`, and no other event changes |
| Session.ChatOff | hooks/useGetChatNotification.ts:47-53 | the chat hook's cleanup cuts its two handlers out, empties the three lifecycle events, and no other event changes |
| Session.WithListeners | lib/socket-client.ts:6-19 | replacing the listener table keeps the rest of the socket and of the session |
| Session.MountNotifications | hooks/useNotication.ts:7-28 | mounting the hook clears its list, records the mount, and changes the socket only by the hook's four registrations; nothing else in the session changes |
| Session.UnmountNotifications | hooks/useNotication.ts:30-35 | unmounting cuts its notification handler out, empties the lifecycle events of every owner, forgets the mount and changes nothing else |
| Session.MountChat | hooks/useGetChatNotification.ts:8-45 | mounting resets the latest chat event, records the mount, and changes the socket only by the three loggers and the two handlers; nothing else in the session changes |
| Session.UnmountChat | hooks/useGetChatNotification.ts:47-53 | unmounting cuts its two handlers out, empties the lifecycle events of every owner, forgets the mount and changes nothing else |
| Session.ConnectEmitsJoins | Components/SocketProvider.tsx:19-29 | when the transport comes up, every registered onConnect closure emits its `join`, in registration order |
| Session.ProviderJoinsOnEveryConnect | Components/SocketProvider.tsx:19-29 | after the provider ran for `u`, the first connect and every reconnect emit `join(u)` |
| Session.ProviderJoinsImmediately | Components/SocketProvider.tsx:25-27 | if the socket is already connected, the provider emits `join(u)` at once |
| Session.NotificationPrepends | hooks/useNotication.ts:11-14 | a received notification goes to the front of the list and invalidates the notification query |
| Session.ChatHandlersEffect | hooks/useGetChatNotification.ts:13-31 | a chat message becomes the latest chat event; both events invalidate the chats query |
| Session.NothingWhileDisconnected | hooks/useNotication.ts:28 | while the socket is not connected, no handler runs |
| Session.HookCleanupDropsRejoin | hooks/useNotication.ts:30-35 | after the hook unmounts, a reconnect emits no `join` at all |
| Session.NotifOffOwn | hooks/useNotication.ts:30-35 | the scoped cleanup cuts out only the four listeners this mount added, and no other event changes |
| Session.UnmountNotificationsOwn | hooks/useNotication.ts:30-35 | a scoped cleanup removes only the listeners this mount added |
| Session.MountThenOwnUnmount | hooks/useNotication.ts:7-35 | mounting then a scoped unmount leaves the `connect` listeners as they were, up to order |
| Session.NotifOnOffOwnConnect | hooks/useNotication.ts:16-35 | the scoped cleanup gives back the `connect` listeners the mount found, up to order |
| Session.NotifOnOffOwn | hooks/useNotication.ts:16-35 | for an event whose listeners all predate the mount, the scoped cleanup gives back exactly the list the mount found |
| Session.MountThenOwnUnmountTable | hooks/useNotication.ts:7-35 | mounting then a scoped unmount changes only the listener table, the run counter, the mount record and the list |
| Session.MountThenOwnUnmountExact | hooks/useNotication.ts:7-35 | mounting then a scoped unmount leaves an event whose listeners all predate the mount exactly as it was, and the rest of the session too apart from the run counter and the emptied list |
| Session.OwnCleanupKeepsRejoin | hooks/useNotication.ts:30-35 | with the scoped cleanup, a reconnect still emits `join(u)` |
| Session.RerunKeepsOldJoin | Components/SocketProvider.tsx:14-37 | after the user changes from `a` to `b`, the next connect emits `join(a)` and then `join(b)` |
| Session.ProviderCleanupScoped | Components/SocketProvider.tsx:33-36 | a scoped cleanup disconnects, lowers the flag and also cuts out the closure this run registered; nothing else changes |
| Session.ScopedCleanupOfSole | Components/SocketProvider.tsx:33-36 | a scoped cleanup of the only onConnect closure leaves no `connect` listener and a disconnected socket |
| Session.ScopedRerunState | Components/SocketProvider.tsx:14-37 | after a scoped identity change from `a` to `b`, the socket is active and not yet connected, its only `connect` listener is `b`'s onConnect, and nothing was sent meanwhile |
| Session.ScopedRerunJoinsOnlyNew | Components/SocketProvider.tsx:14-37 | with the scoped cleanup, a change from `a` to `b` makes the next connect emit `join(b)` only |
| MessageRoute.SetLastMessage | app/api/chats/message/route.ts:22-29 | only the conversation with the id gets the new last message; the rest are unchanged |
| MessageRoute.Send | app/api/chats/message/route.ts:5-102 | a missing field writes nothing, and the reply is the missing-fields one iff a field is missing; success iff all fields are present, a truthy conversation id names an existing conversation, the sender exists and the relay accepts; an unknown conversation id writes nothing; otherwise the conversation write (last message, or a new conversation with both participants) is kept, and the TEXT message is stored iff the sender exists, even when the relay then fails; only messages and conversations change; success is exactly one publish of `chatMessage` to the receiver's channel |
| MessageRoute.SentPayload | app/api/chats/message/route.ts:76-92 | the published payload carries the text, sender id, conversation id and sender name of the reply, and the avatar iff the sender has one |
| MessageRoute.PublishFailureKeepsRows | app/api/chats/message/route.ts:20-101 | a relay failure answers 401 but the new conversation and message stay written |
| MessageRoute.FirstConversationOf | app/api/chats/message/route.ts:120-127 | `findFirst` returns a conversation holding both users, and none only when no conversation holds both |
| MessageRoute.InConversation | app/api/chats/message/route.ts:139-142 | the selected messages are exactly those of the conversation |
| MessageRoute.ListMessages | app/api/chats/message/route.ts:104-173 | the missing-ids reply is given iff either id is missing; the history is exactly the first shared conversation's messages, oldest first; no conversation is reported iff none holds both users |
| MessageRoute.FirstConversationAfterMiss | app/api/chats/message/route.ts:120-127 | when no stored conversation matched, the newly appended matching one is found first |
| MessageRoute.FirstSendIsReadBack | app/api/chats/message/route.ts:5-173 | after the first message between two users, their history is the new conversation and holds that message |
| MessageRoute.MarkSeen | app/api/chats/message/route.ts:190-197 | `updateMany` sets `seenBy` to the reader on the conversation's messages by the sender (all of them when the sender id is undefined) and nowhere else |
| MessageRoute.MarkConversationSeen | app/api/chats/message/route.ts:175-230 | without a conversation id nothing happens; an undefined reader fails before any write; otherwise exactly the matching messages are marked seen and no other table changes, and success, which needs the relay, publishes `changeMsgSeen` with the owner and the sender to the sender's channel; a failure publishes nothing |
| MessageRoute.UndefinedSenderMarksWholeConversation | app/api/chats/message/route.ts:190-197 | with an undefined sender id every message of the conversation, the reader's own included, is marked seen |
| MessageRoute.MarkSeenIdempotent | app/api/chats/message/route.ts:190-197 | marking a conversation seen twice leaves the messages as marking it once |
| CommentRoute.PostComment | app/api/post/comment/route.ts:5-83 | success iff every field is present, the post and the commenter exist and the relay accepts; a missing field, post or commenter changes and publishes nothing; otherwise only the comment and a COMMENTE notification for the owner are appended, and success sends one `notification` payload to the owner's channel |
| CommentRoute.SelfCommentNotifiesSelf | app/api/post/comment/route.ts:32-69 | a user commenting on their own post is notified on their own channel |
| CommentRoute.PublishedKindDiffersFromStored | app/api/post/comment/route.ts:37-58 | the published payload says COMMENT while the stored row says COMMENTE |
| CommentRoute.OnPost | app/api/post/comment/route.ts:93-95 | the selected comments are exactly those of the post |
| CommentRoute.ListComments | app/api/post/comment/route.ts:85-115 | without a post id the answer is "no comment yet"; otherwise exactly the post's comments |
| CommentRoute.OnPostAppend | app/api/post/comment/route.ts:93-95 | appending a comment appends it to its post's selection and to no other |
| CommentRoute.CommentIsListedLast | app/api/post/comment/route.ts:5-115 | a stored comment is listed last for its post, after the earlier ones |
| LikeRoute.SuccessKey | app/api/post/like/route.ts:9-21 | the two early refusals of the POST spell the flag `succcess`; every other reply of the POST spells it `success` |
| LikeRoute.LikesSuccessKey | app/api/post/like/route.ts:127-131 | the GET's refusal for a missing post id spells the flag `succcess` too; its other replies spell it `success` |
| LikeRoute.RemoveLikeNotification | app/api/post/like/route.ts:42-50 | deleting by the like key removes exactly the first row with that key, keeping the others in order, and changes nothing when there is none |
| LikeRoute.ToggleLike | app/api/post/like/route.ts:4-120 | only likes and notifications change; missing ids write nothing; an existing like is removed, and the notifications become those left by deleting its LIKE row; a new like on an existing post by an existing user adds the like and a LIKE notification for the owner; a new like that is refused changes nothing |
| LikeRoute.RemoveAppendedLikeNotification | app/api/post/like/route.ts:42-50 | removing a like notification just appended gives back the earlier rows |
| LikeRoute.LikeTwiceRestores | app/api/post/like/route.ts:23-96 | like then unlike answers "unliked" and restores the store exactly |
| LikeRoute.ListLikes | app/api/post/like/route.ts:122-157 | without a post id the request is refused; otherwise exactly the post's likes |
| FriendRoutes.FindRequest | app/api/request/friend/route.ts:18-25 | the lookup finds a request in the same direction iff one exists |
| FriendRoutes.SendRequest | app/api/request/friend/route.ts:4-80 | only both ids missing is refused up front; a request in the same direction is refused; otherwise a PENDING request and its notification are appended |
| FriendRoutes.CheckRequest | app/api/request/friend/route.ts:82-126 | missing ids are refused; the request is reported iff one exists in that direction |
| FriendRoutes.SendThenCheckAndResend | app/api/request/friend/route.ts:4-126 | after a send the check finds the request, and a second send is refused without writing |
| FriendRoutes.CanonicalPair | app/api/request/friend/accept/route.ts:40-43 | the friendship row holds the two users, the smaller id first |
| FriendRoutes.CanonicalPairSymmetric | app/api/request/friend/accept/route.ts:43 | the friendship row does not depend on who sent the request |
| FriendRoutes.SetRequestStatus | app/api/request/friend/accept/route.ts:15-20 | only the request with the id gets the new status |
| FriendRoutes.SetNotification | app/api/request/friend/accept/route.ts:22-28 | only the notification with the id gets the new status, and the new message if one is given |
| FriendRoutes.Decide | app/api/request/friend/accept/route.ts:4-38 | a missing request id is refused; success iff the request and the notification exist; a missing or unknown request leaves the store unchanged; when the request exists but its notification does not, the store differs only by the request's new status |
| FriendRoutes.Accept | app/api/request/friend/accept/route.ts:4-72 | nothing is published and users stay; a missing request id is refused; the decision succeeds iff the request and the notification exist, and then the store differs exactly by the request ACCEPTED, the notification ACCEPTED with the acceptance message and the request's canonical friendship row; a missing or unknown request leaves the store unchanged; a missing notification leaves only the request ACCEPTED |
| FriendRoutes.Reject | app/api/request/friend/reject/route.ts:4-49 | nothing is published and users stay; a missing request id is refused; the decision succeeds iff the request and the notification exist, and then the store differs exactly by the request and the notification REJECTED with the message kept; a missing or unknown request leaves the store unchanged; a missing notification leaves only the request REJECTED; no friendship is ever added |
| FriendRoutes.AcceptAfterReject | app/api/request/friend/accept/route.ts:15-20 | a rejected request can still be accepted |
| FriendRoutes.AllFriends | app/api/get/allFriends/route.ts:4-54 | a missing user is refused; the friends are exactly the users on the other side of the user's friendship rows |
| FriendRoutes.AcceptMakesMutualFriends | app/api/request/friend/accept/route.ts:40-50 | after an accept, each of the two users is among the other's friends |
| NotificationRoute.For | app/api/post/notification/route.ts:20-21 | the selection is exactly the user's notifications |
| NotificationRoute.ListNotifications | app/api/post/notification/route.ts:5-49 | a missing user is refused; the list is a permutation of the user's notifications, unread before read and newest first within each |
| NotificationRoute.SetRead | app/api/post/notification/route.ts:61-66 | only the notification with the id becomes read |
| NotificationRoute.MarkRead | app/api/post/notification/route.ts:51-77 | a missing id is refused; an unknown id answers nothing; otherwise exactly that notification becomes read, and no other table changes |
| NotificationRoute.MarkReadIdempotent | app/api/post/notification/route.ts:61-66 | marking the same notification read again changes nothing |
| NotificationRoute.MarkedIsListedAsRead | app/api/post/notification/route.ts:5-77 | a notification marked read is listed as read for its receiver |
| Images.PublicId | app/api/post/route.ts:92-94 | the public id has no `/` or `.` and starts the URL's last path segment |
| Images.PublicIdPosition | app/api/post/route.ts:92-94 | the public id is the part of the last segment before its first `.` |
| Images.PublicIdOfFileName | app/api/post/route.ts:92-94 | for a URL `dir/name.ext`, the public id is `name` |
| PostRoute.CreatePost | app/api/post/route.ts:5-54 | a post is created iff an image was attached and its upload succeeded; it holds the form's fields and the uploaded URL |
| PostRoute.OwnedBy | app/api/post/route.ts:62-64 | the selection is exactly the owner's posts |
| PostRoute.ListPosts | app/api/post/route.ts:56-80 | without an id, "can't find any posts"; otherwise exactly the user's posts |
| PostRoute.CreatedPostIsListed | app/api/post/route.ts:5-80 | a created post is among its owner's posts |
| PostRoute.SetPost | app/api/post/route.ts:116-123 | only the post with the id gets the new title, description and image |
| PostRoute.EditPost | app/api/post/route.ts:82-141 | an edit succeeds iff the post exists and, when there is a new image, an old URL exists and the upload succeeds; the upload overwrites the old image's public id |
| PostRoute.EditImageChoice | app/api/post/route.ts:116-123 | an edit without a new image keeps the old URL; with one it stores the upload's URL |
| PostRoute.WithoutPost | app/api/post/route.ts:150-152 | deletion removes exactly the post with the id |
| PostRoute.DeletePost | app/api/post/route.ts:143-173 | without an id nothing is deleted; success iff the post exists, and then the posts are exactly the old ones without that id |
| PostRoute.DeleteKeepsOthersListed | app/api/post/route.ts:143-173 | after a deletion, every other post of an owner is still in that owner's listing and the deleted id is in no listing |
| UserRoute.CountPosts | app/api/get/userData/route.ts:30-36 | the post count is at most the number of posts, and zero iff the user owns none |
| UserRoute.CountSent | app/api/get/userData/route.ts:30-36 | the sent-request count is at most the number of requests, and zero iff the user sent none |
| UserRoute.CountReceived | app/api/get/userData/route.ts:30-36 | the received-request count is at most the number of requests, and zero iff the user received none |
| UserRoute.GetProfile | app/api/get/userData/route.ts:5-58 | a missing id is refused; profile data is returned iff the user exists, with their row, their owned-post count and their sent and received request counts |
| UserRoute.CreatePostCounts | app/api/get/userData/route.ts:30-36 | a created post raises its owner's post count by one and leaves every other user's count alone |
| UserRoute.SendRequestCounts | app/api/get/userData/route.ts:30-36 | a sent request raises the sender's sent count and the receiver's received count by one, and no other count |
| UserRoute.UpdateProfile | app/api/get/userData/route.ts:60-151 | no new image fails before anything else; the upload comes first and overwrites the old avatar's public id when one exists; missing text fields are refused; otherwise the user row is updated |
| UserRoute.UploadBeforeValidation | app/api/get/userData/route.ts:70-116 | a form missing its name still uploads the image before it is refused |
| UserRoute.CorrectlySpelledLocationIsMissing | app/api/get/userData/route.ts:66 | a form that sends `location` (not `loaction`) is refused as missing fields |
| UserRoute.UpdatedProfileIsRead | app/api/get/userData/route.ts:5-151 | the updated name, bio, location and avatar are what the profile read returns |
| Producers.PostComment | lib/apiCalls.ts:35-56 | a rejected call throws; a resolved one emits one COMMENT `notification` to the notification's receiver iff the reply reports success |
| Producers.AddLike | lib/apiCalls.ts:69-98 | a like with an owner emits a LIKE `notification` to the owner; a like whose owner id is empty emits nothing; an unlike emits `delete-notification` with no fields; anything else emits nothing |
| Producers.CreateFriendNotif | lib/apiCalls.ts:121-147 | a successful request emits exactly one `notification` event to the receiver: type FRIEND-REQUEST, the request message, the sender's id, and `friendReqId` undefined |
| Producers.SendMessage | lib/apiCalls.ts:284-316 | whenever the call resolves, one `chatMessage` to the receiver is emitted with the text, the sender's id and the reply's conversation id, sender name and avatar (absent when the send failed), whether or not the send succeeded |
| Producers.UpdateMsgSeen | lib/apiCalls.ts:318-343 | whenever the call resolves, a `changeMsgSeen` naming the reader as owner and the author as sender is emitted |
| Producers.CommentReachesOwner | lib/apiCalls.ts:41-50 | the announced comment is routed to the room of the notification's receiver |
| Producers.UnlikeIsNeverRelayed | lib/apiCalls.ts:88-93 | the unlike announcement is routed nowhere, since the server has no handler for it |
| Producers.ChatReachesReceiver | lib/apiCalls.ts:303-311 | the announced chat message is routed to the receiver's room |
| Producers.SeenReachesAuthor | lib/apiCalls.ts:329-338 | the seen receipt is routed to the room of the messages' author |
| Producers.SendMessageEmitsOnlyAfterStore | lib/apiCalls.ts:303-311 | a failed send answers 401, so the call throws and nothing is emitted |
| PostForm.CheckLength | Components/usersPosts.tsx:240-255 | a length rule on the trimmed text passes iff the length is in range, and otherwise yields one of its three messages |
| PostForm.ValidateTitle | Components/usersPosts.tsx:240-246 | a title is valid iff it trims to 3 to 100 characters; "required" iff it is all white space, "short" or "long" otherwise |
| PostForm.ValidateDescription | Components/usersPosts.tsx:248-255 | a description is valid iff it trims to 10 to 1000 characters, with the matching message otherwise |
| PostForm.ChooseImage | Components/usersPosts.tsx:257-281 | no file changes nothing; an image of at most 5 MB becomes the chosen image with its preview; any other file only sets the image error |
| PostForm.EditFormData | Components/usersPosts.tsx:398-409 | the edit form starts with id, title and description, holds `OldImageUrl` iff the post has an image, and `Newimage` iff a file was chosen; the edit handler reads back the id, title, description and old URL given, and the chosen file |
| PostForm.CreateFormData | Components/usersPosts.tsx:410-421 | the create form starts with title and description, holds `userId` iff it is set, and `image` iff a file was chosen; the create handler reads back those values and the chosen file |
| PostForm.Submit | Components/usersPosts.tsx:381-422 | both text errors are recorded; a request goes out iff both texts are valid, as the edit form when editing and the create form otherwise |
| PostForm.CreateWithoutImageIsRefused | Components/usersPosts.tsx:410-421 | a valid form without an image is sent, and the create handler then refuses it |
| PasswordForm.Any | app/profilePage/changePassword/page.tsx:43-46 | a character-class test holds iff some character is in the class |
| PasswordForm.ValidatePassword | app/profilePage/changePassword/page.tsx:41-56 | a password is valid iff it has at least 8 characters and an upper-case letter, a lower-case letter, a digit and a special character |
| PasswordForm.NoUpperIsWeak | app/profilePage/changePassword/page.tsx:43-54 | a password without an upper-case letter is never valid |
| PasswordForm.SubmitErrors | app/profilePage/changePassword/page.tsx:87-113 | the messages for the three fields, with "must be different" overriding the new-password message |
| PasswordForm.Submit | app/profilePage/changePassword/page.tsx:87-132 | a request goes out iff no message is set, carrying the current and new password; otherwise only the errors change |
| PasswordForm.EmptyFormMessages | app/profilePage/changePassword/page.tsx:94-113 | an empty form shows "required", "must be different" and "please confirm" |
| PasswordForm.Change | app/profilePage/changePassword/page.tsx:60-64 | typing sets one field and clears only that field's message |
| PasswordForm.Toggle | app/profilePage/changePassword/page.tsx:83-85 | the toggle flips one visibility flag only |
| PasswordForm.ToggleTwice | app/profilePage/changePassword/page.tsx:83-85 | toggling twice restores the page |
| PasswordForm.Settled | app/profilePage/changePassword/page.tsx:66-81 | a reply clears the fields and records its success flag; an error keeps the fields and records failure |
| FeedPage.ResetForUser | app/allposts/page.tsx:108-113 | when loading settles, the draft holds only the user id |
| FeedPage.Type | app/allposts/page.tsx:227-232 | typing records the text and that post's id and keeps the user |
| FeedPage.SendComment | app/allposts/page.tsx:75-86 | a draft is sent iff text, user and post are present and the text is not blank; after sending it resets to an empty comment with no user or post |
| FeedPage.SecondCommentRefused | app/allposts/page.tsx:75-86 | after one comment is sent, the next one typed is not sent |
| FeedPage.SendCommentKeepingUser | app/allposts/page.tsx:75-86 | the corrected send has the same guard but clears only the text |
| FeedPage.SecondCommentSent | app/allposts/page.tsx:75-86 | with the corrected send, a second non-blank comment is sent with the user and the new post |
| FeedPage.BlankNeverSent | app/allposts/page.tsx:81 | a comment of white space only is never sent |
| FeedPage.HandleLike | app/allposts/page.tsx:99-106 | with an id and a user the like call goes out; the id is recorded once, keeping the list free of duplicates and in order |
| FeedPage.DoubleClickKeepsLiked | app/allposts/page.tsx:99-106 | clicking twice sends two like calls but records the id once |
| FeedPage.TogglePanel | app/allposts/page.tsx:205-208 | clicking closes the post's panel when it is open, and opens it otherwise |
| FeedPage.TogglePanelTwice | app/allposts/page.tsx:205-208 | clicking twice restores the panel when it was closed or open on that post |
| Navbar.UnreadCount | Components/Navbar.tsx:153 | the badge is zero without data, and otherwise the number of unread notifications (`CountUnread`), zero iff every notification is read |
| Navbar.CountUnread | Components/Navbar.tsx:153 | the unread count is at most the number of notifications, and zero iff all are read |
| Navbar.CountUnreadSingle | Components/Navbar.tsx:153 | one notification counts one iff it is unread |
| Navbar.CountUnreadAppend | Components/Navbar.tsx:153 | the count of a concatenation is the sum of the counts, so with the single case it is the number of unread notifications |
| Navbar.MarkReadLowersCount | app/api/post/notification/route.ts:61-66 | marking a notification read never raises the badge, and lowers it when an unread notification has that id |
| Navbar.IconFor | Components/Navbar.tsx:128-151 | a notification has an icon iff its kind is LIKE, FRIEND-REQUEST or COMMENTE |
| Navbar.CommentKindsAndIcons | Components/Navbar.tsx:142 | the stored comment kind has an icon; the published comment kind has none |
| Navbar.DecidedRequestHasNoActions | Components/Navbar.tsx:275-276 | once a request is accepted or rejected, its notification no longer offers Accept and Decline |
| Navbar.ClickNotification | Components/Navbar.tsx:255-258 | a click marks the notification read iff it is unread, by its id |
| Navbar.ClickAfterReadIsSilent | Components/Navbar.tsx:255-258 | after the mark-read call, clicking the same notification sends nothing |
| Navbar.MobileImpliesDesktop | Components/Navbar.tsx:404 | an item active on mobile (whole path) is active on the desktop (first segment) too |
| Navbar.SubpageActiveOnDesktopOnly | Components/Navbar.tsx:194 | a page below an item makes it active on the desktop but not on mobile |
| Navbar.Initials | Components/Navbar.tsx:341-344 | the initials contain no space |
| Navbar.FirstChars | Components/Navbar.tsx:343 | every initial is the first character of some non-empty word, and there are at most as many as words |
| Navbar.InitialsOfWords | Components/Navbar.tsx:341-344 | for a name of space-free words joined by single spaces, the initials are the words' first characters |
| Navbar.FirstCharsOfNonEmpty | Components/Navbar.tsx:343 | with non-empty words there is one initial per word, in order |
| Middleware.Decide | middleware.ts:3-14 | a signed-in visitor of a login page goes home; a visitor without a token goes to login; the request passes iff there is a token and the path is not a login page |
| Middleware.Gate | middleware.ts:3-18 | paths outside the matcher pass untouched; matched paths get the middleware's decision |
| Middleware.LoginRedirectUnreachable | middleware.ts:6-18 | the redirect home never happens, since no matched path starts with `/login` |
| RefreshQueue.OnError | lib/axios.ts:21-58 | a response other than a first 401 is rejected unchanged; a 401 waits in the queue while a refresh runs, and otherwise marks the request and starts the refresh |
| RefreshQueue.ProcessQueue | lib/axios.ts:13-19 | every waiting request is released, or every one is failed, in queue order |
| RefreshQueue.RefreshSettled | lib/axios.ts:37-54 | settling empties the queue and lowers the flag; success retries the original request; failure goes to login and rejects |
| RefreshQueue.RetriedAtMostOnce | lib/axios.ts:26-35 | the request that started a refresh is rejected unchanged if its retry meets a 401 again |
| RefreshQueue.NoSecondRefresh | lib/axios.ts:28-32 | while a refresh runs, further 401s only wait; no second refresh starts |
| RefreshQueue.Feed | lib/axios.ts:21-58 | feeding failures one by one keeps the queue empty unless a refresh runs |
| RefreshQueue.FeedQueuesIds | lib/axios.ts:28-31 | the waiting requests join the queue in arrival order, behind those already waiting |
| RefreshQueue.ReleasedRequestCanRefreshAgain | lib/axios.ts:29-31 | a released request is retried unmarked, so a 401 on the retry starts another refresh |
| RefreshQueue.RefreshCycle | lib/axios.ts:10-59 | one refresh cycle settles every request that waited during it, in order, and returns the client to its initial state |

## Left out

- Logging (`console.log`, `logger`), styling and markup are left out: they have no effect on state.
- The HTTP server, Next.js request handling and CORS setup in `server.js` are left out; only the socket handlers are modelled.
- Socket.IO's own behaviour is abstracted. Each socket's automatic private room is not modelled. Events emitted while disconnected are assumed dropped, though the real client buffers them. Reconnection timing is not modelled.
- The relay client (Pusher) is modelled only as the list of publishes a handler makes. Subscribing to a relay channel is not modelled.
- The choice between the socket and the relay at startup is not modelled: both paths are modelled separately.
- The database (Prisma) is modelled as ordered sequences, plus sets for likes and friendships. Unique-key violations on create are assumed not to happen. `findMany` without `orderBy` is assumed to return rows in insertion order.
- Foreign keys are checked only where the handler reads or includes the relation. Cascading deletes are not modelled.
- `null` and `undefined` are both modelled as `None`.
- String length counts code points rather than UTF-16 units. `Strs.Less` compares code points, which matches JavaScript's `<` on strings only outside the surrogate range.
- Cloudinary uploads are an opaque `Upload` parameter. An upload rejection throws, and a success carries an optional URL. The streamed file bytes are not modelled.
- Clocks, generated ids and relay failures are parameters. Network failures below HTTP appear only as `Http.NoAnswer`.
- Authentication tokens, cookies and the refresh, login and register routes are left out. Only the client's refresh queue and the middleware's token check are modelled.
- React scheduling is abstracted. Each effect, cleanup and state update is modelled as one atomic step, in the order React runs them. TanStack Query caching is reduced to recording which queries were invalidated.
- Middleware.Gate: matching is by exact path. The Next.js matcher's path patterns are not modelled.
- FeedPage.HandleLike: a signed-in user is represented by their id being present.
- Navbar.Initials: the number of initials is not stated for arbitrary names. Splitting on repeated spaces gives empty words with an undefined first character, which the model drops. `Navbar.InitialsOfWords` states the count for names of single-spaced words.
- Session.MountChat and Session.UnmountChat: the state holds one instance of the chat hook. In the app two are mounted at once, the popup in the root layout (app/layout.tsx:15, Components/ChatNotificationPopUp.tsx:8) and the chat page (app/Chats/[id]/page.tsx:22). Per-instance state is not modelled, so what one instance's unmount does to the other's handlers is not stated.
- CommentRoute.PostComment: the notification table's unique key on sender, post and kind is not modelled. A user's second comment on the same post stores the comment and then fails on the notification create (`success: false`, nothing published), while the model answers `Commented`.
- MessageRoute.MarkConversationSeen: an absent sender id is modelled as undefined, which drops the sender filter. A `null` sender id, which Prisma would match only against rows with no sender, is not distinguished; the chat page always sends a sender id (app/Chats/[id]/page.tsx:65-67).
- Behaviours of the code that are kept as written:
  - the comment notification's published kind is `COMMENT`, while the stored kind is `COMMENTE`;
  - the subscription teardowns are not scoped, which is the subject of the findings below;
  - the comment reply carries the commenter's name.

## Findings

| source | as written | input that shows it | evidently intended | confidence | as-written member | corrected member |
|---|---|---|---|---|---|---|
| Components/SocketProvider.tsx:33-36 | the cleanup disconnects but never removes the `connect` listener it registered | the user changes from `a` to `b` without a reload: the next connect emits `join(a)` and `join(b)` | the cleanup also removes its onConnect closure, so only `join(b)` is emitted | high (not executed) | Session.RerunKeepsOldJoin | Session.ScopedRerunJoinsOnlyNew |
| hooks/useNotication.ts:32-34 | `socket.off("connect")` without a handler removes every `connect` listener, including the provider's rejoin | mount the provider for `u`, mount and unmount the notifications hook, then reconnect: no `join` is emitted and pushes stop arriving | the cleanup removes only the loggers this hook registered | high (not executed) | Session.HookCleanupDropsRejoin | Session.OwnCleanupKeepsRejoin |
| app/allposts/page.tsx:83 | after a send, the draft is reset to `{comment: ""}`, dropping `userId` | send one comment, then type and send a second on any post: it is refused because `userId` is undefined | only the text is cleared and the user is kept | high (not executed) | FeedPage.SecondCommentRefused | FeedPage.SecondCommentSent |

=== FILE: client_socket.dfy ===
/** The browser-side socket (lib/socket-client.ts): a lazily created
    module-level singleton that never connects by itself. */
module ClientSocket {
  import opened Common
  import opened Wire
  import opened Listeners

  /** The options passed when the socket is created. */
  datatype Options = Options(withCredentials: bool, autoConnect: bool, reconnection: bool, reconnectionDelayMs: nat)

  const CreateOptions: Options := Options(true, false, true, 1000)

  /** A socket: `active` once `connect()` was called and not since
      `disconnect()`; `connected` while the transport is up; `sent` lists the
      emits in order. */
  datatype Socket<H> = Socket(opts: Options, active: bool, connected: bool, listeners: Table<H>, sent: seq<Emit>)

  /** A freshly created socket: not connected, no listeners, nothing sent. */
  function Create<H>(): (s: Socket<H>)
    ensures !s.opts.autoConnect && s.opts.reconnection && s.opts.reconnectionDelayMs == 1000
    ensures !s.active && !s.connected && s.listeners == map[] && s.sent == []
  {
    Socket(CreateOptions, false, false, map[], [])
  }

  /** `getSocket()`: the stored socket, creating it on the first call. */
  function GetSocket<H>(holder: Option<Socket<H>>): (r: (Option<Socket<H>>, Socket<H>))
    ensures r.0 == Some(r.1)
    ensures holder.Some? ==> r.1 == holder.value
    ensures holder.None? ==> r.1 == Create()
  {
    match holder
    case Some(s) => (holder, s)
    case None => (Some(Create()), Create())
  }

  /** Calling `getSocket()` twice yields the identical socket, and the
      holder, once set, stays set to it. */
  lemma GetSocketIdempotent<H>(holder: Option<Socket<H>>)
    ensures var (h1, s1) := GetSocket(holder); var (h2, s2) := GetSocket(h1);
      s2 == s1 && h2 == h1 && h1.Some?
  {
  }

  /** `socket.connect()`: asks the transport to open; the socket is not
      connected until the transport reports it. */
  function Connect<H>(s: Socket<H>): (r: Socket<H>)
    ensures r.active && r.connected == s.connected
    ensures r.listeners == s.listeners && r.sent == s.sent && r.opts == s.opts
  {
    s.(active := true)
  }

  /** `socket.disconnect()`: closes and stops reconnecting; listeners stay. */
  function Disconnect<H>(s: Socket<H>): (r: Socket<H>)
    ensures !r.active && !r.connected
    ensures r.listeners == s.listeners && r.sent == s.sent && r.opts == s.opts
  {
    s.(active := false, connected := false)
  }

  /** `socket.emit(event, payload)`. */
  function Send<H>(s: Socket<H>, e: Emit): (r: Socket<H>)
    ensures r.sent == s.sent + [e]
    ensures r.listeners == s.listeners && r.active == s.active && r.connected == s.connected
  {
    s.(sent := s.sent + [e])
  }
}

=== FILE: comment_route.dfy ===
/** Comments (app/api/post/comment/route.ts): POST stores a comment, adds a
    notification for the post's owner and publishes it to the owner's
    channel; GET lists a post's comments. */
module CommentRoute {
  import opened Common
  import opened RelayChannel
  import opened Store

  /** The `type` stored on the notification row. */
  const CommentKind := "COMMENTE"
  /** The `type` carried by the published payload, which differs from the
      stored one. */
  const CommentPayloadType := "COMMENT"
  const CommentMessage := "Commented on your post"

  datatype CommentInput = CommentInput(postId: Option<string>, comment: Option<string>, userId: Option<string>)
  datatype CommentEnv = CommentEnv(commentId: string, notificationId: string, now: int, publishOk: bool)

  /** A success carries the stored rows and the name of the notification's
      sender. */
  datatype CommentReply = CommentFailed | Commented(comment: Comment, notification: Notification, senderName: string)

  function CommentNotification(env: CommentEnv, ownerId: string, senderId: string, postId: string): Notification {
    Notification(env.notificationId, ownerId, senderId, Some(postId), CommentKind, CommentMessage,
                 false, "PENDING", None, None, env.now)
  }

  /** The create succeeds: every field is present and the post and the
      commenter exist. */
  predicate Storable(db: Db, input: CommentInput) {
    && input.postId.Some? && input.comment.Some? && input.userId.Some?
    && HasPost(db.posts, input.postId.value) && input.userId.value in db.users
  }

  /** POST. A missing field, an unknown post or an unknown commenter makes
      the create throw; a relay failure leaves both rows written. There is
      no check that the commenter is not the owner. */
  function PostComment(db: Db, input: CommentInput, env: CommentEnv): (o: Outcome<CommentReply>)
    ensures o.reply.Commented? <==>
      && input.postId.Some? && input.comment.Some? && input.userId.Some?
      && HasPost(db.posts, input.postId.value) && input.userId.value in db.users && env.publishOk
    ensures o.reply.Commented? ==>
      var owner := FindPost(db.posts, input.postId.value).value.ownerId;
      && o.reply.comment == Comment(env.commentId, input.postId.value, input.comment.value, input.userId.value)
      && o.db == db.(comments := db.comments + [o.reply.comment],
                     notifications := db.notifications + [o.reply.notification])
      && o.reply.notification.reciverId == owner && o.reply.notification.kind == CommentKind
      && o.reply.notification.senderId == input.userId.value && o.reply.notification.id == env.notificationId
      && o.reply.senderName == db.users[input.userId.value].name
      && o.published == [Publish(ChannelName(owner), "notification",
                                 map["type" := CommentPayloadType, "message" := CommentMessage,
                                     "senderId" := input.userId.value,
                                     "senderName" := db.users[input.userId.value].name,
                                     "id" := env.notificationId])]
    ensures o.reply.CommentFailed? ==> o.published == [] && o.db.posts == db.posts && o.db.likes == db.likes
    ensures !Storable(db, input) ==> o == Outcome(db, CommentFailed, [])
    ensures Storable(db, input) ==>
      var pid, uid := input.postId.value, input.userId.value;
      o.db == db.(comments := db.comments + [Comment(env.commentId, pid, input.comment.value, uid)],
                  notifications := db.notifications + [CommentNotification(env, FindPost(db.posts, pid).value.ownerId, uid, pid)])
  {
    if input.postId.None? || input.comment.None? || input.userId.None? then Outcome(db, CommentFailed, [])
    else
      var pid, text, uid := input.postId.value, input.comment.value, input.userId.value;
      match FindPost(db.posts, pid)
      case None => Outcome(db, CommentFailed, [])
      case Some(post) =>
        if uid !in db.users then Outcome(db, CommentFailed, [])
        else
          var c := Comment(env.commentId, pid, text, uid);
          var n := CommentNotification(env, post.ownerId, uid, pid);
          var db1 := db.(comments := db.comments + [c], notifications := db.notifications + [n]);
          if !env.publishOk then Outcome(db1, CommentFailed, [])
          else Outcome(db1, Commented(c, n, db.users[uid].name),
                       [Publish(ChannelName(post.ownerId), "notification",
                                map["type" := CommentPayloadType, "message" := CommentMessage,
                                    "senderId" := uid, "senderName" := db.users[uid].name,
                                    "id" := n.id])])
  }

  /** The owner commenting on their own post is notified on their own
      channel. */
  lemma SelfCommentNotifiesSelf(db: Db, input: CommentInput, env: CommentEnv)
    requires PostComment(db, input, env).reply.Commented?
    requires FindPost(db.posts, input.postId.value).value.ownerId == input.userId.value
    ensures PostComment(db, input, env).published[0].channel == ChannelName(input.userId.value)
  {
  }

  /** The kind a client sees in the realtime event is not the kind it later
      reads back from the notifications table. */
  lemma PublishedKindDiffersFromStored(db: Db, input: CommentInput, env: CommentEnv)
    requires PostComment(db, input, env).reply.Commented?
    ensures var o := PostComment(db, input, env);
      o.published[0].payload["type"] != o.reply.notification.kind
  {
  }

  datatype CommentsReply = NoCommentYet | Comments(comments: seq<Comment>)

  function OnPost(cs: seq<Comment>, postId: string): (r: seq<Comment>)
    ensures forall c :: c in r <==> c in cs && c.postId == postId
    ensures |r| <= |cs|
  {
    if |cs| == 0 then []
    else (if cs[0].postId == postId then [cs[0]] else []) + OnPost(cs[1..], postId)
  }

  /** GET. Without a post id the answer is "no comment yet" (a success); with
      one, the post's comments in insertion order, possibly none. */
  function ListComments(db: Db, postId: Option<string>): (r: CommentsReply)
    ensures r.NoCommentYet? <==> !Truthy(postId)
    ensures r.Comments? ==> forall c :: c in r.comments <==> c in db.comments && c.postId == postId.value
  {
    if !Truthy(postId) then NoCommentYet else Comments(OnPost(db.comments, postId.value))
  }

  lemma {:induction false} OnPostAppend(cs: seq<Comment>, c: Comment, postId: string)
    ensures OnPost(cs + [c], postId) == OnPost(cs, postId) + (if c.postId == postId then [c] else [])
  {
    if |cs| == 0 {
      assert cs + [c] == [c];
    } else {
      var head := if cs[0].postId == postId then [cs[0]] else [];
      var last := if c.postId == postId then [c] else [];
      assert (cs + [c])[0] == cs[0];
      assert (cs + [c])[1..] == cs[1..] + [c];
      assert OnPost(cs + [c], postId) == head + OnPost(cs[1..] + [c], postId);
      OnPostAppend(cs[1..], c, postId);
      AppendAssoc(head, OnPost(cs[1..], postId), last);
    }
  }

  lemma AppendAssoc<T>(a: seq<T>, b: seq<T>, c: seq<T>)
    ensures a + (b + c) == (a + b) + c
  {
  }

  /** A stored comment is listed last for its post,
      after every comment the post had before. */
  lemma CommentIsListedLast(db: Db, input: CommentInput, env: CommentEnv)
    requires input.postId.Some? && input.postId.value != ""
    requires PostComment(db, input, env).reply.Commented?
    ensures var o := PostComment(db, input, env);
      ListComments(o.db, input.postId) == Comments(OnPost(db.comments, input.postId.value) + [o.reply.comment])
  {
    var o := PostComment(db, input, env);
    OnPostAppend(db.comments, o.reply.comment, input.postId.value);
  }
}

=== FILE: common.dfy ===
/** Shared vocabulary: optional values, JavaScript truthiness of optional
    strings, and how a missing value is rendered inside a template literal. */
module Common {

  /** A value that may be absent (JavaScript `undefined` / `null`). */
  datatype Option<+T> = None | Some(value: T) {
    function GetOr(default: T): T {
      match this
      case Some(v) => v
      case None => default
    }
  }

  /** An optional string is truthy when present and non-empty. */
  predicate Truthy(o: Option<string>) {
    o.Some? && o.value != ""
  }

  /** `${x}` for an optional string: an absent value prints as "undefined". */
  function TemplateText(o: Option<string>): (r: string)
    ensures o.Some? ==> r == o.value
    ensures o.None? ==> r == "undefined"
  {
    match o
    case Some(s) => s
    case None => "undefined"
  }

  /** Reads a field of a flat record; absent keys are `undefined`. */
  function Field(m: map<string, string>, k: string): (r: Option<string>)
    ensures r.Some? <==> k in m
    ensures r.Some? ==> r.value == m[k]
  {
    if k in m then Some(m[k]) else None
  }

  /** Adds a field only when the value is present (null and undefined fields
      are both read back as absent). */
  function With(m: map<string, string>, k: string, v: Option<string>): (r: map<string, string>)
    ensures v.Some? ==> r == m[k := v.value]
    ensures v.None? ==> r == m - {k}
  {
    match v
    case Some(x) => m[k := x]
    case None => m - {k}
  }

  /** The position of the first element satisfying `p`; `|s|` when there
      is none. */
  function FirstWhere<T>(s: seq<T>, p: T -> bool): (i: nat)
    ensures i <= |s|
    ensures forall k :: 0 <= k < i ==> !p(s[k])
    ensures i < |s| ==> p(s[i])
  {
    if |s| == 0 then 0
    else if p(s[0]) then 0
    else
      var j := FirstWhere(s[1..], p);
      assert forall k :: 0 < k <= j ==> s[k] == s[1..][k - 1];
      j + 1
  }

  /** `s` without its first element satisfying `p`, the others kept in
      order; `s` itself when no element does. */
  function RemoveFirstWhere<T>(s: seq<T>, p: T -> bool): (r: seq<T>)
    ensures var i := FirstWhere(s, p);
      r == if i < |s| then s[..i] + s[i + 1..] else s
  {
    if |s| == 0 then []
    else if p(s[0]) then
      assert s[..0] + s[1..] == s[1..];
      s[1..]
    else
      var j := FirstWhere(s[1..], p);
      var rest := RemoveFirstWhere(s[1..], p);
      ConsWithout(s, rest, j);
      [s[0]] + rest
  }

  /** Putting the head back in front of `s[1..]` with position `j` dropped
      gives `s` with position `j + 1` dropped. */
  lemma ConsWithout<T>(s: seq<T>, rest: seq<T>, j: nat)
    requires 0 < |s| && j < |s|
    requires rest == if j < |s| - 1 then s[1..][..j] + s[1..][j + 1..] else s[1..]
    ensures [s[0]] + rest == if j + 1 < |s| then s[..j + 1] + s[j + 2..] else s
  {
    if j + 1 < |s| {
      assert s[1..][..j] == s[1..j + 1];
      assert s[1..][j + 1..] == s[j + 2..];
      assert [s[0]] + s[1..j + 1] == s[..j + 1];
    } else {
      assert [s[0]] + s[1..] == s;
    }
  }

  /** The first match is the only position that is a match with no match
      before it. */
  lemma FirstWhereIs<T>(s: seq<T>, p: T -> bool, j: nat)
    requires j < |s| && p(s[j])
    requires forall k :: 0 <= k < j ==> !p(s[k])
    ensures FirstWhere(s, p) == j
  {
  }

  /** How many elements of `s` satisfy `p` (`s.filter(p).length`). */
  function CountWhere<T>(s: seq<T>, p: T -> bool): (n: nat)
    ensures n <= |s|
    ensures n == 0 <==> forall i :: 0 <= i < |s| ==> !p(s[i])
  {
    if |s| == 0 then 0
    else
      assert forall i :: 1 <= i < |s| ==> s[1..][i - 1] == s[i];
      (if p(s[0]) then 1 else 0) + CountWhere(s[1..], p)
  }

  /** One element counts one exactly when it satisfies `p`. */
  lemma CountWhereSingle<T>(x: T, p: T -> bool)
    ensures CountWhere([x], p) == if p(x) then 1 else 0
  {
    assert [x][1..] == [];
  }

  /** The count adds up over concatenation; with `CountWhereSingle` this
      makes it the number of matching elements. */
  lemma {:induction false} CountWhereAppend<T>(a: seq<T>, b: seq<T>, p: T -> bool)
    ensures CountWhere(a + b, p) == CountWhere(a, p) + CountWhere(b, p)
  {
    if |a| == 0 {
      assert a + b == b;
    } else {
      assert (a + b)[0] == a[0];
      assert (a + b)[1..] == a[1..] + b;
      CountWhereAppend(a[1..], b, p);
    }
  }
}

=== FILE: feed_page.dfy ===
/** The all-posts feed (app/allposts/page.tsx): the comment draft and its
    send guard, the liked-posts list, and the comment panel toggle. */
module FeedPage {
  import opened Common
  import Strs

  /** The comment draft; every field may be undefined. */
  datatype Draft = Draft(comment: Option<string>, userId: Option<string>, postId: Option<string>)

  /** The initial draft: the state starts undefined, so every field reads
      as undefined. */
  const NoDraft := Draft(None, None, None)

  /** The effect that runs when loading settles: the draft becomes just the
      signed-in user's id. */
  function ResetForUser(userId: Option<string>): (d: Draft)
    ensures d.userId == userId && d.comment.None? && d.postId.None?
  {
    Draft(None, userId, None)
  }

  /** Typing in a post's comment box: the text and that post's id, keeping
      the rest of the draft. */
  function Type(d: Draft, text: string, postId: string): (r: Draft)
    ensures r.comment == Some(text) && r.postId == Some(postId) && r.userId == d.userId
  {
    d.(comment := Some(text), postId := Some(postId))
  }

  /** Whether a send goes out: text, user and post all present and the text
      not blank. */
  predicate CanSend(d: Draft) {
    d.comment.Some? && d.userId.Some? && d.postId.Some? && |Strs.Trim(d.comment.value)| > 0
  }

  /** `sendComment` as written: the mutation gets the draft, and the draft is
      then replaced by one holding only an empty comment. */
  function SendComment(d: Draft): (r: (Draft, Option<Draft>))
    ensures r.1.Some? <==> CanSend(d)
    ensures r.1.Some? ==> r.1.value == d && r.0 == Draft(Some(""), None, None)
    ensures r.1.None? ==> r.0 == d
  {
    if CanSend(d) then (Draft(Some(""), None, None), Some(d)) else (d, None)
  }

  /** After one comment is sent, typing another is refused until the effect
      runs again, because the reset dropped the user's id. */
  lemma SecondCommentRefused(d: Draft, text: string, postId: string)
    requires CanSend(d)
    ensures SendComment(Type(SendComment(d).0, text, postId)).1.None?
  {
  }

  /** `sendComment` as evidently intended: only the text is cleared. */
  function SendCommentKeepingUser(d: Draft): (r: (Draft, Option<Draft>))
    ensures r.1.Some? <==> CanSend(d)
    ensures r.1.Some? ==> r.1.value == d && r.0 == d.(comment := Some(""))
    ensures r.1.None? ==> r.0 == d
  {
    if CanSend(d) then (d.(comment := Some("")), Some(d)) else (d, None)
  }

  /** With the corrected reset, a second non-blank comment goes out, and it
      carries the same user. */
  lemma SecondCommentSent(d: Draft, text: string, postId: string)
    requires CanSend(d)
    requires |Strs.Trim(text)| > 0
    ensures var second := SendCommentKeepingUser(Type(SendCommentKeepingUser(d).0, text, postId)).1;
      second.Some? && second.value.userId == d.userId && second.value.comment == Some(text)
  {
  }

  /** A blank comment is never sent: the text must contain a character that
      is not white space. */
  lemma BlankNeverSent(d: Draft)
    requires d.comment.Some? && Strs.AllSpace(d.comment.value)
    ensures SendComment(d).1.None? && SendCommentKeepingUser(d).1.None?
  {
    Strs.TrimEmptyIffAllSpace(d.comment.value);
  }

  // ------------------------------------------------------------------ likes

  predicate NoDuplicates(s: seq<string>) {
    forall i, j :: 0 <= i < j < |s| ==> s[i] != s[j]
  }

  /** `handleLike`: with an id and a user, the id is recorded once and the
      like call is made with the user's id, on every click. */
  function HandleLike(liked: seq<string>, id: Option<string>, userId: Option<string>): (r: (seq<string>, Option<(string, string)>))
    ensures r.1.Some? <==> Truthy(id) && userId.Some?
    ensures r.1.Some? ==> r.1.value == (id.value, userId.value)
    ensures NoDuplicates(liked) ==> NoDuplicates(r.0)
    ensures |liked| <= |r.0| && r.0[..|liked|] == liked
    ensures forall x :: x in r.0 <==> x in liked || (Truthy(id) && userId.Some? && x == id.value)
  {
    if Truthy(id) && userId.Some? then
      (if id.value in liked then liked else liked + [id.value], Some((id.value, userId.value)))
    else (liked, None)
  }

  /** Clicking like twice sends two like calls (which the server reads as
      like then unlike), while the list keeps the post as liked. */
  lemma DoubleClickKeepsLiked(liked: seq<string>, id: string, userId: string)
    requires id != ""
    ensures var first := HandleLike(liked, Some(id), Some(userId));
      var second := HandleLike(first.0, Some(id), Some(userId));
      first.1.Some? && second.1.Some? && id in second.0 && second.0 == first.0
  {
  }

  // ------------------------------------------------------------ comment panel

  /** Clicking a post's comment button: closes it when it is the open one,
      opens it otherwise (closing any other). */
  function TogglePanel(open: Option<string>, postId: string): (r: Option<string>)
    ensures r == Some(postId) <==> open != Some(postId)
    ensures r.Some? ==> r.value == postId
  {
    if open == Some(postId) then None else Some(postId)
  }

  lemma TogglePanelTwice(open: Option<string>, postId: string)
    requires open.None? || open == Some(postId)
    ensures TogglePanel(TogglePanel(open, postId), postId) == open
  {
  }
}

=== FILE: friend_routes.dfy ===
/** Friend requests: sending and checking a request
    (app/api/request/friend/route.ts), accepting and rejecting it (the accept
    and reject routes), and listing a user's friends
    (app/api/get/allFriends/route.ts). */
module FriendRoutes {
  import opened Common
  import Strs
  import opened Store

  const Pending := "PENDING"
  const Accepted := "ACCEPTED"
  const Rejected := "REJECTED"
  const RequestKind := "FRIEND-REQUEST"
  const RequestMessage := "send a friend request"
  const AcceptedMessage := "is now your friend"

  // ------------------------------------------------------- send and check

  datatype RequestInput = RequestInput(senderId: Option<string>, reciverId: Option<string>)
  datatype RequestEnv = RequestEnv(reqId: string, notificationId: string, now: int)

  datatype RequestReply =
    | RequestMissingIds
    | AlreadySent
    | RequestFailed
    | Requested(notification: Notification, req: FriendReq)

  function RequestStatus(r: RequestReply): nat {
    if r.RequestMissingIds? then StatusUnauthorized else StatusOk
  }

  predicate SameDirection(r: FriendReq, senderId: string, reciverId: string) {
    r.senderId == senderId && r.reciverId == reciverId
  }

  predicate HasRequest(rs: seq<FriendReq>, senderId: string, reciverId: string) {
    exists i :: 0 <= i < |rs| && SameDirection(rs[i], senderId, reciverId)
  }

  function FindRequest(rs: seq<FriendReq>, senderId: string, reciverId: string): (r: Option<FriendReq>)
    ensures r.Some? <==> HasRequest(rs, senderId, reciverId)
    ensures r.Some? ==> r.value in rs && SameDirection(r.value, senderId, reciverId)
  {
    if |rs| == 0 then None
    else if SameDirection(rs[0], senderId, reciverId) then Some(rs[0])
    else
      assert forall i :: 0 <= i < |rs[1..]| ==> rs[1..][i] == rs[i + 1];
      FindRequest(rs[1..], senderId, reciverId)
  }

  /** POST. Only a request missing BOTH ids is refused up front; one missing
      id reaches the unique lookup, which throws. A request already sent in
      the same direction is refused; one in the opposite direction is not. */
  function SendRequest(db: Db, input: RequestInput, env: RequestEnv): (o: Outcome<RequestReply>)
    ensures o.published == []
    ensures o.reply.RequestMissingIds? <==> !Truthy(input.senderId) && !Truthy(input.reciverId)
    ensures o.reply.Requested? <==>
      input.senderId.Some? && input.reciverId.Some?
      && (Truthy(input.senderId) || Truthy(input.reciverId))
      && !HasRequest(db.friendReqs, input.senderId.value, input.reciverId.value)
    ensures !o.reply.Requested? ==> o.db == db
    ensures o.reply.Requested? ==>
      && o.reply.req == FriendReq(env.reqId, input.senderId.value, input.reciverId.value, Pending)
      && o.reply.notification.friendReqId == Some(env.reqId)
      && o.reply.notification.accepted == Some(false)
      && o.reply.notification.reciverId == input.reciverId.value
      && o.db == db.(friendReqs := db.friendReqs + [o.reply.req],
                     notifications := db.notifications + [o.reply.notification])
  {
    if !Truthy(input.reciverId) && !Truthy(input.senderId) then Outcome(db, RequestMissingIds, [])
    else if input.senderId.None? || input.reciverId.None? then Outcome(db, RequestFailed, [])
    else
      var sid, rid := input.senderId.value, input.reciverId.value;
      if HasRequest(db.friendReqs, sid, rid) then Outcome(db, AlreadySent, [])
      else
        var req := FriendReq(env.reqId, sid, rid, Pending);
        var n := Notification(env.notificationId, rid, sid, None, RequestKind, RequestMessage,
                              false, Pending, Some(false), Some(env.reqId), env.now);
        Outcome(db.(friendReqs := db.friendReqs + [req], notifications := db.notifications + [n]),
                Requested(n, req), [])
  }

  datatype CheckReply = CheckMissingIds | NotCreated | RequestExists(req: FriendReq)

  function CheckStatus(r: CheckReply): nat {
    if r.RequestExists? then StatusOk else StatusUnauthorized
  }

  /** GET: whether a request was sent from `senderId` to `reciverId`. */
  function CheckRequest(db: Db, senderId: Option<string>, reciverId: Option<string>): (r: CheckReply)
    ensures r.CheckMissingIds? <==> !Truthy(senderId) || !Truthy(reciverId)
    ensures r.RequestExists? <==>
      Truthy(senderId) && Truthy(reciverId) && HasRequest(db.friendReqs, senderId.value, reciverId.value)
    ensures r.RequestExists? ==> r.req in db.friendReqs && SameDirection(r.req, senderId.value, reciverId.value)
  {
    if !Truthy(senderId) || !Truthy(reciverId) then CheckMissingIds
    else match FindRequest(db.friendReqs, senderId.value, reciverId.value)
      case None => NotCreated
      case Some(req) => RequestExists(req)
  }

  /** Once sent, the request is found by the check,
      and sending it again is refused without touching the store. */
  lemma SendThenCheckAndResend(db: Db, input: RequestInput, env1: RequestEnv, env2: RequestEnv)
    requires Truthy(input.senderId) && Truthy(input.reciverId)
    requires SendRequest(db, input, env1).reply.Requested?
    ensures var o := SendRequest(db, input, env1);
      && CheckRequest(o.db, input.senderId, input.reciverId).RequestExists?
      && SendRequest(o.db, input, env2) == Outcome(o.db, AlreadySent, [])
  {
    var o := SendRequest(db, input, env1);
    var rs := o.db.friendReqs;
    assert SameDirection(rs[|rs| - 1], input.senderId.value, input.reciverId.value);
  }

  // ---------------------------------------------------- accept and reject

  /** The friendship row stores the pair in `<` order, so it does not depend
      on who sent the request. */
  function CanonicalPair(a: string, b: string): (f: Friendship)
    ensures Strs.Less(f.user1Id, f.user2Id) || f.user1Id == f.user2Id
    ensures {f.user1Id, f.user2Id} == {a, b}
  {
    Strs.LessTrichotomy(a, b);
    if Strs.Less(a, b) then Friendship(a, b) else Friendship(b, a)
  }

  lemma CanonicalPairSymmetric(a: string, b: string)
    ensures CanonicalPair(a, b) == CanonicalPair(b, a)
  {
    Strs.LessTrichotomy(a, b);
  }

  datatype DecisionReply = ReqIdMissing | DecisionFailed | Decided(req: FriendReq)

  function SetRequestStatus(rs: seq<FriendReq>, id: string, status: string): (r: seq<FriendReq>)
    ensures |r| == |rs|
    ensures forall i :: 0 <= i < |rs| ==> r[i] == if rs[i].id == id then rs[i].(status := status) else rs[i]
  {
    if |rs| == 0 then []
    else [if rs[0].id == id then rs[0].(status := status) else rs[0]] + SetRequestStatus(rs[1..], id, status)
  }

  /** Updates the notification with the given id: its status, and its message
      when one is given. */
  function SetNotification(ns: seq<Notification>, id: string, status: string, message: Option<string>): (r: seq<Notification>)
    ensures |r| == |ns|
    ensures forall i :: 0 <= i < |ns| ==>
      r[i] == if ns[i].id == id then ns[i].(status := status, message := message.GetOr(ns[i].message)) else ns[i]
  {
    if |ns| == 0 then []
    else [if ns[0].id == id then ns[0].(status := status, message := message.GetOr(ns[0].message)) else ns[0]]
         + SetNotification(ns[1..], id, status, message)
  }

  /** The shared part of accept and reject: update the request, then the
      notification. Each update throws when its row is missing; the request
      update is kept when the notification update throws. */
  function Decide(db: Db, reqId: Option<string>, notifId: Option<string>, status: string, message: Option<string>): (o: Outcome<DecisionReply>)
    ensures o.published == [] && o.db.friendships == db.friendships
    ensures o.db.users == db.users
    ensures !o.reply.Decided? ==> o.db.notifications == db.notifications
    ensures |o.db.notifications| == |db.notifications|
    ensures o.reply.ReqIdMissing? <==> !Truthy(reqId)
    ensures o.reply.Decided? <==>
      Truthy(reqId) && HasFriendReq(db.friendReqs, reqId.value)
      && notifId.Some? && HasNotification(db.notifications, notifId.value)
    ensures o.reply.Decided? ==>
      && o.reply.req == FindFriendReq(db.friendReqs, reqId.value).value.(status := status)
      && o.db == db.(friendReqs := SetRequestStatus(db.friendReqs, reqId.value, status),
                     notifications := SetNotification(db.notifications, notifId.value, status, message))
    ensures !(Truthy(reqId) && HasFriendReq(db.friendReqs, reqId.value)) ==> o.db == db
    ensures Truthy(reqId) && HasFriendReq(db.friendReqs, reqId.value) && !o.reply.Decided? ==>
      o.reply.DecisionFailed? && o.db == db.(friendReqs := SetRequestStatus(db.friendReqs, reqId.value, status))
  {
    if !Truthy(reqId) then Outcome(db, ReqIdMissing, [])
    else match FindFriendReq(db.friendReqs, reqId.value)
      case None => Outcome(db, DecisionFailed, [])
      case Some(req) =>
        var db1 := db.(friendReqs := SetRequestStatus(db.friendReqs, reqId.value, status));
        if notifId.None? || !HasNotification(db.notifications, notifId.value) then Outcome(db1, DecisionFailed, [])
        else Outcome(db1.(notifications := SetNotification(db.notifications, notifId.value, status, message)),
                     Decided(req.(status := status)), [])
  }

  /** Accept: the request and its notification become ACCEPTED (whatever the
      request's earlier status) and the pair becomes friends. */
  function Accept(db: Db, reqId: Option<string>, notifId: Option<string>): (o: Outcome<DecisionReply>)
    ensures o.published == [] && o.db.users == db.users
    ensures o.reply.ReqIdMissing? <==> !Truthy(reqId)
    ensures o.reply.Decided? <==>
      Truthy(reqId) && HasFriendReq(db.friendReqs, reqId.value)
      && notifId.Some? && HasNotification(db.notifications, notifId.value)
    ensures o.reply.Decided? ==>
      && o.db.friendReqs == SetRequestStatus(db.friendReqs, reqId.value, Accepted)
      && o.db.notifications == SetNotification(db.notifications, notifId.value, Accepted, Some(AcceptedMessage))
    ensures !o.reply.Decided? ==> o.db.notifications == db.notifications
    ensures o.reply.Decided? ==>
      && o.reply.req.status == Accepted
      && CanonicalPair(o.reply.req.senderId, o.reply.req.reciverId) in o.db.friendships
      && o.db.friendships == db.friendships + {CanonicalPair(o.reply.req.senderId, o.reply.req.reciverId)}
    ensures !o.reply.Decided? ==> o.db.friendships == db.friendships
    ensures o.reply.Decided? <==> Decide(db, reqId, notifId, Accepted, Some(AcceptedMessage)).reply.Decided?
    ensures !(Truthy(reqId) && HasFriendReq(db.friendReqs, reqId.value)) ==> o.db == db
    ensures Truthy(reqId) && HasFriendReq(db.friendReqs, reqId.value) && !o.reply.Decided? ==>
      o.reply.DecisionFailed? && o.db == db.(friendReqs := SetRequestStatus(db.friendReqs, reqId.value, Accepted))
    ensures o.reply.Decided? ==>
      o.db == db.(friendReqs := SetRequestStatus(db.friendReqs, reqId.value, Accepted),
                  notifications := SetNotification(db.notifications, notifId.value, Accepted, Some(AcceptedMessage)),
                  friendships := db.friendships + {CanonicalPair(o.reply.req.senderId, o.reply.req.reciverId)})
  {
    var o := Decide(db, reqId, notifId, Accepted, Some(AcceptedMessage));
    if !o.reply.Decided? then o
    else
      var pair := CanonicalPair(o.reply.req.senderId, o.reply.req.reciverId);
      o.(db := o.db.(friendships := o.db.friendships + {pair}))
  }

  /** Reject: the request and its notification become REJECTED; the
      notification keeps its message and no friendship is made. */
  function Reject(db: Db, reqId: Option<string>, notifId: Option<string>): (o: Outcome<DecisionReply>)
    ensures o.published == [] && o.db.users == db.users
    ensures o.db.friendships == db.friendships
    ensures o.reply.ReqIdMissing? <==> !Truthy(reqId)
    ensures o.reply.Decided? <==>
      Truthy(reqId) && HasFriendReq(db.friendReqs, reqId.value)
      && notifId.Some? && HasNotification(db.notifications, notifId.value)
    ensures o.reply.Decided? ==>
      && o.db.friendReqs == SetRequestStatus(db.friendReqs, reqId.value, Rejected)
      && o.db.notifications == SetNotification(db.notifications, notifId.value, Rejected, None)
    ensures !o.reply.Decided? ==> o.db.notifications == db.notifications
    ensures o.reply.Decided? ==> o.reply.req.status == Rejected
    ensures |o.db.notifications| == |db.notifications|
    ensures forall i :: 0 <= i < |db.notifications| ==> o.db.notifications[i].message == db.notifications[i].message
    ensures !(Truthy(reqId) && HasFriendReq(db.friendReqs, reqId.value)) ==> o.db == db
    ensures Truthy(reqId) && HasFriendReq(db.friendReqs, reqId.value) && !o.reply.Decided? ==>
      o.reply.DecisionFailed? && o.db == db.(friendReqs := SetRequestStatus(db.friendReqs, reqId.value, Rejected))
    ensures o.reply.Decided? ==>
      o.db == db.(friendReqs := SetRequestStatus(db.friendReqs, reqId.value, Rejected),
                  notifications := SetNotification(db.notifications, notifId.value, Rejected, None))
  {
    Decide(db, reqId, notifId, Rejected, None)
  }

  /** Accepting never looks at the earlier status: a rejected request can
      still be accepted. */
  lemma AcceptAfterReject(db: Db, reqId: string, notifId: string)
    requires reqId != "" && HasFriendReq(db.friendReqs, reqId) && HasNotification(db.notifications, notifId)
    ensures var r := Reject(db, Some(reqId), Some(notifId));
      r.reply.Decided? && Accept(r.db, Some(reqId), Some(notifId)).reply.Decided?
  {
    var r := Reject(db, Some(reqId), Some(notifId));
    DecidedKeepsRows(db, reqId, notifId, Rejected, None);
    assert Decide(r.db, Some(reqId), Some(notifId), Accepted, Some(AcceptedMessage)).reply.Decided?;
  }

  /** A decision keeps both rows, so a second decision finds them again. */
  lemma DecidedKeepsRows(db: Db, reqId: string, notifId: string, status: string, message: Option<string>)
    requires reqId != "" && HasFriendReq(db.friendReqs, reqId) && HasNotification(db.notifications, notifId)
    ensures var o := Decide(db, Some(reqId), Some(notifId), status, message);
      o.reply.Decided? && HasFriendReq(o.db.friendReqs, reqId) && HasNotification(o.db.notifications, notifId)
  {
    var o := Decide(db, Some(reqId), Some(notifId), status, message);
    assert o.reply.Decided?;
    assert o.db.friendReqs == SetRequestStatus(db.friendReqs, reqId, status);
    assert o.db.notifications == SetNotification(db.notifications, notifId, status, message);
    RequestStatusKeepsId(db.friendReqs, reqId, status);
    NotificationKeepsId(db.notifications, notifId, status, message);
  }

  lemma RequestStatusKeepsId(rs: seq<FriendReq>, id: string, status: string)
    requires HasFriendReq(rs, id)
    ensures HasFriendReq(SetRequestStatus(rs, id, status), id)
  {
    var i :| 0 <= i < |rs| && rs[i].id == id;
    assert SetRequestStatus(rs, id, status)[i].id == id;
  }

  lemma NotificationKeepsId(ns: seq<Notification>, id: string, status: string, message: Option<string>)
    requires HasNotification(ns, id)
    ensures HasNotification(SetNotification(ns, id, status, message), id)
  {
    var i :| 0 <= i < |ns| && ns[i].id == id;
    assert SetNotification(ns, id, status, message)[i].id == id;
  }

  // ----------------------------------------------------------- allFriends

  datatype FriendsReply = FriendsMissingUser | FriendList(ids: set<string>)

  function FriendsStatus(r: FriendsReply): nat {
    if r.FriendList? then StatusOk else StatusUnauthorized
  }

  /** The other side of a friendship row. */
  function Other(f: Friendship, userId: string): string {
    if f.user1Id == userId then f.user2Id else f.user1Id
  }

  /** GET: the users on the other side of the user's friendship rows; ids that
      are not users are dropped and repeated ids collapse. */
  function AllFriends(db: Db, userId: Option<string>): (r: FriendsReply)
    ensures r.FriendsMissingUser? <==> !Truthy(userId)
    ensures r.FriendList? ==> forall x :: x in r.ids <==>
      x in db.users && (Friendship(userId.value, x) in db.friendships || Friendship(x, userId.value) in db.friendships)
  {
    if !Truthy(userId) then FriendsMissingUser
    else
      var u := userId.value;
      var others := set f | f in db.friendships && (f.user1Id == u || f.user2Id == u) :: Other(f, u);
      assert forall x :: x in others <==> Friendship(u, x) in db.friendships || Friendship(x, u) in db.friendships by {
        forall x ensures x in others <==> Friendship(u, x) in db.friendships || Friendship(x, u) in db.friendships {
          if Friendship(u, x) in db.friendships {
            assert Other(Friendship(u, x), u) == x;
          } else if Friendship(x, u) in db.friendships {
            assert Other(Friendship(x, u), u) == x;
          }
        }
      }
      FriendList(set x | x in others && x in db.users)
  }

  /** Once a request is accepted both users see each
      other among their friends (when both are users). */
  lemma AcceptMakesMutualFriends(db: Db, reqId: Option<string>, notifId: Option<string>)
    requires Accept(db, reqId, notifId).reply.Decided?
    ensures var o := Accept(db, reqId, notifId);
      var a, b := o.reply.req.senderId, o.reply.req.reciverId;
      && a != "" && b != "" && a in db.users && b in db.users ==>
        && b in AllFriends(o.db, Some(a)).ids
        && a in AllFriends(o.db, Some(b)).ids
  {
    var o := Accept(db, reqId, notifId);
    var a, b := o.reply.req.senderId, o.reply.req.reciverId;
    assert o.db.users == db.users;
    var f := CanonicalPair(a, b);
    assert f == Friendship(a, b) || f == Friendship(b, a);
  }
}

=== FILE: images.dfy ===
/** The image host as the routes use it: one upload per request, and the
    public id under which an existing image is overwritten. */
module Images {
  import opened Common
  import Strs

  /** The outcome of one upload: a rejection (which throws), or the returned
      `secure_url`, absent when the host returned none. */
  datatype Upload = UploadRejected | Uploaded(url: Option<string>)

  /** The Cloudinary public id reused to overwrite an image: the last
      `/`-separated segment of its URL, up to its first `.`. */
  function PublicId(url: string): (r: string)
    ensures '/' !in r && '.' !in r
    ensures Strs.StartsWith(Strs.AfterLast(url, '/'), r)
  {
    Strs.BeforeFirst(Strs.AfterLast(url, '/'), '.')
  }

  /** The public id sits right after the URL's last `/` (or at its start),
      and ends at a `.` or at the end of the URL. */
  lemma PublicIdPosition(url: string)
    ensures var seg := Strs.AfterLast(url, '/');
      var id := PublicId(url);
      && |seg| <= |url| && |id| <= |seg|
      && url[|url| - |seg|..][..|id|] == id
      && (|seg| < |url| ==> url[|url| - |seg| - 1] == '/')
      && (|id| < |seg| ==> seg[|id|] == '.')
  {
    Strs.AfterLastIsSuffix(url, '/');
  }

  /** For a URL `dir/name.ext`, the public id is `name`. */
  lemma PublicIdOfFileName(dir: string, name: string, ext: string)
    requires '/' !in name && '/' !in ext && '.' !in name
    ensures PublicId(dir + "/" + name + "." + ext) == name
  {
    var file := name + ['.'] + ext;
    assert '/' !in file;
    Strs.AfterLastAppend(dir, file, '/');
    assert dir + "/" + name + "." + ext == dir + ['/'] + file;
    Strs.SplitPrefix(name, ext, '.');
  }
}

=== FILE: like_route.dfy ===
/** Likes (app/api/post/like/route.ts): POST toggles a like and its
    notification; GET lists a post's likes. Nothing is published here: the
    client announces likes over the socket itself. */
module LikeRoute {
  import opened Common
  import opened Store

  const LikeKind := "LIKE"
  const LikeMessage := "liked your post"

  datatype LikeInput = LikeInput(id: Option<string>, senderId: Option<string>)
  datatype LikeEnv = LikeEnv(notificationId: string, now: int)

  datatype LikeReply =
    | LikeMissingSender
    | LikeMissingPost
    | LikeFailed
    | Unliked
    | Liked(postOwnerId: string, notificationId: string, senderName: string, senderId: string)

  /** The two early refusals spell the success flag `succcess`. */
  function SuccessKey(r: LikeReply): (k: string)
    ensures k == "success" <==> !(r.LikeMissingSender? || r.LikeMissingPost?)
  {
    if r.LikeMissingSender? || r.LikeMissingPost? then "succcess" else "success"
  }

  /** The notification a like leaves, identified by its unique key
      (sender, post, type). */
  predicate IsLikeNotification(n: Notification, senderId: string, postId: string) {
    n.senderId == senderId && n.postId == Some(postId) && n.kind == LikeKind
  }

  predicate HasLikeNotification(ns: seq<Notification>, senderId: string, postId: string) {
    exists i :: 0 <= i < |ns| && IsLikeNotification(ns[i], senderId, postId)
  }

  /** Deletes the first notification with the like key, if there is one;
      every other row stays, in order. */
  function RemoveLikeNotification(ns: seq<Notification>, senderId: string, postId: string): (r: seq<Notification>)
    ensures HasLikeNotification(ns, senderId, postId) ==>
      exists i :: 0 <= i < |ns| && IsLikeNotification(ns[i], senderId, postId)
        && (forall k :: 0 <= k < i ==> !IsLikeNotification(ns[k], senderId, postId))
        && r == ns[..i] + ns[i + 1..]
    ensures !HasLikeNotification(ns, senderId, postId) ==> r == ns
  {
    var key := n => IsLikeNotification(n, senderId, postId);
    var i := FirstWhere(ns, key);
    assert i < |ns| ==> IsLikeNotification(ns[i], senderId, postId);
    assert HasLikeNotification(ns, senderId, postId) ==> i < |ns| by {
      if HasLikeNotification(ns, senderId, postId) {
        var j :| 0 <= j < |ns| && IsLikeNotification(ns[j], senderId, postId);
        assert key(ns[j]);
      }
    }
    RemoveFirstWhere(ns, key)
  }

  /** POST. An existing like is deleted together with its notification (if
      that notification is missing the delete throws after the like is
      already gone); otherwise a like and a LIKE notification for the post's
      owner are created. */
  function ToggleLike(db: Db, input: LikeInput, env: LikeEnv): (o: Outcome<LikeReply>)
    ensures o.published == []
    ensures o.db == db.(likes := o.db.likes, notifications := o.db.notifications)
    ensures !o.reply.Liked? && !o.reply.Unliked? ==> o.db.notifications == db.notifications
    ensures !Truthy(input.senderId) ==> o.reply == LikeMissingSender && o.db == db
    ensures Truthy(input.senderId) && !Truthy(input.id) ==> o.reply == LikeMissingPost && o.db == db
    ensures Truthy(input.senderId) && Truthy(input.id) ==>
      var like := Like(input.senderId.value, input.id.value);
      && (like in db.likes ==>
            like !in o.db.likes && o.db.likes == db.likes - {like}
            && (o.reply == Unliked <==> HasLikeNotification(db.notifications, like.likerId, like.postId))
            && (o.reply == Unliked ==>
                  o.db.notifications == RemoveLikeNotification(db.notifications, like.likerId, like.postId)))
      && (like !in db.likes ==>
            (o.reply.Liked? <==> HasPost(db.posts, like.postId) && like.likerId in db.users))
      && (like !in db.likes && !o.reply.Liked? ==> o.reply == LikeFailed && o.db == db)
      && (o.reply.Liked? ==>
            && o.db.likes == db.likes + {like}
            && o.reply.postOwnerId == FindPost(db.posts, like.postId).value.ownerId
            && o.reply.senderId == like.likerId
            && o.db.notifications == db.notifications +
                 [Notification(env.notificationId, o.reply.postOwnerId, like.likerId, Some(like.postId),
                               LikeKind, LikeMessage, false, "PENDING", None, None, env.now)])
  {
    if !Truthy(input.senderId) then Outcome(db, LikeMissingSender, [])
    else if !Truthy(input.id) then Outcome(db, LikeMissingPost, [])
    else
      var sid, pid := input.senderId.value, input.id.value;
      var like := Like(sid, pid);
      if like in db.likes then
        var db1 := db.(likes := db.likes - {like});
        if !HasLikeNotification(db.notifications, sid, pid) then Outcome(db1, LikeFailed, [])
        else Outcome(db1.(notifications := RemoveLikeNotification(db.notifications, sid, pid)), Unliked, [])
      else
        match FindPost(db.posts, pid)
        case None => Outcome(db, LikeFailed, [])
        case Some(post) =>
          if sid !in db.users then Outcome(db, LikeFailed, [])
          else
            var n := Notification(env.notificationId, post.ownerId, sid, Some(pid), LikeKind, LikeMessage,
                                  false, "PENDING", None, None, env.now);
            Outcome(db.(likes := db.likes + {like}, notifications := db.notifications + [n]),
                    Liked(post.ownerId, n.id, db.users[sid].name, sid), [])
  }

  /** Deleting by the like key right after adding the only row with that
      key gives back the table as it was. */
  lemma RemoveAppendedLikeNotification(ns: seq<Notification>, n: Notification, senderId: string, postId: string)
    requires !HasLikeNotification(ns, senderId, postId)
    requires IsLikeNotification(n, senderId, postId)
    ensures RemoveLikeNotification(ns + [n], senderId, postId) == ns
  {
    var key := n => IsLikeNotification(n, senderId, postId);
    var s := ns + [n];
    assert forall k :: 0 <= k < |ns| ==> !key(s[k]) by {
      forall k | 0 <= k < |ns| ensures !key(s[k]) {
        assert s[k] == ns[k];
      }
    }
    FirstWhereIs(s, key, |ns|);
    assert s[..|ns|] == ns;
    assert RemoveLikeNotification(s, senderId, postId) == RemoveFirstWhere(s, key);
  }

  /** Liking and then unliking restores the store
      exactly, provided the like key had no notification before. */
  lemma LikeTwiceRestores(db: Db, input: LikeInput, env1: LikeEnv, env2: LikeEnv)
    requires Truthy(input.senderId) && Truthy(input.id)
    requires !HasLikeNotification(db.notifications, input.senderId.value, input.id.value)
    requires ToggleLike(db, input, env1).reply.Liked?
    ensures var o1 := ToggleLike(db, input, env1);
      var o2 := ToggleLike(o1.db, input, env2);
      o2.reply == Unliked && o2.db == db
  {
    var sid, pid := input.senderId.value, input.id.value;
    var like := Like(sid, pid);
    var o1 := ToggleLike(db, input, env1);
    var n := o1.db.notifications[|db.notifications|];
    assert o1.db.notifications == db.notifications + [n];
    assert IsLikeNotification(n, sid, pid);
    assert HasLikeNotification(o1.db.notifications, sid, pid);
    RemoveAppendedLikeNotification(db.notifications, n, sid, pid);
    assert like !in db.likes;
    assert o1.db.likes - {like} == db.likes;
  }

  datatype LikesReply = LikesMissingPost | Likes(likes: set<Like>)

  /** GET: every like of the post. */
  function ListLikes(db: Db, postId: Option<string>): (r: LikesReply)
    ensures r.LikesMissingPost? <==> !Truthy(postId)
    ensures r.Likes? ==> forall l :: l in r.likes <==> l in db.likes && l.postId == postId.value
  {
    if !Truthy(postId) then LikesMissingPost
    else Likes(set l | l in db.likes && l.postId == postId.value)
  }

  /** The success flag's key in a GET reply: the refusal for a missing post
      id spells it `succcess` as well. */
  function LikesSuccessKey(r: LikesReply): (k: string)
    ensures k == "success" <==> !r.LikesMissingPost?
  {
    if r.LikesMissingPost? then "succcess" else "success"
  }

  /** Which GET replies carry the misspelt key is decided by the post id
      alone. */
  lemma ListLikesKey(db: Db, postId: Option<string>)
    ensures LikesSuccessKey(ListLikes(db, postId)) == "success" <==> Truthy(postId)
  {
  }
}

=== FILE: listeners.dfy ===
/** An event emitter's listener table: `on(ev, h)` appends, `off(ev, h)`
    removes the first registration of that very handler, `off(ev)` removes
    every handler of the event. */
module Listeners {

  type Table<H> = map<string, seq<H>>

  /** The handlers registered for `ev`, in registration order. */
  function Handlers<H>(t: Table<H>, ev: string): seq<H> {
    if ev in t then t[ev] else []
  }

  /** `on(ev, h)`. */
  function On<H>(t: Table<H>, ev: string, h: H): (r: Table<H>)
    ensures Handlers(r, ev) == Handlers(t, ev) + [h]
    ensures forall e :: e != ev ==> Handlers(r, e) == Handlers(t, e)
  {
    t[ev := Handlers(t, ev) + [h]]
  }

  /** The position of the first occurrence of `h` in `s`. */
  function IndexOf<H(==)>(s: seq<H>, h: H): (i: nat)
    requires h in s
    ensures i < |s| && s[i] == h && h !in s[..i]
  {
    if s[0] == h then 0
    else
      var j := IndexOf(s[1..], h);
      assert s[..j + 1] == [s[0]] + s[1..][..j];
      j + 1
  }

  /** `s` without its first occurrence of `h`. */
  function RemoveFirst<H(==)>(s: seq<H>, h: H): (r: seq<H>)
    ensures h !in s ==> r == s
    ensures h in s ==> exists i :: 0 <= i < |s| && s[i] == h && h !in s[..i] && r == s[..i] + s[i + 1..]
    ensures multiset(r) == multiset(s) - multiset{h}
  {
    if h !in s then s
    else
      var i := IndexOf(s, h);
      assert s == s[..i] + [h] + s[i + 1..];
      assert 0 <= i < |s| && s[i] == h && h !in s[..i];
      s[..i] + s[i + 1..]
  }

  /** `off(ev, h)`. */
  function Off<H(==)>(t: Table<H>, ev: string, h: H): (r: Table<H>)
    ensures Handlers(r, ev) == RemoveFirst(Handlers(t, ev), h)
    ensures multiset(Handlers(r, ev)) == multiset(Handlers(t, ev)) - multiset{h}
    ensures h !in Handlers(t, ev) ==> Handlers(r, ev) == Handlers(t, ev)
    ensures forall e :: e != ev ==> Handlers(r, e) == Handlers(t, e)
  {
    var s := RemoveFirst(Handlers(t, ev), h);
    var r := t[ev := s];
    assert Handlers(r, ev) == s;
    assert forall e :: e != ev ==> Handlers(r, e) == Handlers(t, e) by {
      forall e | e != ev ensures Handlers(r, e) == Handlers(t, e) {
        assert (e in r) == (e in t);
      }
    }
    r
  }

  /** `off(ev)` with no handler: every listener of `ev` goes, whoever added it. */
  function OffAll<H>(t: Table<H>, ev: string): (r: Table<H>)
    ensures Handlers(r, ev) == []
    ensures forall e :: e != ev ==> Handlers(r, e) == Handlers(t, e)
  {
    t - {ev}
  }

  /** Registering a new handler and removing it again restores the table's
      contents for every event. */
  lemma {:induction false} OffUndoesOn<H>(t: Table<H>, ev: string, h: H, e: string)
    requires h !in Handlers(t, ev)
    ensures Handlers(Off(On(t, ev, h), ev, h), e) == Handlers(t, e)
  {
    if e == ev {
      var s := Handlers(t, ev);
      RemoveAppended(s, h);
    }
  }

  lemma {:induction false} RemoveAppended<H>(s: seq<H>, h: H)
    requires h !in s
    ensures RemoveFirst(s + [h], h) == s
  {
    var i := IndexOf(s + [h], h);
    assert forall k :: 0 <= k < |s| ==> (s + [h])[k] == s[k];
    assert i == |s|;
    assert (s + [h])[..i] == s;
  }
}

=== FILE: message_route.dfy ===
/** Direct messages (app/api/chats/message/route.ts): POST stores a message
    and publishes it to the recipient's channel, GET lists one conversation,
    PUT marks a sender's messages as seen and tells the sender. */
module MessageRoute {
  import opened Common
  import opened RelayChannel
  import opened Store
  import opened Sorting

  // ------------------------------------------------------------------ POST

  /** The fields of `body.data`; absent fields are `None`. */
  datatype SendInput = SendInput(message: Option<string>, senderId: Option<string>, reciverId: Option<string>, convoId: Option<string>)

  /** Fresh ids and the clock the store would supply, and whether the relay
      call succeeds. */
  datatype SendEnv = SendEnv(newConvoId: string, newMessageId: string, now: int, publishOk: bool)

  datatype SendReply =
    | SendMissingFields
    | SendFailed
    | Sent(convoId: string, senderName: string, senderAvatar: Option<string>)

  function SendStatus(r: SendReply): nat {
    if r.Sent? then StatusOk else StatusUnauthorized
  }

  function ChatPayload(text: string, senderId: string, convoId: string, sender: User): map<string, string> {
    With(map["MessageText" := text, "senderId" := senderId, "convoId" := convoId, "senderName" := sender.name],
         "senderAvtar", sender.avatarUrl)
  }

  predicate HasConversation(cs: seq<Conversation>, id: string) {
    exists i :: 0 <= i < |cs| && cs[i].id == id
  }

  function SetLastMessage(cs: seq<Conversation>, id: string, text: string): (r: seq<Conversation>)
    ensures |r| == |cs|
    ensures forall i :: 0 <= i < |cs| ==> r[i] == if cs[i].id == id then cs[i].(lastMessage := text) else cs[i]
  {
    if |cs| == 0 then []
    else [if cs[0].id == id then cs[0].(lastMessage := text) else cs[0]] + SetLastMessage(cs[1..], id, text)
  }

  predicate FieldsPresent(input: SendInput) {
    Truthy(input.message) && Truthy(input.senderId) && Truthy(input.reciverId)
  }

  /** A truthy conversation id must name a stored conversation; without one
      a conversation is created. */
  predicate ConversationFound(db: Db, input: SendInput) {
    !Truthy(input.convoId) || HasConversation(db.conversations, input.convoId.value)
  }

  /** The conversation the message goes to. */
  function TargetConvo(input: SendInput, env: SendEnv): string {
    if Truthy(input.convoId) then input.convoId.value else env.newConvoId
  }

  /** The conversation table after the handler's first write: the named
      conversation's last message updated, or a new conversation of the two
      users appended. */
  function ConversationsAfter(db: Db, input: SendInput, env: SendEnv): seq<Conversation>
    requires FieldsPresent(input)
  {
    if Truthy(input.convoId) then SetLastMessage(db.conversations, input.convoId.value, input.message.value)
    else db.conversations + [Conversation(env.newConvoId, [input.senderId.value, input.reciverId.value], input.message.value)]
  }

  /** The stored message row. */
  function NewMessage(input: SendInput, env: SendEnv): Message
    requires FieldsPresent(input)
  {
    Message(env.newMessageId, TargetConvo(input, env), input.senderId.value, input.message.value, "TEXT", [], env.now)
  }

  /** POST: validate, find or create the conversation, store the message,
      publish it, reply. */
  function Send(db: Db, input: SendInput, env: SendEnv): (o: Outcome<SendReply>)
    ensures !Truthy(input.message) || !Truthy(input.senderId) || !Truthy(input.reciverId) ==>
              o == Outcome(db, SendMissingFields, [])
    ensures o.db == db.(messages := o.db.messages, conversations := o.db.conversations)
    ensures |o.published| <= 1
    ensures o.reply.Sent? <==> |o.published| == 1
    ensures o.reply.Sent? ==>
      && o.published[0].channel == ChannelName(input.reciverId.value)
      && o.published[0].event == "chatMessage"
      && o.db.messages == db.messages + [Message(env.newMessageId, o.reply.convoId, input.senderId.value,
                                                  input.message.value, "TEXT", [], env.now)]
      && (Truthy(input.convoId) ==>
            o.reply.convoId == input.convoId.value
            && HasConversation(db.conversations, input.convoId.value)
            && o.db.conversations == SetLastMessage(db.conversations, input.convoId.value, input.message.value))
      && (!Truthy(input.convoId) ==>
            o.reply.convoId == env.newConvoId
            && o.db.conversations == db.conversations + [Conversation(env.newConvoId, [input.senderId.value, input.reciverId.value], input.message.value)])
    ensures o.reply.Sent? <==>
      FieldsPresent(input) && ConversationFound(db, input) && input.senderId.value in db.users && env.publishOk
    ensures o.reply.SendMissingFields? <==> !FieldsPresent(input)
    ensures FieldsPresent(input) && !ConversationFound(db, input) ==> o == Outcome(db, SendFailed, [])
    ensures FieldsPresent(input) && ConversationFound(db, input) ==>
      && o.db.conversations == ConversationsAfter(db, input, env)
      && o.db.messages == (if input.senderId.value in db.users then db.messages + [NewMessage(input, env)] else db.messages)
  {
    if !Truthy(input.message) || !Truthy(input.senderId) || !Truthy(input.reciverId) then
      Outcome(db, SendMissingFields, [])
    else
      var text, sid, rid := input.message.value, input.senderId.value, input.reciverId.value;
      if Truthy(input.convoId) && !HasConversation(db.conversations, input.convoId.value) then
        // updating a conversation that does not exist throws
        Outcome(db, SendFailed, [])
      else
        var cid := if Truthy(input.convoId) then input.convoId.value else env.newConvoId;
        var db1 := if Truthy(input.convoId) then db.(conversations := SetLastMessage(db.conversations, cid, text))
                   else db.(conversations := db.conversations + [Conversation(cid, [sid, rid], text)]);
        if sid !in db1.users then
          // the message's sender relation cannot be resolved: the create throws
          Outcome(db1, SendFailed, [])
        else
          var db2 := db1.(messages := db1.messages + [Message(env.newMessageId, cid, sid, text, "TEXT", [], env.now)]);
          var sender := db2.users[sid];
          if !env.publishOk then Outcome(db2, SendFailed, [])
          else Outcome(db2, Sent(cid, sender.name, sender.avatarUrl),
                       [Publish(ChannelName(rid), "chatMessage", ChatPayload(text, sid, cid, sender))])
  }

  /** The published payload carries the message text, the sender's id, name
      and avatar, and the conversation id returned to the caller. */
  lemma SentPayload(db: Db, input: SendInput, env: SendEnv)
    requires Send(db, input, env).reply.Sent?
    ensures var o := Send(db, input, env);
      var p := o.published[0].payload;
      && p["MessageText"] == input.message.value && p["senderId"] == input.senderId.value
      && p["convoId"] == o.reply.convoId && p["senderName"] == o.reply.senderName
      && ("senderAvtar" in p <==> o.reply.senderAvatar.Some?)
  {
  }

  /** A failure after the conversation was written (an unknown sender, or a
      relay error) still leaves the conversation row behind: the handler is
      not transactional. */
  lemma PublishFailureKeepsRows(db: Db, input: SendInput, env: SendEnv)
    requires Truthy(input.message) && Truthy(input.senderId) && Truthy(input.reciverId)
    requires !Truthy(input.convoId) && input.senderId.value in db.users && !env.publishOk
    ensures var o := Send(db, input, env);
      o.reply == SendFailed && SendStatus(o.reply) == 401 && o.published == []
      && |o.db.conversations| == |db.conversations| + 1 && |o.db.messages| == |db.messages| + 1
  {
  }

  // ------------------------------------------------------------------- GET

  datatype HistoryReply = HistoryMissingIds | NoConversation | History(messages: seq<Message>, convoId: string)

  function FirstConversationOf(cs: seq<Conversation>, a: string, b: string): (r: Option<Conversation>)
    ensures r.Some? ==> r.value in cs && a in r.value.participants && b in r.value.participants
    ensures r.None? ==> forall i :: 0 <= i < |cs| ==> !(a in cs[i].participants && b in cs[i].participants)
  {
    if |cs| == 0 then None
    else if a in cs[0].participants && b in cs[0].participants then Some(cs[0])
    else
      var t := FirstConversationOf(cs[1..], a, b);
      assert forall i :: 0 <= i < |cs[1..]| ==> cs[1..][i] == cs[i + 1];
      t
  }

  function InConversation(ms: seq<Message>, cid: string): (r: seq<Message>)
    ensures forall m :: m in r <==> m in ms && m.conversationId == cid
    ensures multiset(r) <= multiset(ms)
  {
    if |ms| == 0 then []
    else
      assert ms == [ms[0]] + ms[1..];
      (if ms[0].conversationId == cid then [ms[0]] else []) + InConversation(ms[1..], cid)
  }

  function ByCreatedAt(m: Message): (int, int) {
    (m.createdAt, 0)
  }

  /** GET: the messages of the first conversation holding both ids, oldest
      first. */
  function ListMessages(db: Db, senderId: Option<string>, reciverId: Option<string>): (r: HistoryReply)
    ensures r == HistoryMissingIds <==> !Truthy(senderId) || !Truthy(reciverId)
    ensures r.History? ==>
      && SortedBy(r.messages, ByCreatedAt)
      && (forall m :: m in r.messages <==> m in db.messages && m.conversationId == r.convoId)
      && (exists c :: c in db.conversations && c.id == r.convoId
                      && senderId.value in c.participants && reciverId.value in c.participants)
    ensures r.History? ==>
      FirstConversationOf(db.conversations, senderId.value, reciverId.value).value.id == r.convoId
    ensures r == NoConversation <==>
      Truthy(senderId) && Truthy(reciverId) && FirstConversationOf(db.conversations, senderId.value, reciverId.value).None?
  {
    if !Truthy(reciverId) || !Truthy(senderId) then HistoryMissingIds
    else match FirstConversationOf(db.conversations, senderId.value, reciverId.value)
      case None => NoConversation
      case Some(c) =>
        var ms := InConversation(db.messages, c.id);
        var sorted := SortBy(ms, ByCreatedAt);
        SortByMembers(ms, ByCreatedAt);
        History(sorted, c.id)
  }

  lemma {:induction false} FirstConversationAfterMiss(cs: seq<Conversation>, c: Conversation, a: string, b: string)
    requires FirstConversationOf(cs, a, b).None?
    requires a in c.participants && b in c.participants
    ensures FirstConversationOf(cs + [c], a, b) == Some(c)
  {
    if |cs| == 0 {
      assert cs + [c] == [c];
    } else {
      assert (cs + [c])[1..] == cs[1..] + [c];
      FirstConversationAfterMiss(cs[1..], c, a, b);
    }
  }

  /** The first message between two users opens a
      conversation, and reading their history afterwards finds that message. */
  lemma FirstSendIsReadBack(db: Db, input: SendInput, env: SendEnv)
    requires !Truthy(input.convoId)
    requires Send(db, input, env).reply.Sent?
    requires FirstConversationOf(db.conversations, input.senderId.value, input.reciverId.value).None?
    ensures var o := Send(db, input, env);
      var h := ListMessages(o.db, input.senderId, input.reciverId);
      && h.History? && h.convoId == env.newConvoId
      && Message(env.newMessageId, env.newConvoId, input.senderId.value, input.message.value, "TEXT", [], env.now) in h.messages
  {
    var o := Send(db, input, env);
    var sid, rid := input.senderId.value, input.reciverId.value;
    var c := Conversation(env.newConvoId, [sid, rid], input.message.value);
    var m := Message(env.newMessageId, env.newConvoId, sid, input.message.value, "TEXT", [], env.now);
    assert o.db.conversations == db.conversations + [c];
    assert m in o.db.messages;
    FirstConversationAfterMiss(db.conversations, c, sid, rid);
    var h := ListMessages(o.db, input.senderId, input.reciverId);
    assert h.History?;
    assert h.convoId == env.newConvoId;
  }

  // ------------------------------------------------------------------- PUT

  datatype SeenReply = SeenMissingConvo | SeenFailed | SeenUpdated(count: nat)

  function SeenStatus(r: SeenReply): nat {
    if r.SeenUpdated? then StatusOk else StatusUnauthorized
  }

  /** The rows `updateMany` selects: the conversation's messages by the
      sender. An undefined sender drops that filter, so every message of
      the conversation is selected. */
  predicate SeenTarget(m: Message, convoId: string, senderId: Option<string>) {
    m.conversationId == convoId && (senderId.None? || m.senderId == senderId.value)
  }

  /** `updateMany`: overwrite `seenBy` on the matching rows. */
  function MarkSeen(ms: seq<Message>, convoId: string, senderId: Option<string>, reader: string): (r: seq<Message>)
    ensures |r| == |ms|
    ensures forall i :: 0 <= i < |ms| ==>
      r[i] == if SeenTarget(ms[i], convoId, senderId) then ms[i].(seenBy := [reader]) else ms[i]
  {
    if |ms| == 0 then []
    else [if SeenTarget(ms[0], convoId, senderId) then ms[0].(seenBy := [reader]) else ms[0]]
         + MarkSeen(ms[1..], convoId, senderId, reader)
  }

  function CountSeenTargets(ms: seq<Message>, convoId: string, senderId: Option<string>): nat {
    if |ms| == 0 then 0
    else (if SeenTarget(ms[0], convoId, senderId) then 1 else 0) + CountSeenTargets(ms[1..], convoId, senderId)
  }

  /** The `changeMsgSeen` payload; an undefined field is dropped when the
      payload is serialized. */
  function SeenPayload(senderId: Option<string>, reciverId: string): map<string, string> {
    With(map["ownerId" := reciverId], "senderId", senderId)
  }

  /** PUT: mark the sender's messages in the conversation as seen by the
      reader, then tell the sender on their channel. An undefined reader
      inside `seenBy` makes the update throw before anything is written; a
      relay failure keeps the update. */
  function MarkConversationSeen(db: Db, convoId: Option<string>, senderId: Option<string>, reciverId: Option<string>,
                                publishOk: bool): (o: Outcome<SeenReply>)
    ensures !Truthy(convoId) ==> o == Outcome(db, SeenMissingConvo, [])
    ensures Truthy(convoId) && reciverId.None? ==> o == Outcome(db, SeenFailed, [])
    ensures o.db == db.(messages := o.db.messages)
    ensures !o.reply.SeenUpdated? ==> o.published == []
    ensures Truthy(convoId) && reciverId.Some? ==>
      && |o.db.messages| == |db.messages|
      && (forall i :: 0 <= i < |db.messages| && SeenTarget(db.messages[i], convoId.value, senderId) ==>
            o.db.messages[i] == db.messages[i].(seenBy := [reciverId.value]))
      && (forall i :: 0 <= i < |db.messages| && !SeenTarget(db.messages[i], convoId.value, senderId) ==>
            o.db.messages[i] == db.messages[i])
    ensures o.reply.SeenUpdated? <==> Truthy(convoId) && reciverId.Some? && publishOk
    ensures o.reply.SeenUpdated? ==>
      o.published == [Publish(ChannelName(TemplateText(senderId)), "changeMsgSeen", SeenPayload(senderId, reciverId.value))]
  {
    if !Truthy(convoId) then Outcome(db, SeenMissingConvo, [])
    else if reciverId.None? then Outcome(db, SeenFailed, [])
    else
      var reader := reciverId.value;
      var db1 := db.(messages := MarkSeen(db.messages, convoId.value, senderId, reader));
      if !publishOk then Outcome(db1, SeenFailed, [])
      else Outcome(db1, SeenUpdated(CountSeenTargets(db.messages, convoId.value, senderId)),
                   [Publish(ChannelName(TemplateText(senderId)), "changeMsgSeen", SeenPayload(senderId, reader))])
  }

  /** Without a sender id the update is not limited to one author: every
      message of the conversation, the reader's own included, is marked
      seen by the reader. */
  lemma UndefinedSenderMarksWholeConversation(db: Db, convoId: string, reader: string, publishOk: bool, i: nat)
    requires convoId != "" && i < |db.messages| && db.messages[i].conversationId == convoId
    ensures MarkConversationSeen(db, Some(convoId), None, Some(reader), publishOk).db.messages[i].seenBy == [reader]
  {
  }

  /** Marking seen overwrites rather than appends, so doing it twice leaves
      the same messages as doing it once. */
  lemma MarkSeenIdempotent(db: Db, convoId: string, senderId: Option<string>, reciverId: Option<string>, publishOk: bool)
    requires convoId != ""
    ensures var once := MarkConversationSeen(db, Some(convoId), senderId, reciverId, publishOk).db;
      MarkConversationSeen(once, Some(convoId), senderId, reciverId, publishOk).db.messages == once.messages
  {
    var once := MarkConversationSeen(db, Some(convoId), senderId, reciverId, publishOk).db;
    var twice := MarkConversationSeen(once, Some(convoId), senderId, reciverId, publishOk).db;
    assert forall i :: 0 <= i < |once.messages| ==> twice.messages[i] == once.messages[i];
  }
}

=== FILE: middleware.dfy ===
/** The authentication gate (middleware.ts): where a request for a page is
    sent, given whether it carries an access token. */
module Middleware {
  import opened Common
  import Strs

  datatype Decision = Redirect(to: string) | PassThrough

  /** `middleware`: a signed-in visitor of a login page goes home, a visitor
      without a token goes to the login page, everyone else passes. */
  function Decide(token: Option<string>, pathname: string): (d: Decision)
    ensures Truthy(token) && Strs.StartsWith(pathname, "/login") ==> d == Redirect("/")
    ensures !Truthy(token) ==> d == Redirect("/login")
    ensures d == PassThrough <==> Truthy(token) && !Strs.StartsWith(pathname, "/login")
  {
    var isAuthPage := Strs.StartsWith(pathname, "/login");
    if Truthy(token) && isAuthPage then Redirect("/")
    else if !Truthy(token) then Redirect("/login")
    else PassThrough
  }

  /** `config.matcher`: the only paths the gate runs on. */
  const Matcher: seq<string> := ["/", "/peoples", "/profilePage"]

  /** The gate as deployed: paths outside the matcher are not gated. */
  function Gate(token: Option<string>, pathname: string): (d: Decision)
    ensures pathname !in Matcher ==> d == PassThrough
    ensures pathname in Matcher ==> d == Decide(token, pathname)
  {
    if pathname in Matcher then Decide(token, pathname) else PassThrough
  }

  /** No matched path starts with "/login", so the redirect home never
      happens: the gate only ever lets through or sends to the login page. */
  lemma LoginRedirectUnreachable(token: Option<string>, pathname: string)
    ensures Gate(token, pathname) != Redirect("/")
    ensures Gate(token, pathname) == PassThrough || Gate(token, pathname) == Redirect("/login")
  {
    if pathname in Matcher {
      assert !Strs.StartsWith(pathname, "/login") by {
        assert pathname == "/" || pathname == "/peoples" || pathname == "/profilePage";
        if pathname == "/peoples" { assert pathname[1] == 'p'; }
        if pathname == "/profilePage" { assert pathname[1] == 'p'; }
      }
    }
  }
}

=== FILE: navbar.dfy ===
/** The navigation bar (Components/Navbar.tsx): the unread badge, the
    notification icons and actions, marking read on click, the active
    navigation item, and the avatar initials. */
module Navbar {
  import opened Common
  import Strs
  import opened Store
  import FriendRoutes
  import CommentRoute
  import NotificationRoute

  /** `data?.filter(n => !n.read).length || 0`. */
  function UnreadCount(data: Option<seq<Notification>>): (n: nat)
    ensures data.None? ==> n == 0
    ensures data.Some? ==> n <= |data.value|
    ensures data.Some? ==> (n == 0 <==> forall i :: 0 <= i < |data.value| ==> data.value[i].read)
    ensures data.Some? ==> n == CountUnread(data.value)
  {
    match data
    case None => 0
    case Some(ns) => CountUnread(ns)
  }

  /** The notifications that are not read yet. */
  function CountUnread(ns: seq<Notification>): (n: nat)
    ensures n <= |ns|
    ensures n == 0 <==> forall i :: 0 <= i < |ns| ==> ns[i].read
  {
    CountWhere(ns, (x: Notification) => !x.read)
  }

  /** One notification counts one exactly when it is unread. */
  lemma CountUnreadSingle(n: Notification)
    ensures CountUnread([n]) == if n.read then 0 else 1
  {
    CountWhereSingle(n, (x: Notification) => !x.read);
  }

  /** The count adds up over concatenation: with `CountUnreadSingle` this
      makes it the number of unread notifications in the list. */
  lemma CountUnreadAppend(a: seq<Notification>, b: seq<Notification>)
    ensures CountUnread(a + b) == CountUnread(a) + CountUnread(b)
  {
    CountWhereAppend(a, b, (x: Notification) => !x.read);
  }

  /** Marking a notification read never raises the badge, and lowers it
      when that notification was unread. */
  lemma {:induction false} MarkReadLowersCount(ns: seq<Notification>, id: string)
    ensures CountUnread(NotificationRoute.SetRead(ns, id)) <= CountUnread(ns)
    ensures (exists i :: 0 <= i < |ns| && ns[i].id == id && !ns[i].read) ==>
      CountUnread(NotificationRoute.SetRead(ns, id)) < CountUnread(ns)
  {
    if |ns| > 0 {
      var r := NotificationRoute.SetRead(ns, id);
      MarkReadLowersCount(ns[1..], id);
      assert r[1..] == NotificationRoute.SetRead(ns[1..], id);
      if exists i :: 0 <= i < |ns| && ns[i].id == id && !ns[i].read {
        var i :| 0 <= i < |ns| && ns[i].id == id && !ns[i].read;
        if i > 0 {
          assert ns[1..][i - 1] == ns[i];
        }
      }
    }
  }

  datatype Icon = HeartIcon | PersonIcon | CommentIcon

  /** `renderNotificationIcon`: only the three stored kinds have an icon. */
  function IconFor(kind: string): (r: Option<Icon>)
    ensures r.Some? <==> kind in {"LIKE", "FRIEND-REQUEST", "COMMENTE"}
  {
    if kind == "LIKE" then Some(HeartIcon)
    else if kind == "FRIEND-REQUEST" then Some(PersonIcon)
    else if kind == "COMMENTE" then Some(CommentIcon)
    else None
  }

  /** The kind a comment notification is stored with has an icon; the kind
      its realtime payload carries has none. */
  lemma CommentKindsAndIcons()
    ensures IconFor(CommentRoute.CommentKind) == Some(CommentIcon)
    ensures IconFor(CommentRoute.CommentPayloadType).None?
  {
  }

  /** Accept and Decline are offered only on a pending friend request. */
  predicate ShowsActions(n: Notification) {
    n.kind == FriendRoutes.RequestKind && n.status == FriendRoutes.Pending
  }

  /** Once the request is accepted or rejected,
      its notification no longer offers the actions. */
  lemma DecidedRequestHasNoActions(db: Db, reqId: Option<string>, notifId: Option<string>, accept: bool, i: nat)
    requires i < |db.notifications| && notifId.Some? && db.notifications[i].id == notifId.value
    requires (if accept then FriendRoutes.Accept(db, reqId, notifId) else FriendRoutes.Reject(db, reqId, notifId)).reply.Decided?
    ensures var o := if accept then FriendRoutes.Accept(db, reqId, notifId) else FriendRoutes.Reject(db, reqId, notifId);
      !ShowsActions(o.db.notifications[i])
  {
  }

  /** A click marks the notification read only if it is unread: the id
      the mark-read call is made with, if any. */
  function ClickNotification(n: Notification): (r: Option<string>)
    ensures r.Some? <==> !n.read
    ensures r.Some? ==> r.value == n.id
  {
    if !n.read then Some(n.id) else None
  }

  /** After the mark-read call, clicking the same notification makes no
      further call. */
  lemma ClickAfterReadIsSilent(db: Db, i: nat)
    requires i < |db.notifications| && db.notifications[i].id != ""
    ensures var id := Some(db.notifications[i].id);
      ClickNotification(NotificationRoute.MarkRead(db, id).db.notifications[i]).None?
  {
    assert HasNotification(db.notifications, db.notifications[i].id);
  }

  /** The first path segment, `pathname.split("/")[1]`, undefined when the
      path has no `/`. */
  function FirstSegment(path: string): Option<string> {
    var parts := Strs.Split(path, '/');
    if |parts| > 1 then Some(parts[1]) else None
  }

  /** Desktop items compare first path segments. */
  predicate DesktopActive(pathname: string, itemPath: string) {
    FirstSegment(pathname) == FirstSegment(itemPath)
  }

  /** Mobile items compare whole paths. */
  predicate MobileActive(pathname: string, itemPath: string) {
    pathname == itemPath
  }

  /** A mobile item that is active is active on the desktop too. */
  lemma MobileImpliesDesktop(pathname: string, itemPath: string)
    requires MobileActive(pathname, itemPath)
    ensures DesktopActive(pathname, itemPath)
  {
  }

  /** A page below an item, `/w/rest`, makes the desktop item `/w` active but
      not the mobile one. */
  lemma SubpageActiveOnDesktopOnly(w: string, rest: string)
    requires '/' !in w
    ensures DesktopActive("/" + w + "/" + rest, "/" + w)
    ensures !MobileActive("/" + w + "/" + rest, "/" + w)
  {
    Strs.SplitPrefix("", w + "/" + rest, '/');
    assert "" + ['/'] + (w + "/" + rest) == "/" + w + "/" + rest;
    Strs.SplitPrefix(w, rest, '/');
    assert w + ['/'] + rest == w + "/" + rest;
    Strs.SplitPrefix("", w, '/');
    assert "" + ['/'] + w == "/" + w;
    Strs.SplitNoSeparator(w, '/');
    assert |"/" + w + "/" + rest| > |"/" + w|;
  }

  /** The avatar initials: the first character of every space-separated word
      (an empty word, from repeated spaces, contributes nothing). */
  function Initials(name: string): (r: string)
    ensures ' ' !in r
  {
    FirstChars(Strs.Split(name, ' '))
  }

  function FirstChars(words: seq<string>): (r: string)
    ensures forall i :: 0 <= i < |r| ==> exists j :: 0 <= j < |words| && |words[j]| > 0 && r[i] == words[j][0]
    ensures |r| <= |words|
  {
    if |words| == 0 then ""
    else
      var head := if |words[0]| > 0 then [words[0][0]] else "";
      var rest := FirstChars(words[1..]);
      var r := head + rest;
      assert forall i :: 0 <= i < |r| ==> exists j :: 0 <= j < |words| && |words[j]| > 0 && r[i] == words[j][0] by {
        forall i | 0 <= i < |r|
          ensures exists j :: 0 <= j < |words| && |words[j]| > 0 && r[i] == words[j][0]
        {
          if i < |head| {
            assert r[i] == words[0][0];
          } else {
            var k :| 0 <= k < |words[1..]| && |words[1..][k]| > 0 && rest[i - |head|] == words[1..][k][0];
            assert words[1..][k] == words[k + 1];
            assert r[i] == words[k + 1][0];
          }
        }
      }
      r
  }

  /** For a name written as space-free words joined
      by single spaces, the initials are the words' first characters, in
      order. */
  lemma InitialsOfWords(words: seq<string>)
    requires |words| >= 1
    requires forall i :: 0 <= i < |words| ==> ' ' !in words[i]
    ensures Initials(Strs.Join(words, ' ')) == FirstChars(words)
  {
    Strs.SplitJoin(words, ' ');
  }

  lemma {:induction false} FirstCharsOfNonEmpty(words: seq<string>)
    requires forall i :: 0 <= i < |words| ==> |words[i]| > 0
    ensures |FirstChars(words)| == |words|
    ensures forall i :: 0 <= i < |words| ==> FirstChars(words)[i] == words[i][0]
  {
    if |words| > 0 {
      FirstCharsOfNonEmpty(words[1..]);
    }
  }
}

=== FILE: notification_route.dfy ===
/** The notification list (app/api/post/notification/route.ts): GET lists a
    user's notifications, unread first and newest first; POST marks one as
    read. */
module NotificationRoute {
  import opened Common
  import opened Store
  import opened Sorting

  datatype ListReply = ListMissingUser | NotificationList(data: seq<Notification>)

  function ListStatus(r: ListReply): nat {
    if r.NotificationList? then StatusOk else StatusUnauthorized
  }

  function For(ns: seq<Notification>, userId: string): (r: seq<Notification>)
    ensures forall n :: n in r <==> n in ns && n.reciverId == userId
    ensures multiset(r) <= multiset(ns)
  {
    if |ns| == 0 then []
    else
      assert ns == [ns[0]] + ns[1..];
      (if ns[0].reciverId == userId then [ns[0]] else []) + For(ns[1..], userId)
  }

  /** `orderBy: [{read: asc}, {createdAt: desc}]` as one ascending key. */
  function ReadThenNewest(n: Notification): (int, int) {
    (if n.read then 1 else 0, -n.createdAt)
  }

  /** GET: exactly the user's notifications; no read one comes before an
      unread one, and within the same read state newer ones come first. */
  function ListNotifications(db: Db, userId: Option<string>): (r: ListReply)
    ensures r.ListMissingUser? <==> !Truthy(userId)
    ensures r.NotificationList? ==>
      && multiset(r.data) == multiset(For(db.notifications, userId.value))
      && (forall n :: n in r.data <==> n in db.notifications && n.reciverId == userId.value)
      && (forall i, j :: 0 <= i < j < |r.data| && r.data[i].read ==> r.data[j].read)
      && (forall i, j :: 0 <= i < j < |r.data| && r.data[i].read == r.data[j].read ==>
            r.data[i].createdAt >= r.data[j].createdAt)
  {
    if !Truthy(userId) then ListMissingUser
    else
      var mine := For(db.notifications, userId.value);
      var sorted := SortBy(mine, ReadThenNewest);
      SortByMembers(mine, ReadThenNewest);
      UnreadFirstNewestFirst(sorted);
      NotificationList(sorted)
  }

  /** What sorting by `ReadThenNewest` means for the list. */
  lemma UnreadFirstNewestFirst(s: seq<Notification>)
    requires SortedBy(s, ReadThenNewest)
    ensures forall i, j :: 0 <= i < j < |s| && s[i].read ==> s[j].read
    ensures forall i, j :: 0 <= i < j < |s| && s[i].read == s[j].read ==> s[i].createdAt >= s[j].createdAt
  {
    forall i, j | 0 <= i < j < |s|
      ensures s[i].read ==> s[j].read
      ensures s[i].read == s[j].read ==> s[i].createdAt >= s[j].createdAt
    {
      assert LexLe(ReadThenNewest(s[i]), ReadThenNewest(s[j]));
    }
  }

  datatype MarkReply = MarkMissingId | NoResponse | MarkedRead

  /** The status of a reply; the empty catch answers nothing at all. */
  function MarkStatus(r: MarkReply): Option<nat> {
    match r
    case MarkMissingId => Some(StatusUnauthorized)
    case NoResponse => None
    case MarkedRead => Some(StatusOk)
  }

  function SetRead(ns: seq<Notification>, id: string): (r: seq<Notification>)
    ensures |r| == |ns|
    ensures forall i :: 0 <= i < |ns| ==> r[i] == if ns[i].id == id then ns[i].(read := true) else ns[i]
  {
    if |ns| == 0 then []
    else [if ns[0].id == id then ns[0].(read := true) else ns[0]] + SetRead(ns[1..], id)
  }

  /** POST: the notification with the id becomes read and nothing else
      changes; an unknown id throws into a catch that sends no response. */
  function MarkRead(db: Db, notifId: Option<string>): (o: Outcome<MarkReply>)
    ensures o.published == []
    ensures o.db == db.(notifications := o.db.notifications)
    ensures !Truthy(notifId) ==> o.reply == MarkMissingId && o.db == db
    ensures Truthy(notifId) && !HasNotification(db.notifications, notifId.value) ==> o.reply == NoResponse && o.db == db
    ensures o.reply == MarkedRead <==> Truthy(notifId) && HasNotification(db.notifications, notifId.value)
    ensures o.reply == MarkedRead ==>
      && |o.db.notifications| == |db.notifications|
      && (forall i :: 0 <= i < |db.notifications| ==>
            o.db.notifications[i].read == (db.notifications[i].read || db.notifications[i].id == notifId.value))
      && (forall i :: 0 <= i < |db.notifications| ==>
            o.db.notifications[i] == db.notifications[i].(read := o.db.notifications[i].read))
  {
    if !Truthy(notifId) then Outcome(db, MarkMissingId, [])
    else if !HasNotification(db.notifications, notifId.value) then Outcome(db, NoResponse, [])
    else Outcome(db.(notifications := SetRead(db.notifications, notifId.value)), MarkedRead, [])
  }

  /** Marking the same notification read twice changes nothing the second
      time. */
  lemma MarkReadIdempotent(db: Db, notifId: Option<string>)
    requires MarkRead(db, notifId).reply == MarkedRead
    ensures var once := MarkRead(db, notifId).db;
      MarkRead(once, notifId) == Outcome(once, MarkedRead, [])
  {
    var id := notifId.value;
    var once := MarkRead(db, notifId).db;
    assert once == db.(notifications := SetRead(db.notifications, id));
    var i :| 0 <= i < |db.notifications| && db.notifications[i].id == id;
    assert once.notifications[i].id == id;
    assert HasNotification(once.notifications, id);
    SetReadTwice(db.notifications, id);
    assert once.(notifications := SetRead(once.notifications, id)) == once;
  }

  lemma SetReadTwice(ns: seq<Notification>, id: string)
    ensures SetRead(SetRead(ns, id), id) == SetRead(ns, id)
  {
    var once := SetRead(ns, id);
    var twice := SetRead(once, id);
    forall i | 0 <= i < |ns| ensures twice[i] == once[i] {
    }
  }

  /** A notification read by its receiver moves to the
      read part of that receiver's list and stays in it. */
  lemma MarkedIsListedAsRead(db: Db, notifId: Option<string>, userId: Option<string>, k: nat)
    requires MarkRead(db, notifId).reply == MarkedRead
    requires Truthy(userId)
    requires k < |db.notifications| && db.notifications[k].id == notifId.value && db.notifications[k].reciverId == userId.value
    ensures var o := MarkRead(db, notifId);
      var l := ListNotifications(o.db, userId);
      db.notifications[k].(read := true) in l.data
  {
    var o := MarkRead(db, notifId);
    assert o.db.notifications[k] == db.notifications[k].(read := true);
  }
}

=== FILE: password_form.dfy ===
/** The change-password page (app/profilePage/changePassword/page.tsx):
    password strength, the submit checks and their order, and the field
    handlers. */
module PasswordForm {
  import opened Common

  /** The three fields of the page, used for the values, the error messages
      and the visibility flags alike. */
  datatype FieldName = Current | Proposed | Confirmation

  datatype Triple<T> = Triple(current: T, proposed: T, confirmation: T) {
    function Get(f: FieldName): T {
      match f
      case Current => current
      case Proposed => proposed
      case Confirmation => confirmation
    }

    function Set(f: FieldName, v: T): (r: Triple<T>)
      ensures r.Get(f) == v
      ensures forall g :: g != f ==> r.Get(g) == Get(g)
    {
      match f
      case Current => this.(current := v)
      case Proposed => this.(proposed := v)
      case Confirmation => this.(confirmation := v)
    }
  }

  /** Whether some character of `s` satisfies `f` (a regular-expression
      `test` with one character class). */
  function Any(s: string, f: char -> bool): (r: bool)
    ensures r <==> exists i :: 0 <= i < |s| && f(s[i])
  {
    if |s| == 0 then false
    else if f(s[0]) then true
    else
      assert forall i :: 1 <= i < |s| ==> s[1..][i - 1] == s[i];
      Any(s[1..], f)
  }

  const SpecialChars: string := "!@#$%^&*(),.?\":{}|<>"

  datatype Strength = Strength(minLength: bool, hasUpper: bool, hasLower: bool, hasNumber: bool, hasSpecial: bool) {
    predicate IsValid() {
      minLength && hasUpper && hasLower && hasNumber && hasSpecial
    }
  }

  /** `validatePassword`: valid exactly when the password has at least 8
      characters and an upper-case letter, a lower-case letter, a digit and
      one of the listed special characters. */
  function ValidatePassword(p: string): (r: Strength)
    ensures r.IsValid() <==>
      && |p| >= 8
      && (exists i :: 0 <= i < |p| && 'A' <= p[i] <= 'Z')
      && (exists i :: 0 <= i < |p| && 'a' <= p[i] <= 'z')
      && (exists i :: 0 <= i < |p| && '0' <= p[i] <= '9')
      && (exists i :: 0 <= i < |p| && p[i] in SpecialChars)
  {
    Strength(|p| >= 8, Any(p, c => 'A' <= c <= 'Z'), Any(p, c => 'a' <= c <= 'z'),
             Any(p, c => '0' <= c <= '9'), Any(p, c => c in SpecialChars))
  }

  /** A password with no upper-case letter is weak, however long. */
  lemma NoUpperIsWeak(p: string)
    requires forall i :: 0 <= i < |p| ==> !('A' <= p[i] <= 'Z')
    ensures !ValidatePassword(p).IsValid()
  {
  }

  const CurrentRequired := "Current password is required"
  const NewRequired := "New password is required"
  const NewWeak := "Password does not meet requirements"
  const ConfirmRequired := "Please confirm your password"
  const Mismatch := "Passwords do not match"
  const SameAsCurrent := "New password must be different from current password"

  datatype PageState = PageState(data: Triple<string>, errors: Triple<string>, shown: Triple<bool>,
                                 loading: bool, success: Option<bool>)

  /** What the mutation sends: the confirmation is not part of it. */
  datatype ChangeRequest = ChangeRequest(userId: Option<string>, currentPassword: string, newPassword: string)

  /** The three messages a submit computes. */
  function SubmitErrors(d: Triple<string>): (e: Triple<string>)
    ensures e.current == (if d.current == "" then CurrentRequired else "")
    ensures d.current == d.proposed ==> e.proposed == SameAsCurrent
    ensures d.current != d.proposed ==>
      e.proposed == (if d.proposed == "" then NewRequired else if !ValidatePassword(d.proposed).IsValid() then NewWeak else "")
    ensures e.confirmation ==
      (if d.confirmation == "" then ConfirmRequired else if d.proposed != d.confirmation then Mismatch else "")
  {
    var current := if d.current == "" then CurrentRequired else "";
    var proposed := if d.proposed == "" then NewRequired else if !ValidatePassword(d.proposed).IsValid() then NewWeak else "";
    var confirmation := if d.confirmation == "" then ConfirmRequired else if d.proposed != d.confirmation then Mismatch else "";
    Triple(current, if d.current == d.proposed then SameAsCurrent else proposed, confirmation)
  }

  /** `handleSubmit`: the request is sent exactly when the current password
      is given, the new one is strong and differs from it, and the
      confirmation matches; otherwise the messages are shown. On sending,
      the earlier messages are left as they were. */
  function Submit(st: PageState, userId: Option<string>): (r: (PageState, Option<ChangeRequest>))
    ensures r.1.Some? <==>
      && st.data.current != ""
      && st.data.proposed != "" && ValidatePassword(st.data.proposed).IsValid()
      && st.data.confirmation == st.data.proposed
      && st.data.current != st.data.proposed
    ensures r.1.Some? ==>
      r.1.value == ChangeRequest(userId, st.data.current, st.data.proposed) && r.0 == st.(loading := true)
    ensures r.1.None? ==> r.0 == st.(errors := SubmitErrors(st.data))
  {
    var e := SubmitErrors(st.data);
    if e.current != "" || e.proposed != "" || e.confirmation != "" then (st.(errors := e), None)
    else (st.(loading := true), Some(ChangeRequest(userId, st.data.current, st.data.proposed)))
  }

  /** With every field empty, the "different from current" message replaces
      "required" for the new password. */
  lemma EmptyFormMessages(st: PageState)
    requires st.data == Triple("", "", "")
    ensures Submit(st, None).0.errors == Triple(CurrentRequired, SameAsCurrent, ConfirmRequired)
  {
  }

  /** `handleChange`: sets one field and clears only that field's message. */
  function Change(st: PageState, f: FieldName, value: string): (r: PageState)
    ensures r.data.Get(f) == value && r.errors.Get(f) == ""
    ensures forall g :: g != f ==> r.data.Get(g) == st.data.Get(g) && r.errors.Get(g) == st.errors.Get(g)
    ensures r.shown == st.shown && r.loading == st.loading && r.success == st.success
  {
    st.(data := st.data.Set(f, value), errors := st.errors.Set(f, ""))
  }

  /** `togglePassword`: flips one visibility flag. */
  function Toggle(st: PageState, f: FieldName): (r: PageState)
    ensures r.shown.Get(f) == !st.shown.Get(f)
    ensures forall g :: g != f ==> r.shown.Get(g) == st.shown.Get(g)
    ensures r.data == st.data && r.errors == st.errors
  {
    st.(shown := st.shown.Set(f, !st.shown.Get(f)))
  }

  /** Toggling twice restores the flags. */
  lemma ToggleTwice(st: PageState, f: FieldName)
    ensures Toggle(Toggle(st, f), f) == st
  {
    var r := Toggle(Toggle(st, f), f);
    assert r.shown.Get(Current) == st.shown.Get(Current);
    assert r.shown.Get(Proposed) == st.shown.Get(Proposed);
    assert r.shown.Get(Confirmation) == st.shown.Get(Confirmation);
  }

  /** The mutation's callbacks: success clears the fields and records the
      reply's flag; failure records `false`. Both stop loading. */
  function Settled(st: PageState, reply: Option<Option<bool>>): (r: PageState)
    ensures !r.loading
    ensures reply.Some? ==> r.data == Triple("", "", "") && r.success == reply.value
    ensures reply.None? ==> r.data == st.data && r.success == Some(false)
  {
    match reply
    case Some(flag) => st.(loading := false, success := flag, data := Triple("", "", ""))
    case None => st.(loading := false, success := Some(false))
  }
}

=== FILE: post_form.dfy ===
/** The create/edit post form (Components/usersPosts.tsx): field
    validation, image acceptance, and the form data a submit sends. */
module PostForm {
  import opened Common
  import Strs
  import PostRoute
  import Store
  import Images

  /** A length rule on the trimmed text: empty when valid, otherwise the
      first failing message in the order required, too short, too long. */
  function CheckLength(s: string, min: nat, max: nat, required: string, short: string, long: string): (r: string)
    requires 1 <= min && required != "" && short != "" && long != ""
    ensures r == "" <==> min <= |Strs.Trim(s)| <= max
    ensures r in {"", required, short, long}
  {
    var t := Strs.Trim(s);
    if t == "" then required
    else if |t| < min then short
    else if |t| > max then long
    else ""
  }

  const TitleRequired := "Title is required"
  const TitleShort := "Title must be at least 3 characters"
  const TitleLong := "Title must not exceed 100 characters"
  const DescriptionRequired := "Description is required"
  const DescriptionShort := "Description must be at least 10 characters"
  const DescriptionLong := "Description must not exceed 1000 characters"

  /** `validateTitle`: valid exactly when the trimmed title has 3 to 100
      characters; blank titles are "required" rather than "too short". */
  function ValidateTitle(title: string): (r: string)
    ensures r == "" <==> 3 <= |Strs.Trim(title)| <= 100
    ensures r == TitleRequired <==> Strs.AllSpace(title)
    ensures r == TitleShort <==> 0 < |Strs.Trim(title)| < 3
    ensures r == TitleLong <==> |Strs.Trim(title)| > 100
  {
    Strs.TrimEmptyIffAllSpace(title);
    CheckLength(title, 3, 100, TitleRequired, TitleShort, TitleLong)
  }

  /** `validateDescription`: valid exactly when the trimmed description has
      10 to 1000 characters, with the same precedence. */
  function ValidateDescription(description: string): (r: string)
    ensures r == "" <==> 10 <= |Strs.Trim(description)| <= 1000
    ensures r == DescriptionRequired <==> Strs.AllSpace(description)
    ensures r == DescriptionShort <==> 0 < |Strs.Trim(description)| < 10
    ensures r == DescriptionLong <==> |Strs.Trim(description)| > 1000
  {
    Strs.TrimEmptyIffAllSpace(description);
    CheckLength(description, 10, 1000, DescriptionRequired, DescriptionShort, DescriptionLong)
  }

  /** A chosen file: its MIME type and size in bytes. */
  datatype File = File(mime: string, size: nat)

  const MaxImageBytes: nat := 5 * 1024 * 1024
  const ImageTypeError := "Please select a valid image file"
  const ImageSizeError := "Image size must be less than 5MB"

  datatype Errors = Errors(title: string, description: string, image: string)

  /** A post being edited: its id and its current image URL. */
  datatype Editing = Editing(id: string, imageUrl: Option<string>)

  datatype FormState = FormState(
    title: string, description: string,
    image: Option<File>, preview: Option<string>,
    errors: Errors, editing: Option<Editing>, submitting: bool)

  predicate AcceptableImage(f: File) {
    Strs.StartsWith(f.mime, "image/") && f.size <= MaxImageBytes
  }

  /** `handleImageUpload`: an image-typed file of at most 5 MB becomes the
      image and its object URL the preview; a rejected file only sets the
      error (the type is checked first) and keeps the previous image. */
  function ChooseImage(st: FormState, file: Option<File>, objectUrl: string): (r: FormState)
    ensures file.None? ==> r == st
    ensures file.Some? && AcceptableImage(file.value) ==>
      r == st.(image := file, preview := Some(objectUrl), errors := st.errors.(image := ""))
    ensures file.Some? && !AcceptableImage(file.value) ==>
      && r.image == st.image && r.preview == st.preview
      && r.errors.title == st.errors.title && r.errors.description == st.errors.description
      && r.errors.image == (if Strs.StartsWith(file.value.mime, "image/") then ImageSizeError else ImageTypeError)
  {
    match file
    case None => st
    case Some(f) =>
      if !Strs.StartsWith(f.mime, "image/") then st.(errors := st.errors.(image := ImageTypeError))
      else if f.size > MaxImageBytes then st.(errors := st.errors.(image := ImageSizeError))
      else st.(image := file, preview := Some(objectUrl), errors := st.errors.(image := ""))
  }

  /** One FormData entry: a text value or a file. */
  datatype Value = TextValue(text: string) | FileValue(file: File)

  /** The request a submit sends: the edit (PUT) or create (POST) form. */
  datatype Request = EditRequest(form: seq<(string, Value)>) | CreateRequest(form: seq<(string, Value)>)

  function Keys(form: seq<(string, Value)>): (r: seq<string>)
    ensures |r| == |form|
    ensures forall i :: 0 <= i < |form| ==> r[i] == form[i].0
  {
    if |form| == 0 then [] else [form[0].0] + Keys(form[1..])
  }

  /** `FormData.get`: the first text value under the key (a file under a
      text key is not modelled). */
  function GetText(form: seq<(string, Value)>, key: string): Option<string> {
    if |form| == 0 then None
    else if form[0].0 == key && form[0].1.TextValue? then Some(form[0].1.text)
    else if form[0].0 == key then None
    else GetText(form[1..], key)
  }

  /** The file under the key, when the key's first entry is a file. */
  function GetFile(form: seq<(string, Value)>, key: string): Option<File> {
    if |form| == 0 then None
    else if form[0].0 == key && form[0].1.FileValue? then Some(form[0].1.file)
    else if form[0].0 == key then None
    else GetFile(form[1..], key)
  }

  /** How the edit handler reads a submitted edit form. */
  function AsEditForm(form: seq<(string, Value)>): PostRoute.EditForm {
    PostRoute.EditForm(GetText(form, "postId"), GetText(form, "title"), GetText(form, "description"),
                       GetText(form, "OldImageUrl"), "Newimage" in Keys(form))
  }

  /** How the create handler reads a submitted create form. */
  function AsCreateForm(form: seq<(string, Value)>): PostRoute.CreateForm {
    PostRoute.CreateForm(GetText(form, "userId"), GetText(form, "title"), GetText(form, "description"),
                         "image" in Keys(form))
  }

  /** One entry under the key when there is a value, none otherwise. */
  function OptionalEntry(key: string, v: Option<Value>): seq<(string, Value)> {
    if v.Some? then [(key, v.value)] else []
  }

  /** The edit form: id, title and description, then the old image URL if
      the post had one and the new image if one was chosen. */
  function EditFormData(post: Editing, title: string, description: string, image: Option<File>): (form: seq<(string, Value)>)
    ensures |form| >= 3 && Keys(form)[..3] == ["postId", "title", "description"]
    ensures "OldImageUrl" in Keys(form) <==> Truthy(post.imageUrl)
    ensures "Newimage" in Keys(form) <==> image.Some?
    ensures AsEditForm(form) == PostRoute.EditForm(Some(post.id), Some(title), Some(description),
                                                   if Truthy(post.imageUrl) then post.imageUrl else None, image.Some?)
    ensures GetFile(form, "Newimage") == image
  {
    var keys, texts := ["postId", "title", "description"], [post.id, title, description];
    var head := TextEntries(keys, texts);
    var oldUrl := if Truthy(post.imageUrl) then Some(TextValue(post.imageUrl.value)) else None;
    var newFile := if image.Some? then Some(FileValue(image.value)) else None;
    var tail := OptionalEntry("OldImageUrl", oldUrl) + OptionalEntry("Newimage", newFile);
    var form := head + tail;
    FormKeysDistinct();
    ReadLayout(keys, texts, "OldImageUrl", oldUrl, "Newimage", newFile);
    assert GetText(form, keys[0]) == Some(texts[0]) && GetText(form, keys[1]) == Some(texts[1]);
    assert GetText(form, keys[2]) == Some(texts[2]);
    form
  }

  /** The create form: title and description, then the user and the image
      when present. */
  function CreateFormData(title: string, description: string, userId: Option<string>, image: Option<File>): (form: seq<(string, Value)>)
    ensures |form| >= 2 && Keys(form)[..2] == ["title", "description"]
    ensures "userId" in Keys(form) <==> Truthy(userId)
    ensures "image" in Keys(form) <==> image.Some?
    ensures AsCreateForm(form) == PostRoute.CreateForm(if Truthy(userId) then userId else None,
                                                       Some(title), Some(description), image.Some?)
    ensures GetFile(form, "image") == image
  {
    var keys, texts := ["title", "description"], [title, description];
    var head := TextEntries(keys, texts);
    var user := if Truthy(userId) then Some(TextValue(userId.value)) else None;
    var file := if image.Some? then Some(FileValue(image.value)) else None;
    var tail := OptionalEntry("userId", user) + OptionalEntry("image", file);
    var form := head + tail;
    FormKeysDistinct();
    ReadLayout(keys, texts, "userId", user, "image", file);
    assert GetText(form, keys[0]) == Some(texts[0]) && GetText(form, keys[1]) == Some(texts[1]);
    form
  }

  lemma KeysAppend(a: seq<(string, Value)>, b: seq<(string, Value)>)
    ensures Keys(a + b) == Keys(a) + Keys(b)
  {
  }

  /** The reads find an entry whose key no earlier entry carries. */
  lemma {:induction false} ReadEntry(pre: seq<(string, Value)>, x: (string, Value), post: seq<(string, Value)>)
    requires x.0 !in Keys(pre)
    ensures GetText(pre + [x] + post, x.0) == (if x.1.TextValue? then Some(x.1.text) else None)
    ensures GetFile(pre + [x] + post, x.0) == (if x.1.FileValue? then Some(x.1.file) else None)
  {
    if |pre| > 0 {
      assert (pre + [x] + post)[1..] == pre[1..] + [x] + post;
      assert Keys(pre) == [pre[0].0] + Keys(pre[1..]);
      ReadEntry(pre[1..], x, post);
    } else {
      assert pre + [x] + post == [x] + post;
    }
  }

  /** The form's key names are pairwise distinct. */
  lemma FormKeysDistinct()
    ensures |"postId"| == 6 && |"title"| == 5 && |"description"| == 11 && |"OldImageUrl"| == 11 && |"Newimage"| == 8
    ensures |"userId"| == 6 && |"image"| == 5
    ensures "description"[0] != "OldImageUrl"[0] && "title"[0] != "image"[0]
  {
  }

  /** Text entries under distinct keys. */
  function TextEntries(keys: seq<string>, texts: seq<string>): (r: seq<(string, Value)>)
    requires |keys| == |texts|
    ensures |r| == |keys|
    ensures forall i :: 0 <= i < |r| ==> r[i] == (keys[i], TextValue(texts[i]))
  {
    if |keys| == 0 then [] else [(keys[0], TextValue(texts[0]))] + TextEntries(keys[1..], texts[1..])
  }

  /** A head of text entries under distinct keys: its keys are the keys,
      and each key reads as its own text. */
  lemma {:induction false} ReadTextHead(keys: seq<string>, texts: seq<string>)
    requires |keys| == |texts|
    requires forall i, j :: 0 <= i < j < |keys| ==> keys[i] != keys[j]
    ensures Keys(TextEntries(keys, texts)) == keys
    ensures forall i :: 0 <= i < |keys| ==> GetText(TextEntries(keys, texts), keys[i]) == Some(texts[i])
  {
    if |keys| > 0 {
      var h := TextEntries(keys, texts);
      ReadTextHead(keys[1..], texts[1..]);
      assert h[1..] == TextEntries(keys[1..], texts[1..]);
      forall i | 0 <= i < |keys| ensures GetText(h, keys[i]) == Some(texts[i]) {
        if i > 0 { assert keys[i] != keys[0]; assert keys[i] == keys[1..][i - 1]; }
      }
    }
  }

  /** Appending entries does not change what a key of the prefix reads. */
  lemma {:induction false} ReadPrefix(pre: seq<(string, Value)>, post: seq<(string, Value)>, key: string)
    requires key in Keys(pre)
    ensures GetText(pre + post, key) == GetText(pre, key)
  {
    assert Keys(pre) == [pre[0].0] + Keys(pre[1..]);
    if pre[0].0 != key {
      assert (pre + post)[1..] == pre[1..] + post;
      ReadPrefix(pre[1..], post, key);
    }
  }

  /** Two optional entries after a fixed head: the head's keys come first
      and each optional key is present exactly when its value is. */
  lemma OptionalEntryKeys(head: seq<(string, Value)>, k1: string, v1: Option<Value>, k2: string, v2: Option<Value>)
    requires k1 !in Keys(head) && k2 !in Keys(head) && k1 != k2
    ensures var form := head + (OptionalEntry(k1, v1) + OptionalEntry(k2, v2));
      && |form| >= |head| && Keys(form)[..|head|] == Keys(head)
      && (k1 in Keys(form) <==> v1.Some?) && (k2 in Keys(form) <==> v2.Some?)
  {
    var e1, e2 := OptionalEntry(k1, v1), OptionalEntry(k2, v2);
    assert head + (e1 + e2) == head + e1 + e2;
    KeysAppend(head + e1, e2);
    KeysAppend(head, e1);
  }

  /** The first optional key reads as its own text. */
  lemma FirstOptionalRead(head: seq<(string, Value)>, k1: string, v1: Option<Value>, k2: string, v2: Option<Value>)
    requires k1 !in Keys(head) && k2 !in Keys(head) && k1 != k2
    ensures GetText(head + (OptionalEntry(k1, v1) + OptionalEntry(k2, v2)), k1)
         == (if v1.Some? && v1.value.TextValue? then Some(v1.value.text) else None)
  {
    var e1, e2 := OptionalEntry(k1, v1), OptionalEntry(k2, v2);
    var form := head + (e1 + e2);
    if v1.Some? {
      assert form == head + [e1[0]] + e2;
      ReadEntry(head, e1[0], e2);
    } else {
      OptionalEntryKeys(head, k1, v1, k2, v2);
      ReadAbsent(form, k1);
    }
  }

  /** The second optional key reads as its own file. */
  lemma SecondOptionalRead(head: seq<(string, Value)>, k1: string, v1: Option<Value>, k2: string, v2: Option<Value>)
    requires k1 !in Keys(head) && k2 !in Keys(head) && k1 != k2
    ensures GetFile(head + (OptionalEntry(k1, v1) + OptionalEntry(k2, v2)), k2)
         == (if v2.Some? && v2.value.FileValue? then Some(v2.value.file) else None)
  {
    var e1, e2 := OptionalEntry(k1, v1), OptionalEntry(k2, v2);
    var form := head + (e1 + e2);
    if v2.Some? {
      assert form == (head + e1) + [e2[0]] + [];
      KeysAppend(head, e1);
      ReadEntry(head + e1, e2[0], []);
    } else {
      OptionalEntryKeys(head, k1, v1, k2, v2);
      ReadAbsent(form, k2);
    }
  }

  /** The layout both forms share: text entries under distinct keys, then
      two optional entries. The fixed keys come first and read as their
      texts; each optional key is present exactly when its value is and
      reads as that value. */
  lemma ReadLayout(keys: seq<string>, texts: seq<string>, k1: string, v1: Option<Value>, k2: string, v2: Option<Value>)
    requires |keys| == |texts|
    requires forall i, j :: 0 <= i < j < |keys| ==> keys[i] != keys[j]
    requires k1 !in keys && k2 !in keys && k1 != k2
    ensures var form := TextEntries(keys, texts) + (OptionalEntry(k1, v1) + OptionalEntry(k2, v2));
      && |form| >= |keys| && Keys(form)[..|keys|] == keys
      && (forall i :: 0 <= i < |keys| ==> GetText(form, keys[i]) == Some(texts[i]))
      && (k1 in Keys(form) <==> v1.Some?) && (k2 in Keys(form) <==> v2.Some?)
      && GetText(form, k1) == (if v1.Some? && v1.value.TextValue? then Some(v1.value.text) else None)
      && GetFile(form, k2) == (if v2.Some? && v2.value.FileValue? then Some(v2.value.file) else None)
  {
    var head, tail := TextEntries(keys, texts), OptionalEntry(k1, v1) + OptionalEntry(k2, v2);
    ReadTextHead(keys, texts);
    OptionalEntryKeys(head, k1, v1, k2, v2);
    FirstOptionalRead(head, k1, v1, k2, v2);
    SecondOptionalRead(head, k1, v1, k2, v2);
    forall i | 0 <= i < |keys| ensures GetText(head + tail, keys[i]) == Some(texts[i]) {
      ReadPrefix(head, tail, keys[i]);
    }
  }

  /** A key that is not in the form reads as absent. */
  lemma {:induction false} ReadAbsent(form: seq<(string, Value)>, key: string)
    requires key !in Keys(form)
    ensures GetText(form, key).None? && GetFile(form, key).None?
  {
    if |form| > 0 {
      assert Keys(form) == [form[0].0] + Keys(form[1..]);
      ReadAbsent(form[1..], key);
    }
  }

  /** `handleSubmit`: both text errors are recorded and the image error
      cleared; nothing is sent while either text error is set; otherwise the
      edit or the create form is sent. */
  function Submit(st: FormState, userId: Option<string>): (r: (FormState, Option<Request>))
    ensures r.0.errors == Errors(ValidateTitle(st.title), ValidateDescription(st.description), "")
    ensures r.1.Some? <==> ValidateTitle(st.title) == "" && ValidateDescription(st.description) == ""
    ensures r.1.Some? ==> r.0.submitting
    ensures r.1.Some? && st.editing.Some? ==>
      r.1.value == EditRequest(EditFormData(st.editing.value, st.title, st.description, st.image))
    ensures r.1.Some? && st.editing.None? ==>
      r.1.value == CreateRequest(CreateFormData(st.title, st.description, userId, st.image))
  {
    var titleError, descriptionError := ValidateTitle(st.title), ValidateDescription(st.description);
    var st1 := st.(errors := Errors(titleError, descriptionError, ""));
    if titleError != "" || descriptionError != "" then (st1, None)
    else
      var st2 := st1.(submitting := true);
      match st.editing
      case Some(post) => (st2, Some(EditRequest(EditFormData(post, st.title, st.description, st.image))))
      case None => (st2, Some(CreateRequest(CreateFormData(st.title, st.description, userId, st.image))))
  }

  /** The form checks the text fields but does not require an image, while
      the create handler does: a valid form without an image is sent and
      then refused by the server. */
  lemma CreateWithoutImageIsRefused(st: FormState, userId: Option<string>, db: Store.Db,
                                    upload: Images.Upload, newPostId: string)
    requires st.editing.None? && st.image.None?
    requires ValidateTitle(st.title) == "" && ValidateDescription(st.description) == ""
    ensures var r := Submit(st, userId);
      r.1.Some? && PostRoute.CreatePost(db, AsCreateForm(r.1.value.form), upload, newPostId).reply == PostRoute.PostNotCreated
  {
    var r := Submit(st, userId);
    assert "image" !in Keys(r.1.value.form);
  }
}

=== FILE: post_route.dfy ===
/** Posts (app/api/post/route.ts): create with an uploaded image, list a
    user's posts, edit (re-uploading over the old image's public id), and
    delete. The image host is abstracted as the outcome of one upload. */
module PostRoute {
  import opened Common
  import opened Store
  import opened Images

  // ------------------------------------------------------------------ POST

  /** Form fields; `hasImage` says whether an `image` file was attached. */
  datatype CreateForm = CreateForm(userId: Option<string>, title: Option<string>, description: Option<string>, hasImage: bool)

  datatype CreateReply = PostCreated | PostNotCreated

  /** POST. The image is read unconditionally, so a form without one throws;
      so does a rejected upload or a missing required column. */
  function CreatePost(db: Db, form: CreateForm, upload: Upload, newPostId: string): (o: Outcome<CreateReply>)
    ensures o.published == []
    ensures o.reply == PostCreated <==>
      form.hasImage && upload.Uploaded? && form.userId.Some? && form.title.Some? && form.description.Some?
    ensures o.reply == PostCreated ==>
      o.db == db.(posts := db.posts + [Post(newPostId, form.userId.value, form.title.value,
                                            form.description.value, upload.url)])
    ensures o.reply == PostNotCreated ==> o.db == db
  {
    if !form.hasImage || upload.UploadRejected? then Outcome(db, PostNotCreated, [])
    else if form.userId.None? || form.title.None? || form.description.None? then Outcome(db, PostNotCreated, [])
    else Outcome(db.(posts := db.posts + [Post(newPostId, form.userId.value, form.title.value,
                                               form.description.value, upload.url)]), PostCreated, [])
  }

  // ------------------------------------------------------------------- GET

  datatype PostsReply = CantFindPosts | Posts(data: seq<Post>)

  function OwnedBy(ps: seq<Post>, ownerId: string): (r: seq<Post>)
    ensures forall p :: p in r <==> p in ps && p.ownerId == ownerId
  {
    if |ps| == 0 then []
    else (if ps[0].ownerId == ownerId then [ps[0]] else []) + OwnedBy(ps[1..], ownerId)
  }

  /** GET: a user's posts; without an id, "Can't find any posts". */
  function ListPosts(db: Db, id: Option<string>): (r: PostsReply)
    ensures r.CantFindPosts? <==> !Truthy(id)
    ensures r.Posts? ==> forall p :: p in r.data <==> p in db.posts && p.ownerId == id.value
  {
    if !Truthy(id) then CantFindPosts else Posts(OwnedBy(db.posts, id.value))
  }

  /** The new post is among its owner's posts. */
  lemma CreatedPostIsListed(db: Db, form: CreateForm, upload: Upload, newPostId: string)
    requires CreatePost(db, form, upload, newPostId).reply == PostCreated
    requires form.userId.value != ""
    ensures var o := CreatePost(db, form, upload, newPostId);
      Post(newPostId, form.userId.value, form.title.value, form.description.value, upload.url)
        in ListPosts(o.db, form.userId).data
  {
  }

  // ------------------------------------------------------------------- PUT

  /** Form fields of an edit; `hasNewImage` says whether `Newimage` was
      attached. */
  datatype EditForm = EditForm(postId: Option<string>, title: Option<string>, description: Option<string>,
                               oldImageUrl: Option<string>, hasNewImage: bool)

  /** `overwrite` is the public id the upload was asked to replace, if an
      upload happened. */
  datatype EditReply = PostUpdated(overwrite: Option<string>) | PostNotUpdated

  function SetPost(ps: seq<Post>, id: string, title: string, description: string, imageUrl: Option<string>): (r: seq<Post>)
    ensures |r| == |ps|
    ensures forall i :: 0 <= i < |ps| ==>
      r[i] == if ps[i].id == id then ps[i].(title := title, description := description, imageUrl := imageUrl) else ps[i]
  {
    if |ps| == 0 then []
    else [if ps[0].id == id then ps[0].(title := title, description := description, imageUrl := imageUrl) else ps[0]]
         + SetPost(ps[1..], id, title, description, imageUrl)
  }

  /** The image column after an edit: the new upload's URL when a new image
      was sent, otherwise the old URL as given. */
  function ChosenImage(form: EditForm, upload: Upload): Option<string>
    requires form.hasNewImage ==> upload.Uploaded?
  {
    if form.hasNewImage then upload.url else form.oldImageUrl
  }

  /** PUT. A new image without an old URL throws while splitting the URL; a
      rejected upload, an unknown post or a missing column throws too. */
  function EditPost(db: Db, form: EditForm, upload: Upload): (o: Outcome<EditReply>)
    ensures o.published == []
    ensures o.reply.PostUpdated? <==>
      && (form.hasNewImage ==> form.oldImageUrl.Some? && upload.Uploaded?)
      && form.postId.Some? && HasPost(db.posts, form.postId.value)
      && form.title.Some? && form.description.Some?
    ensures o.reply.PostUpdated? ==>
      && (o.reply.overwrite.Some? <==> form.hasNewImage)
      && (form.hasNewImage ==> o.reply.overwrite.value == PublicId(form.oldImageUrl.value))
      && o.db == db.(posts := SetPost(db.posts, form.postId.value, form.title.value, form.description.value,
                                      ChosenImage(form, upload)))
    ensures o.reply.PostNotUpdated? ==> o.db == db
  {
    if form.hasNewImage && (form.oldImageUrl.None? || upload.UploadRejected?) then Outcome(db, PostNotUpdated, [])
    else
      var overwrite := if form.hasNewImage then Some(PublicId(form.oldImageUrl.value)) else None;
      if form.postId.None? || !HasPost(db.posts, form.postId.value) || form.title.None? || form.description.None? then
        Outcome(db, PostNotUpdated, [])
      else
        Outcome(db.(posts := SetPost(db.posts, form.postId.value, form.title.value, form.description.value,
                                     ChosenImage(form, upload))), PostUpdated(overwrite), [])
  }

  /** Editing without a new image keeps the old URL; with one, the stored
      URL is the upload's. */
  lemma EditImageChoice(db: Db, form: EditForm, upload: Upload, k: nat)
    requires EditPost(db, form, upload).reply.PostUpdated?
    requires k < |db.posts| && db.posts[k].id == form.postId.value
    ensures var p := EditPost(db, form, upload).db.posts[k];
      && (!form.hasNewImage ==> p.imageUrl == form.oldImageUrl)
      && (form.hasNewImage ==> p.imageUrl == upload.url)
      && p.title == form.title.value && p.id == db.posts[k].id && p.ownerId == db.posts[k].ownerId
  {
  }

  // ---------------------------------------------------------------- DELETE

  datatype DeleteReply = PostNotDeleted | DeleteFailed | PostDeleted

  function WithoutPost(ps: seq<Post>, id: string): (r: seq<Post>)
    ensures forall p :: p in r <==> p in ps && p.id != id
  {
    if |ps| == 0 then []
    else (if ps[0].id == id then [] else [ps[0]]) + WithoutPost(ps[1..], id)
  }

  /** DELETE: without an id, "Post isn't deleted"; an unknown id throws. */
  function DeletePost(db: Db, id: Option<string>): (o: Outcome<DeleteReply>)
    ensures o.published == []
    ensures o.reply == PostNotDeleted <==> !Truthy(id)
    ensures o.reply == PostDeleted <==> Truthy(id) && HasPost(db.posts, id.value)
    ensures o.reply == PostDeleted ==> !HasPost(o.db.posts, id.value) && o.db == db.(posts := o.db.posts)
    ensures o.reply == PostDeleted ==> o.db.posts == WithoutPost(db.posts, id.value)
    ensures o.reply != PostDeleted ==> o.db == db
  {
    if !Truthy(id) then Outcome(db, PostNotDeleted, [])
    else if !HasPost(db.posts, id.value) then Outcome(db, DeleteFailed, [])
    else
      var rest := WithoutPost(db.posts, id.value);
      assert forall i :: 0 <= i < |rest| ==> rest[i] in rest;
      Outcome(db.(posts := rest), PostDeleted, [])
  }

  /** Afterwards every other post is still listed
      for its owner, and the deleted one is listed for nobody. */
  lemma DeleteKeepsOthersListed(db: Db, id: Option<string>, p: Post, ownerId: string)
    requires DeletePost(db, id).reply == PostDeleted
    requires p in db.posts && p.id != id.value && p.ownerId == ownerId && ownerId != ""
    ensures var l := ListPosts(DeletePost(db, id).db, Some(ownerId));
      p in l.data && forall q :: q in l.data ==> q.id != id.value
  {
  }
}

=== FILE: producers.dfy ===
/** The client calls that announce a change over the socket after the HTTP
    call behind it (lib/apiCalls.ts). Each call either rethrows (the HTTP
    call failed, or answered with a non-2xx status, which the HTTP client
    turns into a rejection) or returns after emitting at most one event. */
module Producers {
  import opened Common
  import opened Wire
  import SocketServer
  import CommentRoute
  import LikeRoute
  import FriendRoutes
  import MessageRoute

  /** What the HTTP call produced: a reply with its status, or no reply. */
  datatype Http<R> = Answered(status: nat, reply: R) | NoAnswer

  predicate Resolves<R>(h: Http<R>) {
    h.Answered? && 200 <= h.status < 300
  }

  /** A producer's result: it rethrew, or it returned having emitted the
      given events. */
  datatype Call = Threw | Returned(emits: seq<Emit>)

  /** `postComment`: a `notification` of type COMMENT to the notification's
      receiver, only when the reply reports success. */
  function PostComment(h: Http<CommentRoute.CommentReply>): (c: Call)
    ensures c.Threw? <==> !Resolves(h)
    ensures c.Returned? ==> (|c.emits| == 1 <==> h.reply.Commented?) && |c.emits| <= 1
    ensures c.Returned? && h.reply.Commented? ==>
      var n := h.reply.notification;
      c.emits == [Emit("notification", Obj(map["toUserId" := n.reciverId, "type" := "COMMENT",
                                              "message" := CommentRoute.CommentMessage, "senderId" := n.senderId,
                                              "senderName" := h.reply.senderName, "id" := n.id]))]
  {
    if !Resolves(h) then Threw
    else match h.reply
      case Commented(_, n, senderName) =>
        Returned([Emit("notification", Obj(map["toUserId" := n.reciverId, "type" := "COMMENT",
                                                "message" := CommentRoute.CommentMessage, "senderId" := n.senderId,
                                                "senderName" := senderName, "id" := n.id]))])
      case CommentFailed => Returned([])
  }

  /** `addLike`: a LIKE `notification` when the reply names the post owner;
      otherwise a `delete-notification` when it reports an unlike (with both
      of its fields undefined, since that reply carries neither); otherwise
      nothing. */
  function AddLike(h: Http<LikeRoute.LikeReply>): (c: Call)
    ensures c.Threw? <==> !Resolves(h)
    ensures c.Returned? ==> |c.emits| <= 1
    ensures c.Returned? && h.reply.Liked? && h.reply.postOwnerId != "" ==>
      c.emits == [Emit("notification", Obj(map["toUserId" := h.reply.postOwnerId, "type" := "LIKE",
                                              "message" := LikeRoute.LikeMessage, "senderName" := h.reply.senderName,
                                              "senderId" := h.reply.senderId, "id" := h.reply.notificationId]))]
    ensures c.Returned? && h.reply.Liked? && h.reply.postOwnerId == "" ==> c.emits == []
    ensures c.Returned? && h.reply.Unliked? ==> c.emits == [Emit("delete-notification", Obj(map[]))]
    ensures c.Returned? && !h.reply.Liked? && !h.reply.Unliked? ==> c.emits == []
  {
    if !Resolves(h) then Threw
    else match h.reply
      case Liked(owner, notificationId, senderName, senderId) =>
        if Truthy(Some(owner)) then
          Returned([Emit("notification", Obj(map["toUserId" := owner, "type" := "LIKE",
                                                  "message" := LikeRoute.LikeMessage, "senderName" := senderName,
                                                  "senderId" := senderId, "id" := notificationId]))])
        else Returned([])
      case Unliked => Returned([Emit("delete-notification", Obj(map[]))])
      case _ => Returned([])
  }

  /** `createFriendNotif`: a FRIEND-REQUEST `notification` on success. The
      `friendReqId` it copies is not in the reply, so the field is left
      undefined. */
  function CreateFriendNotif(h: Http<FriendRoutes.RequestReply>): (c: Call)
    ensures c.Threw? <==> !Resolves(h)
    ensures c.Returned? ==> (|c.emits| == 1 <==> h.reply.Requested?) && |c.emits| <= 1
    ensures c.Returned? && h.reply.Requested? ==>
      && Prop(c.emits[0].payload, "toUserId") == Some(h.reply.notification.reciverId)
      && Prop(c.emits[0].payload, "type") == Some(FriendRoutes.RequestKind)
      && Prop(c.emits[0].payload, "friendReqId").None?
      && c.emits[0].event == "notification"
      && Prop(c.emits[0].payload, "message") == Some(FriendRoutes.RequestMessage)
      && Prop(c.emits[0].payload, "senderId") == Some(h.reply.notification.senderId)
  {
    if !Resolves(h) then Threw
    else match h.reply
      case Requested(n, _) =>
        Returned([Emit("notification", Obj(map["toUserId" := n.reciverId, "type" := FriendRoutes.RequestKind,
                                                "message" := FriendRoutes.RequestMessage, "senderId" := n.senderId]))])
      case _ => Returned([])
  }

  /** The fields the client reads from a message reply; a failure reply has
      none of them. */
  function SentFields(r: MessageRoute.SendReply): (Option<string>, Option<string>, Option<string>) {
    match r
    case Sent(convoId, senderName, avatar) => (Some(convoId), Some(senderName), avatar)
    case _ => (None, None, None)
  }

  /** `sendMessage`: a `chatMessage` to the receiver whenever the call
      resolves; the reply's success is not looked at. */
  function SendMessage(message: string, senderId: string, reciverId: string, h: Http<MessageRoute.SendReply>): (c: Call)
    ensures c.Threw? <==> !Resolves(h)
    ensures c.Returned? ==>
      && |c.emits| == 1 && c.emits[0].event == "chatMessage"
      && Prop(c.emits[0].payload, "toUserId") == Some(reciverId)
      && Prop(c.emits[0].payload, "MessageText") == Some(message)
      && Prop(c.emits[0].payload, "convoId") == SentFields(h.reply).0
      && Prop(c.emits[0].payload, "senderId") == Some(senderId)
      && Prop(c.emits[0].payload, "senderName") == SentFields(h.reply).1
      && Prop(c.emits[0].payload, "senderAvtar") == SentFields(h.reply).2
  {
    if !Resolves(h) then Threw
    else
      var (convoId, senderName, avatar) := SentFields(h.reply);
      var base := map["toUserId" := reciverId, "MessageText" := message, "senderId" := senderId];
      Returned([Emit("chatMessage", Obj(With(With(With(base, "convoId", convoId), "senderName", senderName),
                                             "senderAvtar", avatar)))])
  }

  /** `UpdateMsgSeen`: a `changeMsgSeen` naming the reader as owner and the
      message author as sender, whenever the call resolves. */
  function UpdateMsgSeen(senderId: string, reciverId: string, h: Http<MessageRoute.SeenReply>): (c: Call)
    ensures c.Threw? <==> !Resolves(h)
    ensures c.Returned? ==>
      c.emits == [Emit("changeMsgSeen", Obj(map["ownerId" := reciverId, "senderId" := senderId]))]
  {
    if !Resolves(h) then Threw
    else Returned([Emit("changeMsgSeen", Obj(map["ownerId" := reciverId, "senderId" := senderId]))])
  }

  // ------------------------------------------------- end to end with the relay

  /** A comment announced by the client reaches the room of the post's
      owner. */
  lemma CommentReachesOwner(h: Http<CommentRoute.CommentReply>)
    requires Resolves(h) && h.reply.Commented?
    ensures SocketServer.Route(PostComment(h).emits[0]) == Some(RoomName(h.reply.notification.reciverId))
  {
  }

  /** An unlike is announced, but the server has no handler for it, so no
      one receives it. */
  lemma UnlikeIsNeverRelayed(h: Http<LikeRoute.LikeReply>)
    requires Resolves(h) && h.reply.Unliked?
    ensures SocketServer.Route(AddLike(h).emits[0]).None?
  {
  }

  /** A chat message announced by the sender reaches the receiver's room. */
  lemma ChatReachesReceiver(message: string, senderId: string, reciverId: string, h: Http<MessageRoute.SendReply>)
    requires Resolves(h)
    ensures SocketServer.Route(SendMessage(message, senderId, reciverId, h).emits[0]) == Some(RoomName(reciverId))
  {
  }

  /** The seen receipt goes back to the author of the messages (routed by
      `senderId`), not to the reader who sent it. */
  lemma SeenReachesAuthor(senderId: string, reciverId: string, h: Http<MessageRoute.SeenReply>)
    requires Resolves(h)
    ensures SocketServer.Route(UpdateMsgSeen(senderId, reciverId, h).emits[0]) == Some(RoomName(senderId))
  {
  }

  /** A message reply that is a failure has a 401 status, so the call
      rethrows: the unconditional emit only follows a stored message. */
  lemma SendMessageEmitsOnlyAfterStore(message: string, senderId: string, reciverId: string, r: MessageRoute.SendReply)
    ensures var h := Answered(MessageRoute.SendStatus(r), r);
      SendMessage(message, senderId, reciverId, h).Returned? <==> r.Sent?
  {
  }
}

=== FILE: refresh_queue.dfy ===
/** The HTTP client's token refresh (lib/axios.ts): a 401 starts one
    refresh, 401s that arrive meanwhile wait in a queue, and when the
    refresh settles every waiting request is released or failed. */
module RefreshQueue {
  import opened Common

  /** A request, with the `_retry` mark the interceptor sets on it. */
  datatype Request = Request(id: nat, retry: bool)

  /** A failed response: the request it belongs to and its status, if the
      server answered at all. */
  datatype Failure = Failure(request: Request, status: Option<nat>)

  /** The module-level state: whether a refresh is running and who waits. */
  datatype Client = Client(refreshing: bool, queue: seq<nat>)

  const Initial := Client(false, [])

  /** Nobody waits unless a refresh is running. */
  ghost predicate Valid(c: Client) {
    !c.refreshing ==> c.queue == []
  }

  /** What the interceptor does with one failure. */
  datatype Handling =
    | RejectUnchanged
    | Queued
    | StartRefresh(marked: Request)

  /** The error handler: a 401 on a request not yet retried either waits
      for the running refresh or, when none runs, marks the request and
      starts one; anything else is rejected as it came. */
  function OnError(c: Client, f: Failure): (r: (Client, Handling))
    requires Valid(c)
    ensures Valid(r.0)
    ensures !(f.status == Some(401) && !f.request.retry) ==> r == (c, RejectUnchanged)
    ensures f.status == Some(401) && !f.request.retry && c.refreshing ==>
      r.1 == Queued && r.0 == c.(queue := c.queue + [f.request.id])
    ensures f.status == Some(401) && !f.request.retry && !c.refreshing ==>
      r.1 == StartRefresh(f.request.(retry := true)) && r.0.refreshing && r.0.queue == []
    ensures r.1.StartRefresh? <==> !c.refreshing && f.status == Some(401) && !f.request.retry
  {
    if f.status == Some(401) && !f.request.retry then
      if c.refreshing then (c.(queue := c.queue + [f.request.id]), Queued)
      else (Client(true, c.queue), StartRefresh(f.request.(retry := true)))
    else (c, RejectUnchanged)
  }

  /** How one waiting request is settled. */
  datatype Settlement = Released(id: nat) | Failed(id: nat)

  /** `processQueue`: every waiting request is failed when there is an error
      and released otherwise, in queue order. */
  function ProcessQueue(queue: seq<nat>, failed: bool): (r: seq<Settlement>)
    ensures |r| == |queue|
    ensures forall i :: 0 <= i < |queue| ==> r[i] == if failed then Failed(queue[i]) else Released(queue[i])
  {
    if |queue| == 0 then []
    else [if failed then Failed(queue[0]) else Released(queue[0])] + ProcessQueue(queue[1..], failed)
  }

  /** What happens to the request that started the refresh. */
  datatype Outcome = RetryOriginal(request: Request) | RejectWithRefreshError | GoToLogin

  /** The refresh settles: the queue is processed and emptied, the flag is
      cleared, and the original request is retried (still marked) or, on
      failure, rejected while the page goes to the login page. */
  function RefreshSettled(c: Client, original: Request, refreshOk: bool): (r: (Client, seq<Settlement>, seq<Outcome>))
    requires Valid(c)
    ensures r.0 == Initial && Valid(r.0)
    ensures |r.1| == |c.queue|
    ensures forall i :: 0 <= i < |r.1| ==> r.1[i].id == c.queue[i] && (r.1[i].Released? <==> refreshOk)
    ensures refreshOk ==> r.2 == [RetryOriginal(original)]
    ensures !refreshOk ==> r.2 == [GoToLogin, RejectWithRefreshError]
  {
    var settled := ProcessQueue(c.queue, !refreshOk);
    (Initial, settled, if refreshOk then [RetryOriginal(original)] else [GoToLogin, RejectWithRefreshError])
  }

  /** The request that started a refresh carries the mark, so a second 401
      on its retry is rejected instead of refreshing again. */
  lemma RetriedAtMostOnce(c: Client, c2: Client, f: Failure)
    requires Valid(c) && Valid(c2)
    requires OnError(c, f).1.StartRefresh?
    ensures var again := Failure(OnError(c, f).1.marked, Some(401));
      OnError(c2, again) == (c2, RejectUnchanged)
  {
  }

  /** While a refresh runs, further 401s only wait: however many arrive, no
      second refresh starts and all of them are queued in arrival order. */
  lemma {:induction false} NoSecondRefresh(c: Client, fs: seq<Failure>)
    requires Valid(c) && c.refreshing
    requires forall i :: 0 <= i < |fs| ==> fs[i].status == Some(401) && !fs[i].request.retry
    ensures var r := Feed(c, fs);
      r.0.refreshing && |r.0.queue| == |c.queue| + |fs|
      && (forall i :: 0 <= i < |fs| ==> r.1[i] == Queued)
      && r.0.queue[..|c.queue|] == c.queue
    decreases |fs|
  {
    if |fs| > 0 {
      var c1 := OnError(c, fs[0]).0;
      NoSecondRefresh(c1, fs[1..]);
      assert c1.queue[..|c.queue|] == c.queue;
    }
  }

  /** Feeds failures to the handler one after another. */
  function Feed(c: Client, fs: seq<Failure>): (r: (Client, seq<Handling>))
    requires Valid(c)
    ensures Valid(r.0) && |r.1| == |fs|
    decreases |fs|
  {
    if |fs| == 0 then (c, [])
    else
      var (c1, h) := OnError(c, fs[0]);
      var (c2, hs) := Feed(c1, fs[1..]);
      (c2, [h] + hs)
  }

  /** A queued request is released unmarked: if its retry meets a 401 again
      after the refresh ended, it starts a refresh of its own. */
  lemma ReleasedRequestCanRefreshAgain(id: nat)
    ensures OnError(Initial, Failure(Request(id, false), Some(401))).1.StartRefresh?
  {
  }

  /** A refresh cycle (one 401 starting it, any number waiting, then
      settling) leaves the client as it began and settles every waiting
      request exactly once. */
  lemma RefreshCycle(first: Failure, waiting: seq<Failure>, refreshOk: bool)
    requires first.status == Some(401) && !first.request.retry
    requires forall i :: 0 <= i < |waiting| ==> waiting[i].status == Some(401) && !waiting[i].request.retry
    ensures var r1 := OnError(Initial, first);
      var r2 := Feed(r1.0, waiting);
      var r3 := RefreshSettled(r2.0, r1.1.marked, refreshOk);
      && r3.0 == Initial
      && |r3.1| == |waiting|
      && (forall i :: 0 <= i < |waiting| ==> r3.1[i].id == waiting[i].request.id)
  {
    var r1 := OnError(Initial, first);
    NoSecondRefresh(r1.0, waiting);
    FeedQueuesIds(r1.0, waiting);
  }

  lemma {:induction false} FeedQueuesIds(c: Client, fs: seq<Failure>)
    requires Valid(c) && c.refreshing
    requires forall i :: 0 <= i < |fs| ==> fs[i].status == Some(401) && !fs[i].request.retry
    ensures var q := Feed(c, fs).0.queue;
      |q| == |c.queue| + |fs| && forall i :: 0 <= i < |fs| ==> q[|c.queue| + i] == fs[i].request.id
    decreases |fs|
  {
    if |fs| > 0 {
      var c1 := OnError(c, fs[0]).0;
      assert c1.queue == c.queue + [fs[0].request.id];
      FeedQueuesIds(c1, fs[1..]);
      NoSecondRefresh(c1, fs[1..]);
      var q := Feed(c1, fs[1..]).0.queue;
      assert Feed(c, fs).0.queue == q;
      assert q[|c.queue|] == q[..|c1.queue|][|c.queue|] == fs[0].request.id;
      forall i | 1 <= i < |fs|
        ensures q[|c.queue| + i] == fs[i].request.id
      {
        assert q[|c.queue| + i] == q[|c1.queue| + (i - 1)] == fs[1..][i - 1].request.id;
      }
    }
  }
}

=== FILE: relay_channel.dfy ===
/** Relay mode: the route handlers publish straight to a hosted channel
    named after the recipient. Only the channel name, event name and payload
    handed to `trigger` are modelled. */
module RelayChannel {
  import opened Common
  import opened Wire

  const ChannelPrefix: string := "user-"

  /** The channel of one user: `user-${id}` (a hyphen, where the socket room
      uses a colon). */
  function ChannelName(id: string): (r: string)
    ensures |r| == |id| + 5 && r[..5] == ChannelPrefix && r[5..] == id
  {
    ChannelPrefix + id
  }

  /** One `trigger(channel, event, payload)` call. */
  datatype Publish = Publish(channel: string, event: string, payload: map<string, string>)

  /** Distinct ids give distinct channels. */
  lemma ChannelNameInjective(a: string, b: string)
    ensures ChannelName(a) == ChannelName(b) <==> a == b
  {
    if ChannelName(a) == ChannelName(b) {
      assert a == ChannelName(a)[5..];
    }
  }

  /** A relay channel name is never a socket room name: the fifth character
      tells them apart. */
  lemma ChannelIsNotRoom(a: string, b: string)
    ensures ChannelName(a) != RoomName(b)
  {
    assert ChannelName(a)[4] == '-' && RoomName(b)[4] == ':';
  }
}

=== FILE: server_handle.dfy ===
/** The module-level server handle (lib/io.js): `setIO` stores it, `getIO`
    returns it or throws while it is unset. */
module ServerHandle {
  import opened Common

  /** The stored handle; `None` stands for `null` (or any falsy value). */
  datatype Holder<H> = Holder(io: Option<H>)

  datatype Got<H> = Handle(h: H) | NotInitialized(message: string)

  const NotInitializedMessage: string := "Socket.IO not initialized"

  /** The module's initial state: `let io = null`. */
  function Initial<H>(): (r: Holder<H>)
    ensures r.io.None?
  {
    Holder(None)
  }

  /** `setIO(x)`: overwrites whatever was stored. */
  function SetIO<H>(st: Holder<H>, x: Option<H>): (r: Holder<H>)
    ensures r.io == x
  {
    Holder(x)
  }

  /** `getIO()`: the stored handle, or the "not initialized" error. It
      returns its result without touching the holder. */
  function GetIO<H>(st: Holder<H>): (r: Got<H>)
    ensures st.io.Some? <==> r.Handle?
    ensures r.Handle? ==> r.h == st.io.value
    ensures r.NotInitialized? ==> r.message == NotInitializedMessage
  {
    match st.io
    case Some(h) => Handle(h)
    case None => NotInitialized(NotInitializedMessage)
  }

  /** Before any `setIO`, `getIO` throws. */
  lemma UnsetThrows<H>()
    ensures GetIO(Initial<H>()) == NotInitialized("Socket.IO not initialized")
  {
  }

  /** After `setIO(x)` with a non-null `x`, `getIO` returns `x`; with two
      writes the last one wins. */
  lemma LastWriteWins<H>(st: Holder<H>, x: H, y: Option<H>)
    ensures GetIO(SetIO(st, Some(x))) == Handle(x)
    ensures SetIO(SetIO(st, y), Some(x)) == SetIO(st, Some(x))
  {
  }
}

=== FILE: server_relay.dfy ===
/** The socket server's `connection` handler (server.js): per-connection room
    membership, the `join` handler, and the three relays. Delivery to a room
    appends the event to the inbox of every connection currently in it. */
module SocketServer {
  import opened Common
  import opened Wire

  type ConnId = string

  /** `rooms[c]` holds the `user:` rooms connection `c` has joined;
      `inbox[c]` the events delivered to it, oldest first. */
  datatype Server = Server(rooms: map<ConnId, set<string>>, inbox: map<ConnId, seq<Emit>>)

  ghost predicate Valid(s: Server) {
    s.rooms.Keys == s.inbox.Keys
  }

  function Init(): (s: Server)
    ensures Valid(s) && s.rooms == map[]
  {
    Server(map[], map[])
  }

  /** A transport-level connect: the connection starts in no room. */
  function Connect(s: Server, c: ConnId): (r: Server)
    requires Valid(s)
    ensures Valid(r)
    ensures c in r.rooms
    ensures c !in s.rooms ==> r.rooms[c] == {} && r.inbox[c] == []
    ensures forall d :: d in s.rooms ==> d in r.rooms && r.rooms[d] == s.rooms[d] && r.inbox[d] == s.inbox[d]
  {
    if c in s.rooms then s
    else Server(s.rooms[c := {}], s.inbox[c := []])
  }

  /** A transport-level disconnect. The handler only logs; the transport
      itself drops the connection and with it all its room memberships. */
  function Disconnect(s: Server, c: ConnId): (r: Server)
    requires Valid(s)
    ensures Valid(r)
    ensures c !in r.rooms
    ensures forall d :: d in s.rooms && d != c ==> d in r.rooms && r.rooms[d] == s.rooms[d] && r.inbox[d] == s.inbox[d]
    ensures r.rooms.Keys == s.rooms.Keys - {c}
  {
    Server(s.rooms - {c}, s.inbox - {c})
  }

  /** `socket.join(room)`. */
  function JoinRoom(s: Server, c: ConnId, room: string): (r: Server)
    requires Valid(s) && c in s.rooms
    ensures Valid(r)
    ensures r.rooms == s.rooms[c := s.rooms[c] + {room}] && r.inbox == s.inbox
  {
    Server(s.rooms[c := s.rooms[c] + {room}], s.inbox)
  }

  /** `io.to(room).emit(e)`: every current member of `room`, the sender
      included, receives `e` once; nobody else receives anything. */
  function Deliver(s: Server, room: string, e: Emit): (r: Server)
    requires Valid(s)
    ensures Valid(r) && r.rooms == s.rooms
    ensures forall c :: c in s.inbox && room in s.rooms[c] ==> r.inbox[c] == s.inbox[c] + [e]
    ensures forall c :: c in s.inbox && room !in s.rooms[c] ==> r.inbox[c] == s.inbox[c]
  {
    Server(s.rooms, map c | c in s.inbox :: if room in s.rooms[c] then s.inbox[c] + [e] else s.inbox[c])
  }

  /** The room a relayed event is routed to, or None when the server has no
      handler for that event name. */
  function Route(e: Emit): (r: Option<string>)
    ensures e.event == "notification" || e.event == "chatMessage" ==>
              r == Some(RoomName(TemplateText(Prop(e.payload, "toUserId"))))
    ensures e.event == "changeMsgSeen" ==> r == Some(RoomName(TemplateText(Prop(e.payload, "senderId"))))
    ensures e.event !in {"notification", "chatMessage", "changeMsgSeen"} ==> r.None?
  {
    if e.event == "notification" || e.event == "chatMessage" then
      Some(RoomName(TemplateText(Prop(e.payload, "toUserId"))))
    else if e.event == "changeMsgSeen" then
      Some(RoomName(TemplateText(Prop(e.payload, "senderId"))))
    else None
  }

  /** One event sent by connection `c` to the server. */
  function OnClientEvent(s: Server, c: ConnId, e: Emit): (r: Server)
    requires Valid(s)
    ensures Valid(r)
  {
    if c !in s.rooms then s
    else if e.event == "join" then JoinRoom(s, c, RoomName(ToText(e.payload)))
    else match Route(e)
      case Some(room) => Deliver(s, room, e)
      case None => s
  }

  /** `join` with id `u` puts the sender in room `user:u` and changes nothing
      else. */
  lemma JoinEntersRoom(s: Server, c: ConnId, u: string)
    requires Valid(s) && c in s.rooms
    ensures var r := OnClientEvent(s, c, Emit("join", Text(u)));
      r.rooms == s.rooms[c := s.rooms[c] + {"user:" + u}] && r.inbox == s.inbox
  {
  }

  /** A connection only gains a room by sending `join`: every other event
      leaves all room memberships as they were. */
  lemma OnlyJoinChangesRooms(s: Server, c: ConnId, e: Emit)
    requires Valid(s)
    requires e.event != "join"
    ensures OnClientEvent(s, c, e).rooms == s.rooms
  {
  }

  /** `notification` and `chatMessage` are re-emitted under the same name,
      with the identical payload, to exactly the members of the room of
      `payload.toUserId`. */
  lemma RelayToRecipient(s: Server, c: ConnId, e: Emit, d: ConnId)
    requires Valid(s) && c in s.rooms && d in s.rooms
    requires e.event == "notification" || e.event == "chatMessage"
    requires e.payload.Obj? && "toUserId" in e.payload.fields
    ensures var r := OnClientEvent(s, c, e);
      ("user:" + e.payload.fields["toUserId"] in s.rooms[d] ==> r.inbox[d] == s.inbox[d] + [e])
      && ("user:" + e.payload.fields["toUserId"] !in s.rooms[d] ==> r.inbox[d] == s.inbox[d])
  {
  }

  /** `changeMsgSeen` goes to the room of `payload.senderId`, whatever
      `toUserId` says. */
  lemma SeenRoutedBySender(s: Server, c: ConnId, e: Emit, d: ConnId)
    requires Valid(s) && c in s.rooms && d in s.rooms
    requires e.event == "changeMsgSeen" && e.payload.Obj? && "senderId" in e.payload.fields
    ensures var r := OnClientEvent(s, c, e);
      ("user:" + e.payload.fields["senderId"] in s.rooms[d] ==> r.inbox[d] == s.inbox[d] + [e])
      && ("user:" + e.payload.fields["senderId"] !in s.rooms[d] ==> r.inbox[d] == s.inbox[d])
  {
  }

  /** There is no handler for `delete-notification` (nor for any other name
      than the four handled ones): such an emit changes nothing. */
  lemma UnhandledEventIgnored(s: Server, c: ConnId, e: Emit)
    requires Valid(s)
    requires e.event !in {"join", "notification", "chatMessage", "changeMsgSeen"}
    ensures OnClientEvent(s, c, e) == s
  {
  }

  /** A run of events sent by various connections. */
  datatype Step = Send(from: ConnId, e: Emit) | Open(c: ConnId) | Close(c: ConnId)

  /** The step is a `join` sent by `d`, or closes `d`. */
  predicate Touches(st: Step, d: ConnId) {
    match st
    case Send(c, e) => c == d && e.event == "join"
    case Close(c) => c == d
    case Open(_) => false
  }

  function Run(s: Server, steps: seq<Step>): (r: Server)
    requires Valid(s)
    ensures Valid(r)
    decreases |steps|
  {
    if |steps| == 0 then s
    else
      var s1 := match steps[0]
        case Send(c, e) => OnClientEvent(s, c, e)
        case Open(c) => Connect(s, c)
        case Close(c) => Disconnect(s, c);
      Run(s1, steps[1..])
  }

  /** No join, no delivery: a connection that is in no room and never sends
      `join` receives nothing, whatever is relayed. */
  lemma {:induction false} NoJoinNoDelivery(s: Server, steps: seq<Step>, d: ConnId)
    requires Valid(s) && d in s.rooms && s.rooms[d] == {}
    requires forall i :: 0 <= i < |steps| ==> !Touches(steps[i], d)
    ensures d in Run(s, steps).inbox && Run(s, steps).inbox[d] == s.inbox[d]
    decreases |steps|
  {
    if |steps| > 0 {
      var s1 := match steps[0]
        case Send(c, e) => OnClientEvent(s, c, e)
        case Open(c) => Connect(s, c)
        case Close(c) => Disconnect(s, c);
      assert d in s1.rooms && s1.rooms[d] == {} && s1.inbox[d] == s.inbox[d] by {
        match steps[0]
        case Send(c, e) => assert !Touches(steps[0], d);
        case Open(c) =>
        case Close(c) =>
      }
      NoJoinNoDelivery(s1, steps[1..], d);
      assert Run(s, steps) == Run(s1, steps[1..]);
    }
  }

  /** Reconnecting drops membership: after a disconnect, the next connect of
      that id is in no room, so it receives nothing until it joins again. */
  lemma ReconnectDropsMembership(s: Server, c: ConnId)
    requires Valid(s)
    ensures var r := Connect(Disconnect(s, c), c); r.rooms[c] == {} && r.inbox[c] == []
  {
  }

  /** Join, then deliver: a connection that joined `u` receives exactly one
      copy of a notification addressed to `u`, and so does every other
      connection (device) that joined `u`. */
  lemma {:induction false} JoinThenDeliver(s: Server, a: ConnId, b: ConnId, sender: ConnId, u: string, e: Emit)
    requires Valid(s) && a in s.rooms && b in s.rooms && sender in s.rooms
    requires e.event == "notification" && e.payload.Obj? && "toUserId" in e.payload.fields
    requires e.payload.fields["toUserId"] == u
    ensures var s1 := OnClientEvent(OnClientEvent(s, a, Emit("join", Text(u))), b, Emit("join", Text(u)));
      var r := OnClientEvent(s1, sender, e);
      r.inbox[a] == s.inbox[a] + [e] && r.inbox[b] == s.inbox[b] + [e]
  {
    var s1 := OnClientEvent(OnClientEvent(s, a, Emit("join", Text(u))), b, Emit("join", Text(u)));
    assert RoomName(u) in s1.rooms[a] && RoomName(u) in s1.rooms[b];
    assert s1.inbox == s.inbox;
    assert Route(e) == Some(RoomName(u));
  }
}

=== FILE: session.dfy ===
/** The client subscription layer: the provider that connects the socket and
    joins the user's room (Components/SocketProvider.tsx), and the two hooks
    that bind the push handlers (hooks/useNotication.ts,
    hooks/useGetChatNotification.ts). All of them share the one socket held by
    the lazy singleton. */
module Session {
  import opened Common
  import opened Wire
  import opened Listeners
  import opened ClientSocket

  /** The callbacks the code registers. Each effect run creates new closures,
      so every listener carries the number of the run that created it. */
  datatype Listener =
    | Rejoin(run: nat, userId: string)        // the provider's onConnect
    | Logger(run: nat, event: string)         // a hook's console callback
    | NotificationHandler(run: nat)
    | ChatHandler(run: nat)
    | SeenHandler(run: nat)

  /** Cached query keys the handlers invalidate: ["notifiction"] and ["Chats"]. */
  datatype QueryKey = NotificationsKey | ChatsKey

  /** `provider` is the onConnect closure of the provider's last effect run
      that returned a cleanup; `notifMount`/`chatMount` are the runs of the
      mounted hooks. */
  datatype Session = Session(
    holder: Option<Socket<Listener>>,
    connectedRef: bool,
    provider: Option<Listener>,
    nextRun: nat,
    notifMount: Option<nat>,
    notifications: seq<Payload>,
    chatMount: Option<nat>,
    chatNotif: Option<Payload>,
    invalidated: seq<QueryKey>)

  function Initial(): (st: Session)
    ensures st.holder.None? && !st.connectedRef && st.notifications == [] && st.chatNotif.None?
  {
    Session(None, false, None, 0, None, [], None, None, [])
  }

  /** The singleton socket as `getSocket()` returns it. */
  function Sock(st: Session): (s: Socket<Listener>)
    ensures st.holder.Some? ==> s == st.holder.value
    ensures st.holder.None? ==> s == Create()
  {
    GetSocket(st.holder).1
  }

  function JoinEmit(userId: string): Emit {
    Emit("join", Text(userId))
  }

  function ConnectListeners(st: Session): seq<Listener> {
    Handlers(Sock(st).listeners, "connect")
  }

  // ---------------------------------------------------------------- provider

  /** The provider's effect for the current `user?.userId`. */
  function ProviderEffect(st: Session, user: Option<string>): (r: Session)
    ensures !Truthy(user) || st.connectedRef ==> r == st
    ensures Truthy(user) && !st.connectedRef ==>
      && r.holder.Some? && Sock(r).active && r.connectedRef
      && r.provider == Some(Rejoin(st.nextRun, user.value))
      && ConnectListeners(r) == ConnectListeners(st) + [Rejoin(st.nextRun, user.value)]
      && Sock(r).connected == Sock(st).connected
      && Sock(r).sent == Sock(st).sent + (if Sock(st).connected then [JoinEmit(user.value)] else [])
      && r.notifications == st.notifications && r.chatNotif == st.chatNotif && r.invalidated == st.invalidated
  {
    if !Truthy(user) || st.connectedRef then st
    else
      var u := user.value;
      var s0 := ClientSocket.Connect(Sock(st));
      var s1 := if s0.connected then Send(s0, JoinEmit(u)) else s0;
      var onConnect := Rejoin(st.nextRun, u);
      var s2 := s1.(listeners := On(s1.listeners, "connect", onConnect));
      st.(holder := Some(s2), connectedRef := true, provider := Some(onConnect), nextRun := st.nextRun + 1)
  }

  /** The cleanup the provider's effect returns: disconnect and clear the ref.
      The onConnect listener is left registered. */
  function ProviderCleanup(st: Session): (r: Session)
    ensures st.provider.None? ==> r == st
    ensures st.provider.Some? ==>
      && !Sock(r).active && !Sock(r).connected && !r.connectedRef && r.provider.None?
      && Sock(r).listeners == Sock(st).listeners && Sock(r).sent == Sock(st).sent
  {
    if st.provider.None? then st
    else st.(holder := Some(ClientSocket.Disconnect(Sock(st))), connectedRef := false, provider := None)
  }

  /** The effect is keyed on `user?.userId`: a change runs the previous
      cleanup, then the effect for the new id. */
  function ProviderRerun(st: Session, user: Option<string>): Session {
    ProviderEffect(ProviderCleanup(st), user)
  }

  // ------------------------------------------------------------------ hooks

  /** The three console callbacks a hook registers on mount. */
  function RegisterLoggers(t: Table<Listener>, m: nat): (r: Table<Listener>)
    ensures Handlers(r, "connect") == Handlers(t, "connect") + [Logger(m, "connect")]
    ensures Handlers(r, "connect_error") == Handlers(t, "connect_error") + [Logger(m, "connect_error")]
    ensures Handlers(r, "disconnect") == Handlers(t, "disconnect") + [Logger(m, "disconnect")]
    ensures forall e :: e !in {"connect", "connect_error", "disconnect"} ==> Handlers(r, e) == Handlers(t, e)
  {
    On(On(On(t, "connect", Logger(m, "connect")), "connect_error", Logger(m, "connect_error")),
       "disconnect", Logger(m, "disconnect"))
  }

  /** `off("connect")`, `off("disconnect")`, `off("connect_error")`: every
      lifecycle listener goes, whichever component registered it. */
  function OffLifecycle(t: Table<Listener>): (r: Table<Listener>)
    ensures Handlers(r, "connect") == [] && Handlers(r, "disconnect") == [] && Handlers(r, "connect_error") == []
    ensures forall e :: e !in {"connect", "connect_error", "disconnect"} ==> Handlers(r, e) == Handlers(t, e)
  {
    OffAll(OffAll(OffAll(t, "connect"), "disconnect"), "connect_error")
  }

  /** The events whose listeners the notifications hook touches. */
  const NotifEvents: set<string> := {"connect", "connect_error", "disconnect", "notification"}

  /** The events whose listeners the chat hook touches. */
  const ChatEvents: set<string> := {"connect", "connect_error", "disconnect", "chatMessage", "changeMsgSeen"}

  /** The event names the hooks use are pairwise distinct. */
  lemma EventsDistinct()
    ensures |"connect"| == 7 && |"disconnect"| == 10 && |"chatMessage"| == 11
    ensures |"notification"| == 12 && |"connect_error"| == 13 && |"changeMsgSeen"| == 13
    ensures "connect_error"[1] != "changeMsgSeen"[1]
  {
  }

  /** The listeners a `useNotifications` mount of run `m` adds: its three
      loggers and its notification handler, each appended once. */
  function NotifOn(t: Table<Listener>, m: nat): (u: Table<Listener>)
    ensures Handlers(u, "connect") == Handlers(t, "connect") + [Logger(m, "connect")]
    ensures Handlers(u, "connect_error") == Handlers(t, "connect_error") + [Logger(m, "connect_error")]
    ensures Handlers(u, "disconnect") == Handlers(t, "disconnect") + [Logger(m, "disconnect")]
    ensures Handlers(u, "notification") == Handlers(t, "notification") + [NotificationHandler(m)]
    ensures forall e :: e !in NotifEvents ==> Handlers(u, e) == Handlers(t, e)
  {
    EventsDistinct();
    var t1 := RegisterLoggers(t, m);
    var u := On(t1, "notification", NotificationHandler(m));
    assert Handlers(u, "connect") == Handlers(t1, "connect");
    assert Handlers(u, "connect_error") == Handlers(t1, "connect_error");
    assert Handlers(u, "disconnect") == Handlers(t1, "disconnect");
    assert Handlers(t1, "notification") == Handlers(t, "notification");
    assert forall e :: e !in NotifEvents ==> Handlers(u, e) == Handlers(t, e) by {
      forall e | e !in NotifEvents
        ensures Handlers(u, e) == Handlers(t, e)
      {
        assert e != "notification" && e != "connect" && e != "disconnect" && e != "connect_error";
        assert Handlers(u, e) == Handlers(t1, e) == Handlers(t, e);
      }
    }
    u
  }

  /** The hook's cleanup as written: off its own notification handler, then
      every lifecycle listener of any owner. */
  function NotifOff(t: Table<Listener>, m: nat): (u: Table<Listener>)
    ensures Handlers(u, "notification") == RemoveFirst(Handlers(t, "notification"), NotificationHandler(m))
    ensures Handlers(u, "connect") == [] && Handlers(u, "disconnect") == [] && Handlers(u, "connect_error") == []
    ensures forall e :: e !in NotifEvents ==> Handlers(u, e) == Handlers(t, e)
  {
    EventsDistinct();
    var t1 := Off(t, "notification", NotificationHandler(m));
    var u := OffLifecycle(t1);
    assert Handlers(u, "notification") == Handlers(t1, "notification");
    assert forall e :: e !in NotifEvents ==> Handlers(u, e) == Handlers(t, e) by {
      forall e | e !in NotifEvents
        ensures Handlers(u, e) == Handlers(t, e)
      {
        assert e != "notification" && e != "connect" && e != "disconnect" && e != "connect_error";
        assert Handlers(u, e) == Handlers(t1, e) == Handlers(t, e);
      }
    }
    u
  }

  /** The listeners a `useGetChatNotification` mount of run `m` adds: its
      three loggers and its two chat handlers, each appended once. */
  function ChatOn(t: Table<Listener>, m: nat): (u: Table<Listener>)
    ensures Handlers(u, "connect") == Handlers(t, "connect") + [Logger(m, "connect")]
    ensures Handlers(u, "connect_error") == Handlers(t, "connect_error") + [Logger(m, "connect_error")]
    ensures Handlers(u, "disconnect") == Handlers(t, "disconnect") + [Logger(m, "disconnect")]
    ensures Handlers(u, "chatMessage") == Handlers(t, "chatMessage") + [ChatHandler(m)]
    ensures Handlers(u, "changeMsgSeen") == Handlers(t, "changeMsgSeen") + [SeenHandler(m)]
    ensures forall e :: e !in ChatEvents ==> Handlers(u, e) == Handlers(t, e)
  {
    EventsDistinct();
    var t1 := RegisterLoggers(t, m);
    var t2 := On(t1, "chatMessage", ChatHandler(m));
    var u := On(t2, "changeMsgSeen", SeenHandler(m));
    assert Handlers(u, "connect") == Handlers(t2, "connect") == Handlers(t1, "connect");
    assert Handlers(u, "connect_error") == Handlers(t2, "connect_error") == Handlers(t1, "connect_error");
    assert Handlers(u, "disconnect") == Handlers(t2, "disconnect") == Handlers(t1, "disconnect");
    assert Handlers(u, "chatMessage") == Handlers(t2, "chatMessage");
    assert Handlers(t1, "chatMessage") == Handlers(t, "chatMessage");
    assert Handlers(t2, "changeMsgSeen") == Handlers(t1, "changeMsgSeen") == Handlers(t, "changeMsgSeen");
    assert forall e :: e !in ChatEvents ==> Handlers(u, e) == Handlers(t, e) by {
      forall e | e !in ChatEvents
        ensures Handlers(u, e) == Handlers(t, e)
      {
        assert e != "chatMessage" && e != "changeMsgSeen";
        assert e != "connect" && e != "disconnect" && e != "connect_error";
        assert Handlers(u, e) == Handlers(t2, e) == Handlers(t1, e) == Handlers(t, e);
      }
    }
    u
  }

  /** The chat hook's cleanup: off its two handlers, then every lifecycle
      listener of any owner. */
  function ChatOff(t: Table<Listener>, m: nat): (u: Table<Listener>)
    ensures Handlers(u, "chatMessage") == RemoveFirst(Handlers(t, "chatMessage"), ChatHandler(m))
    ensures Handlers(u, "changeMsgSeen") == RemoveFirst(Handlers(t, "changeMsgSeen"), SeenHandler(m))
    ensures Handlers(u, "connect") == [] && Handlers(u, "disconnect") == [] && Handlers(u, "connect_error") == []
    ensures forall e :: e !in ChatEvents ==> Handlers(u, e) == Handlers(t, e)
  {
    EventsDistinct();
    var t1 := Off(t, "chatMessage", ChatHandler(m));
    var t2 := Off(t1, "changeMsgSeen", SeenHandler(m));
    var u := OffLifecycle(t2);
    assert Handlers(u, "chatMessage") == Handlers(t2, "chatMessage") == Handlers(t1, "chatMessage");
    assert Handlers(u, "changeMsgSeen") == Handlers(t2, "changeMsgSeen");
    assert Handlers(t1, "changeMsgSeen") == Handlers(t, "changeMsgSeen");
    assert forall e :: e !in ChatEvents ==> Handlers(u, e) == Handlers(t, e) by {
      forall e | e !in ChatEvents
        ensures Handlers(u, e) == Handlers(t, e)
      {
        assert e != "chatMessage" && e != "changeMsgSeen";
        assert e != "connect" && e != "disconnect" && e != "connect_error";
        assert Handlers(u, e) == Handlers(t2, e) == Handlers(t1, e) == Handlers(t, e);
      }
    }
    u
  }

  /** The session with the socket's listener table replaced. */
  function WithListeners(st: Session, t: Table<Listener>): (r: Session)
    ensures r.holder.Some? && Sock(r) == Sock(st).(listeners := t)
    ensures r == st.(holder := r.holder)
  {
    st.(holder := Some(Sock(st).(listeners := t)))
  }

  /** `useNotifications` mounts: fresh empty list, three loggers and the
      notification handler registered once; nothing else changes. */
  function MountNotifications(st: Session): (r: Session)
    ensures r.notifications == [] && r.notifMount == Some(st.nextRun)
    ensures ConnectListeners(r) == ConnectListeners(st) + [Logger(st.nextRun, "connect")]
    ensures Sock(r).active == Sock(st).active && Sock(r).connected == Sock(st).connected && Sock(r).sent == Sock(st).sent
    ensures Handlers(Sock(r).listeners, "notification") == Handlers(Sock(st).listeners, "notification") + [NotificationHandler(st.nextRun)]
    ensures r.chatNotif == st.chatNotif && r.invalidated == st.invalidated && r.connectedRef == st.connectedRef
    ensures r == WithListeners(st, NotifOn(Sock(st).listeners, st.nextRun))
                   .(nextRun := st.nextRun + 1, notifMount := Some(st.nextRun), notifications := [])
  {
    var m := st.nextRun;
    WithListeners(st, NotifOn(Sock(st).listeners, m)).(nextRun := m + 1, notifMount := Some(m), notifications := [])
  }

  /** `useNotifications` unmounts: off its own handler, then off every
      `connect`, `disconnect` and `connect_error` listener; nothing else
      changes. */
  function UnmountNotifications(st: Session): (r: Session)
    ensures st.notifMount.None? ==> r == st
    ensures st.notifMount.Some? ==>
      && r.notifMount.None?
      && multiset(Handlers(Sock(r).listeners, "notification"))
         == multiset(Handlers(Sock(st).listeners, "notification")) - multiset{NotificationHandler(st.notifMount.value)}
      && Handlers(Sock(r).listeners, "connect") == []
      && Handlers(Sock(r).listeners, "disconnect") == []
      && Handlers(Sock(r).listeners, "connect_error") == []
      && Sock(r).sent == Sock(st).sent && Sock(r).connected == Sock(st).connected
    ensures st.notifMount.Some? ==>
      r == WithListeners(st, NotifOff(Sock(st).listeners, st.notifMount.value)).(notifMount := None)
  {
    match st.notifMount
    case None => st
    case Some(m) => WithListeners(st, NotifOff(Sock(st).listeners, m)).(notifMount := None)
  }

  /** `useGetChatNotification` mounts: state undefined, three loggers, and the
      `chatMessage` and `changeMsgSeen` handlers registered once; nothing
      else changes. */
  function MountChat(st: Session): (r: Session)
    ensures r.chatNotif.None? && r.chatMount == Some(st.nextRun)
    ensures Handlers(Sock(r).listeners, "chatMessage") == Handlers(Sock(st).listeners, "chatMessage") + [ChatHandler(st.nextRun)]
    ensures Handlers(Sock(r).listeners, "changeMsgSeen") == Handlers(Sock(st).listeners, "changeMsgSeen") + [SeenHandler(st.nextRun)]
    ensures r.notifications == st.notifications && r.invalidated == st.invalidated
    ensures r == WithListeners(st, ChatOn(Sock(st).listeners, st.nextRun))
                   .(nextRun := st.nextRun + 1, chatMount := Some(st.nextRun), chatNotif := None)
  {
    var m := st.nextRun;
    WithListeners(st, ChatOn(Sock(st).listeners, m)).(nextRun := m + 1, chatMount := Some(m), chatNotif := None)
  }

  /** `useGetChatNotification` unmounts: off its two handlers, then off every
      `connect`, `connect_error` and `disconnect` listener; nothing else
      changes. */
  function UnmountChat(st: Session): (r: Session)
    ensures st.chatMount.None? ==> r == st
    ensures st.chatMount.Some? ==>
      && r.chatMount.None?
      && multiset(Handlers(Sock(r).listeners, "chatMessage"))
         == multiset(Handlers(Sock(st).listeners, "chatMessage")) - multiset{ChatHandler(st.chatMount.value)}
      && multiset(Handlers(Sock(r).listeners, "changeMsgSeen"))
         == multiset(Handlers(Sock(st).listeners, "changeMsgSeen")) - multiset{SeenHandler(st.chatMount.value)}
      && Handlers(Sock(r).listeners, "connect") == []
      && Handlers(Sock(r).listeners, "disconnect") == []
      && Handlers(Sock(r).listeners, "connect_error") == []
    ensures st.chatMount.Some? ==>
      r == WithListeners(st, ChatOff(Sock(st).listeners, st.chatMount.value)).(chatMount := None)
  {
    match st.chatMount
    case None => st
    case Some(m) => WithListeners(st, ChatOff(Sock(st).listeners, m)).(chatMount := None)
  }

  // ------------------------------------------------------------- dispatch

  /** One listener reacting to event `e`. */
  function Fire(st: Session, l: Listener, e: Emit): Session {
    match l
    case Rejoin(_, u) => st.(holder := Some(Send(Sock(st), JoinEmit(u))))
    case Logger(_, _) => st
    case NotificationHandler(_) =>
      st.(notifications := [e.payload] + st.notifications, invalidated := st.invalidated + [NotificationsKey])
    case ChatHandler(_) => st.(chatNotif := Some(e.payload), invalidated := st.invalidated + [ChatsKey])
    case SeenHandler(_) => st.(invalidated := st.invalidated + [ChatsKey])
  }

  /** The listeners of an event fire in registration order. */
  function Dispatch(st: Session, ls: seq<Listener>, e: Emit): Session
    decreases |ls|
  {
    if |ls| == 0 then st else Dispatch(Fire(st, ls[0], e), ls[1..], e)
  }

  /** The transport comes up (first connect or an automatic reconnect) on a
      socket that `connect()` was called on: every `connect` listener fires. */
  function TransportUp(st: Session): Session {
    var s := Sock(st);
    if !s.active || s.connected then st
    else Dispatch(st.(holder := Some(s.(connected := true))), Handlers(s.listeners, "connect"), Emit("connect", Obj(map[])))
  }

  /** The transport drops; the socket stays active and will reconnect. The
      `disconnect` listeners only log. */
  function TransportDown(st: Session): Session {
    var s := Sock(st);
    st.(holder := Some(s.(connected := false)))
  }

  /** A server push `e` arrives on the connected socket. */
  function Receive(st: Session, e: Emit): Session {
    if !Sock(st).connected then st
    else Dispatch(st, Handlers(Sock(st).listeners, e.event), e)
  }

  // ------------------------------------------------------------- properties

  /** The `join` emits a run of `connect` listeners produces. */
  function Joins(ls: seq<Listener>): seq<Emit> {
    if |ls| == 0 then [] else JoinOf(ls[0]) + Joins(ls[1..])
  }

  predicate ConnectOnly(l: Listener) {
    l.Rejoin? || l.Logger?
  }

  /** The `join` one `connect` listener emits. */
  function JoinOf(l: Listener): seq<Emit> {
    if l.Rejoin? then [JoinEmit(l.userId)] else []
  }

  /** A `connect` listener only appends its `join` (if any) to what the
      socket sent. */
  lemma FireConnectOnly(st: Session, l: Listener, e: Emit)
    requires st.holder.Some? && ConnectOnly(l)
    ensures Fire(st, l, e) == st.(holder := Some(st.holder.value.(sent := st.holder.value.sent + JoinOf(l))))
  {
    if l.Logger? {
      assert st.holder.value.sent + [] == st.holder.value.sent;
    }
  }

  /** Firing `connect` listeners emits one `join` per onConnect closure
      still registered, in order, and changes nothing else. */
  lemma {:induction false} DispatchConnect(st: Session, ls: seq<Listener>, e: Emit)
    requires st.holder.Some?
    requires forall i :: 0 <= i < |ls| ==> ConnectOnly(ls[i])
    ensures Dispatch(st, ls, e) == st.(holder := Some(st.holder.value.(sent := st.holder.value.sent + Joins(ls))))
    decreases |ls|
  {
    var s := st.holder.value;
    if |ls| == 0 {
      assert s.sent + [] == s.sent;
    } else {
      var st1 := Fire(st, ls[0], e);
      FireConnectOnly(st, ls[0], e);
      assert st1.holder.value.sent == s.sent + JoinOf(ls[0]);
      DispatchConnect(st1, ls[1..], e);
      assert Joins(ls) == JoinOf(ls[0]) + Joins(ls[1..]);
      assert (s.sent + JoinOf(ls[0])) + Joins(ls[1..]) == s.sent + Joins(ls);
    }
  }

  /** Every connect event, reconnects included, re-emits `join` with the
      bare user id for each registered onConnect closure. */
  lemma ConnectEmitsJoins(st: Session)
    requires st.holder.Some? && Sock(st).active && !Sock(st).connected
    requires forall i :: 0 <= i < |ConnectListeners(st)| ==> ConnectOnly(ConnectListeners(st)[i])
    ensures var r := TransportUp(st);
      && Sock(r).sent == Sock(st).sent + Joins(ConnectListeners(st))
      && Sock(r).connected && Sock(r).active
      && ConnectListeners(r) == ConnectListeners(st)
  {
    var s := Sock(st);
    DispatchConnect(st.(holder := Some(s.(connected := true))), ConnectListeners(st), Emit("connect", Obj(map[])));
  }

  /** A single listener fires once. */
  lemma DispatchOne(st: Session, l: Listener, e: Emit)
    ensures Dispatch(st, [l], e) == Fire(st, l, e)
  {
    assert [l][1..] == [];
  }

  /** A provider run for `u` on a socket that is not yet up, then the
      transport coming up, emits exactly `join(u)` when no other onConnect
      is registered; a later drop and reconnect emits it once more. */
  lemma {:induction false} ProviderJoinsOnEveryConnect(st: Session, u: string)
    requires !st.connectedRef && u != "" && !Sock(st).connected
    requires ConnectListeners(st) == []
    ensures var r1 := TransportUp(ProviderEffect(st, Some(u)));
      && Sock(r1).sent == Sock(st).sent + [JoinEmit(u)]
      && Sock(TransportUp(TransportDown(r1))).sent == Sock(st).sent + [JoinEmit(u), JoinEmit(u)]
  {
    var r0 := ProviderEffect(st, Some(u));
    assert ConnectListeners(r0) == [Rejoin(st.nextRun, u)];
    ConnectEmitsJoins(r0);
    var r1 := TransportUp(r0);
    assert Joins([Rejoin(st.nextRun, u)]) == [JoinEmit(u)];
    assert ConnectListeners(r1) == ConnectListeners(r0);
    var d := TransportDown(r1);
    ConnectEmitsJoins(d);
  }

  /** If the socket is already connected, the provider emits `join` at once. */
  lemma ProviderJoinsImmediately(st: Session, u: string)
    requires !st.connectedRef && u != "" && Sock(st).connected
    ensures Sock(ProviderEffect(st, Some(u))).sent == Sock(st).sent + [JoinEmit(u)]
  {
  }

  /** Each `notification` push, with the hook's handler registered once,
      prepends the payload (newest first) and invalidates ["notifiction"]
      exactly once; the chat state is untouched. */
  lemma NotificationPrepends(st: Session, p: Payload, m: nat)
    requires Sock(st).connected
    requires Handlers(Sock(st).listeners, "notification") == [NotificationHandler(m)]
    ensures var r := Receive(st, Emit("notification", p));
      && r.notifications == [p] + st.notifications
      && |r.notifications| == |st.notifications| + 1
      && r.invalidated == st.invalidated + [NotificationsKey]
      && r.chatNotif == st.chatNotif
  {
    DispatchOne(st, NotificationHandler(m), Emit("notification", p));
  }

  /** A `chatMessage` push replaces the chat state with the latest payload
      (no accumulation) and invalidates ["Chats"]; `changeMsgSeen` only
      invalidates ["Chats"]. */
  lemma ChatHandlersEffect(st: Session, p: Payload, m: nat)
    requires Sock(st).connected
    requires Handlers(Sock(st).listeners, "chatMessage") == [ChatHandler(m)]
    requires Handlers(Sock(st).listeners, "changeMsgSeen") == [SeenHandler(m)]
    ensures var r := Receive(st, Emit("chatMessage", p));
      r.chatNotif == Some(p) && r.invalidated == st.invalidated + [ChatsKey] && r.notifications == st.notifications
    ensures var r := Receive(st, Emit("changeMsgSeen", p));
      r.chatNotif == st.chatNotif && r.invalidated == st.invalidated + [ChatsKey] && r.notifications == st.notifications
  {
    DispatchOne(st, ChatHandler(m), Emit("chatMessage", p));
    DispatchOne(st, SeenHandler(m), Emit("changeMsgSeen", p));
  }

  /** Pushes arriving while the socket is down reach no handler. */
  lemma NothingWhileDisconnected(st: Session, e: Emit)
    requires !Sock(st).connected
    ensures Receive(st, e) == st
  {
  }

  /** Unmounting the notifications hook also removes the provider's onConnect
      closure: after that, a reconnect emits no `join` at all, so the socket
      silently stops receiving pushes (a stale join). */
  lemma {:induction false} HookCleanupDropsRejoin(st: Session, u: string)
    requires !st.connectedRef && u != "" && !Sock(st).connected
    ensures var r := UnmountNotifications(MountNotifications(ProviderEffect(st, Some(u))));
      Sock(TransportUp(r)).sent == Sock(st).sent
  {
    var r := UnmountNotifications(MountNotifications(ProviderEffect(st, Some(u))));
    assert ConnectListeners(r) == [];
    ConnectEmitsJoins(r);
  }

  /** The cleanup as it evidently was meant: off exactly the listeners this
      mount added, leaving other components' `connect` listeners alone. */
  function NotifOffOwn(t: Table<Listener>, m: nat): (u: Table<Listener>)
    ensures Handlers(u, "notification") == RemoveFirst(Handlers(t, "notification"), NotificationHandler(m))
    ensures Handlers(u, "connect") == RemoveFirst(Handlers(t, "connect"), Logger(m, "connect"))
    ensures Handlers(u, "disconnect") == RemoveFirst(Handlers(t, "disconnect"), Logger(m, "disconnect"))
    ensures Handlers(u, "connect_error") == RemoveFirst(Handlers(t, "connect_error"), Logger(m, "connect_error"))
    ensures forall e :: e !in NotifEvents ==> Handlers(u, e) == Handlers(t, e)
  {
    EventsDistinct();
    var t1 := Off(t, "notification", NotificationHandler(m));
    var t2 := Off(t1, "connect", Logger(m, "connect"));
    var t3 := Off(t2, "disconnect", Logger(m, "disconnect"));
    var u := Off(t3, "connect_error", Logger(m, "connect_error"));
    assert Handlers(u, "notification") == Handlers(t3, "notification") == Handlers(t2, "notification") == Handlers(t1, "notification");
    assert Handlers(u, "connect") == Handlers(t3, "connect") == Handlers(t2, "connect");
    assert Handlers(t1, "connect") == Handlers(t, "connect");
    assert Handlers(u, "disconnect") == Handlers(t3, "disconnect");
    assert Handlers(t2, "disconnect") == Handlers(t1, "disconnect") == Handlers(t, "disconnect");
    assert Handlers(t3, "connect_error") == Handlers(t2, "connect_error") == Handlers(t1, "connect_error") == Handlers(t, "connect_error");
    assert forall e :: e !in NotifEvents ==> Handlers(u, e) == Handlers(t, e) by {
      forall e | e !in NotifEvents
        ensures Handlers(u, e) == Handlers(t, e)
      {
        assert e != "notification" && e != "connect" && e != "disconnect" && e != "connect_error";
        assert Handlers(u, e) == Handlers(t3, e) == Handlers(t2, e) == Handlers(t1, e) == Handlers(t, e);
      }
    }
    u
  }

  /** The session-level scoped cleanup. */
  function UnmountNotificationsOwn(st: Session): (r: Session)
    ensures st.notifMount.None? ==> r == st
    ensures st.notifMount.Some? ==> r.notifMount.None? && r.holder.Some?
    ensures Sock(r).active == Sock(st).active && Sock(r).connected == Sock(st).connected && Sock(r).sent == Sock(st).sent
    ensures st.notifMount.Some? ==>
      multiset(Handlers(Sock(r).listeners, "notification"))
      == multiset(Handlers(Sock(st).listeners, "notification")) - multiset{NotificationHandler(st.notifMount.value)}
    ensures st.notifMount.Some? ==>
      multiset(Handlers(Sock(r).listeners, "connect"))
      == multiset(Handlers(Sock(st).listeners, "connect")) - multiset{Logger(st.notifMount.value, "connect")}
    ensures st.notifMount.Some? ==>
      r == WithListeners(st, NotifOffOwn(Sock(st).listeners, st.notifMount.value)).(notifMount := None)
  {
    match st.notifMount
    case None => st
    case Some(m) => WithListeners(st, NotifOffOwn(Sock(st).listeners, m)).(notifMount := None)
  }

  /** With the scoped cleanup, the provider's onConnect survives the hook's
      unmount, so a reconnect still re-joins the room. */
  lemma {:induction false} OwnCleanupKeepsRejoin(st: Session, u: string)
    requires !st.connectedRef && u != "" && !Sock(st).connected
    requires ConnectListeners(st) == []
    ensures var r := UnmountNotificationsOwn(MountNotifications(ProviderEffect(st, Some(u))));
      Sock(TransportUp(r)).sent == Sock(st).sent + [JoinEmit(u)]
  {
    var r0 := ProviderEffect(st, Some(u));
    var r := UnmountNotificationsOwn(MountNotifications(r0));
    assert ConnectListeners(r0) == [Rejoin(st.nextRun, u)];
    MountThenOwnUnmount(r0);
    assert Sock(r).active && !Sock(r).connected && Sock(r).sent == Sock(st).sent;
    SingletonFromMultiset(ConnectListeners(r), Rejoin(st.nextRun, u));
    SoleRejoin(r, st.nextRun, u);
  }

  /** With one onConnect closure for `u` and no other `connect` listener,
      the transport coming up sends exactly `join(u)`. */
  lemma SoleRejoin(r: Session, n: nat, u: string)
    requires r.holder.Some? && Sock(r).active && !Sock(r).connected
    requires ConnectListeners(r) == [Rejoin(n, u)]
    ensures Sock(TransportUp(r)).sent == Sock(r).sent + [JoinEmit(u)]
  {
    ConnectEmitsJoins(r);
    assert Joins([Rejoin(n, u)]) == [JoinEmit(u)];
  }

  /** Mounting and then unmounting with the scoped cleanup leaves the
      `connect` listeners as they were (up to order) and the socket's
      connection state untouched. */
  lemma MountThenOwnUnmount(st: Session)
    ensures var r := UnmountNotificationsOwn(MountNotifications(st));
      && r.holder.Some?
      && multiset(ConnectListeners(r)) == multiset(ConnectListeners(st))
      && Sock(r).active == Sock(st).active && Sock(r).connected == Sock(st).connected && Sock(r).sent == Sock(st).sent
  {
    var t := Sock(st).listeners;
    var m := st.nextRun;
    var r1 := MountNotifications(st);
    assert r1.notifMount == Some(m);
    assert Sock(r1).listeners == NotifOn(t, m);
    NotifOnOffOwnConnect(t, m);
  }

  /** The scoped cleanup gives back the `connect` listeners the mount found,
      up to order, whatever their runs. */
  lemma NotifOnOffOwnConnect(t: Table<Listener>, m: nat)
    ensures multiset(Handlers(NotifOffOwn(NotifOn(t, m), m), "connect")) == multiset(Handlers(t, "connect"))
  {
    var l := Logger(m, "connect");
    assert Handlers(NotifOn(t, m), "connect") == Handlers(t, "connect") + [l];
    assert multiset(Handlers(t, "connect") + [l]) == multiset(Handlers(t, "connect")) + multiset{l};
  }

  /** Off-ing the listeners a mount added gives back the old list of any
      event whose listeners all come from earlier runs, order included. */
  lemma NotifOnOffOwn(t: Table<Listener>, m: nat, e: string)
    requires forall l :: l in Handlers(t, e) ==> l.run < m
    ensures Handlers(NotifOffOwn(NotifOn(t, m), m), e) == Handlers(t, e)
  {
    var s := Handlers(t, e);
    if e == "notification" {
      assert NotificationHandler(m) !in s;
      RemoveAppended(s, NotificationHandler(m));
    } else if e == "connect" || e == "disconnect" || e == "connect_error" {
      assert Logger(m, e) !in s;
      RemoveAppended(s, Logger(m, e));
    }
  }

  /** When every listener of `e` comes from an earlier run, mounting and then
      unmounting with the scoped cleanup leaves the listeners of `e` exactly
      as they were, and the rest of the session too. */
  lemma MountThenOwnUnmountExact(st: Session, e: string)
    requires forall l :: l in Handlers(Sock(st).listeners, e) ==> l.run < st.nextRun
    ensures var r := UnmountNotificationsOwn(MountNotifications(st));
      && Handlers(Sock(r).listeners, e) == Handlers(Sock(st).listeners, e)
      && r == st.(holder := r.holder, nextRun := st.nextRun + 1, notifMount := None, notifications := [])
      && Sock(r) == Sock(st).(listeners := Sock(r).listeners)
  {
    MountThenOwnUnmountTable(st);
    NotifOnOffOwn(Sock(st).listeners, st.nextRun, e);
  }

  /** Mounting then unmounting with the scoped cleanup changes only the
      listener table, by the two table steps. */
  lemma MountThenOwnUnmountTable(st: Session)
    ensures var r := UnmountNotificationsOwn(MountNotifications(st));
      var u := NotifOffOwn(NotifOn(Sock(st).listeners, st.nextRun), st.nextRun);
      && r == st.(holder := Some(Sock(st).(listeners := u)), nextRun := st.nextRun + 1, notifMount := None, notifications := [])
      && Sock(r) == Sock(st).(listeners := u)
  {
    var t := Sock(st).listeners;
    var m := st.nextRun;
    var r1 := MountNotifications(st);
    assert r1.notifMount == Some(m) && Sock(r1).listeners == NotifOn(t, m);
  }

  lemma SingletonFromMultiset<T>(c: seq<T>, x: T)
    requires multiset(c) == multiset{x}
    ensures c == [x]
  {
    assert |c| == |multiset(c)| == 1;
    assert c[0] in multiset(c);
  }

  /** Identity change without reload: after the provider ran for `a` and then
      for `b`, both onConnect closures are registered, so the next connect
      emits `join(a)` and `join(b)` and the session for `b` also joins
      `a`'s room. */
  lemma {:induction false} RerunKeepsOldJoin(st: Session, a: string, b: string)
    requires !st.connectedRef && a != "" && b != "" && !Sock(st).connected
    requires ConnectListeners(st) == []
    ensures var r := ProviderRerun(ProviderEffect(st, Some(a)), Some(b));
      Sock(TransportUp(r)).sent == Sock(st).sent + [JoinEmit(a), JoinEmit(b)]
  {
    var r0 := ProviderEffect(st, Some(a));
    var r := ProviderRerun(r0, Some(b));
    assert ConnectListeners(r) == [Rejoin(st.nextRun, a), Rejoin(st.nextRun + 1, b)];
    ConnectEmitsJoins(r);
    var ls := [Rejoin(st.nextRun, a), Rejoin(st.nextRun + 1, b)];
    assert ls[1..] == [Rejoin(st.nextRun + 1, b)] && ls[1..][1..] == [];
    assert Joins(ls[1..]) == [JoinEmit(b)];
    assert Joins(ls) == [JoinEmit(a)] + Joins(ls[1..]);
  }

  /** The cleanup as it evidently was meant: also off the onConnect closure
      this run registered. */
  function ProviderCleanupScoped(st: Session): (r: Session)
    ensures st.provider.None? ==> r == st
    ensures st.provider.Some? ==>
      && !Sock(r).active && !r.connectedRef && r.provider.None?
      && multiset(ConnectListeners(r)) == multiset(ConnectListeners(st)) - multiset{st.provider.value}
    ensures st.provider.Some? ==>
      && Sock(r).listeners == Off(Sock(st).listeners, "connect", st.provider.value)
      && Sock(r).sent == Sock(st).sent
    ensures st.provider.Some? ==>
      && r == st.(holder := r.holder, connectedRef := false, provider := None)
      && r.holder.Some? && Sock(r) == ClientSocket.Disconnect(Sock(st)).(listeners := Sock(r).listeners)
  {
    match st.provider
    case None => st
    case Some(l) =>
      var s := ClientSocket.Disconnect(Sock(st));
      st.(holder := Some(s.(listeners := Off(s.listeners, "connect", l))), connectedRef := false, provider := None)
  }

  /** The scoped cleanup of a provider whose onConnect is the only `connect`
      listener leaves none, and a disconnected socket. */
  lemma ScopedCleanupOfSole(st: Session)
    requires st.provider.Some? && ConnectListeners(st) == [st.provider.value]
    ensures var c := ProviderCleanupScoped(st);
      && ConnectListeners(c) == [] && !c.connectedRef && !Sock(c).connected && !Sock(c).active
      && Sock(c).sent == Sock(st).sent && c.nextRun == st.nextRun
  {
    var c := ProviderCleanupScoped(st);
    assert multiset(ConnectListeners(c)) == multiset{};
  }

  /** With the scoped cleanup, an identity change from `a` to `b` leaves only
      `b`'s onConnect, so the next connect joins `b`'s room alone. */
  lemma {:induction false} ScopedRerunJoinsOnlyNew(st: Session, a: string, b: string)
    requires !st.connectedRef && a != "" && b != "" && !Sock(st).connected
    requires ConnectListeners(st) == []
    ensures var r := ProviderEffect(ProviderCleanupScoped(ProviderEffect(st, Some(a))), Some(b));
      Sock(TransportUp(r)).sent == Sock(st).sent + [JoinEmit(b)]
  {
    var r := ProviderEffect(ProviderCleanupScoped(ProviderEffect(st, Some(a))), Some(b));
    ScopedRerunState(st, a, b);
    var l := Rejoin(st.nextRun + 1, b);
    assert [l][1..] == [];
    assert Joins([l]) == [JoinEmit(b)];
    ConnectEmitsJoins(r);
  }

  /** The session a scoped identity change leaves before the next connect:
      an active, disconnected socket whose only `connect` listener is `b`'s
      onConnect, and nothing sent meanwhile. */
  lemma ScopedRerunState(st: Session, a: string, b: string)
    requires !st.connectedRef && a != "" && b != "" && !Sock(st).connected
    requires ConnectListeners(st) == []
    ensures var r := ProviderEffect(ProviderCleanupScoped(ProviderEffect(st, Some(a))), Some(b));
      && r.holder.Some? && Sock(r).active && !Sock(r).connected
      && ConnectListeners(r) == [Rejoin(st.nextRun + 1, b)] && Sock(r).sent == Sock(st).sent
  {
    var r0 := ProviderEffect(st, Some(a));
    assert ConnectListeners(r0) == [Rejoin(st.nextRun, a)];
    ScopedCleanupOfSole(r0);
  }
}

=== FILE: sorting.dfy ===
/** Ordering of query results (`orderBy`): a stable insertion sort on a
    lexicographic pair of integer keys. */
module Sorting {

  predicate LexLe(a: (int, int), b: (int, int)) {
    a.0 < b.0 || (a.0 == b.0 && a.1 <= b.1)
  }

  ghost predicate SortedBy<T>(s: seq<T>, key: T -> (int, int)) {
    forall i, j :: 0 <= i < j < |s| ==> LexLe(key(s[i]), key(s[j]))
  }

  /** Inserts `x` before the first element whose key is strictly larger. */
  function Insert<T>(x: T, s: seq<T>, key: T -> (int, int)): (r: seq<T>)
    requires SortedBy(s, key)
    ensures SortedBy(r, key)
    ensures multiset(r) == multiset(s) + multiset{x}
    ensures |r| == |s| + 1
  {
    if |s| == 0 then [x]
    else if LexLe(key(x), key(s[0])) then [x] + s
    else
      var t := Insert(x, s[1..], key);
      assert s == [s[0]] + s[1..];
      assert forall k :: 0 <= k < |t| ==> LexLe(key(s[0]), key(t[k])) by {
        forall k | 0 <= k < |t| ensures LexLe(key(s[0]), key(t[k])) {
          assert t[k] in multiset(t);
          assert t[k] in multiset(s[1..]) || t[k] == x;
          if t[k] != x {
            var m :| 0 <= m < |s[1..]| && s[1..][m] == t[k];
            assert s[m + 1] == t[k];
          }
        }
      }
      [s[0]] + t
  }

  /** The rows of `s`, reordered so that keys are ascending. */
  function SortBy<T>(s: seq<T>, key: T -> (int, int)): (r: seq<T>)
    ensures SortedBy(r, key)
    ensures multiset(r) == multiset(s)
    ensures |r| == |s|
  {
    if |s| == 0 then []
    else
      assert s == [s[0]] + s[1..];
      Insert(s[0], SortBy(s[1..], key), key)
  }

  /** Sorting neither adds nor drops an element. */
  lemma SortByMembers<T>(s: seq<T>, key: T -> (int, int))
    ensures forall x :: x in SortBy(s, key) <==> x in s
  {
    var r := SortBy(s, key);
    forall x ensures x in r <==> x in s {
      assert x in r <==> x in multiset(r);
      assert x in s <==> x in multiset(s);
    }
  }
}

=== FILE: store.dfy ===
/** The relational store behind the route handlers, abstracted as tables.
    Tables whose order matters to a query are sequences in insertion order;
    keyed tables are maps or sets. */
module Store {
  import opened Common
  import opened RelayChannel

  datatype User = User(id: string, name: string, avatarUrl: Option<string>, bio: Option<string>, location: Option<string>)
  datatype Post = Post(id: string, ownerId: string, title: string, description: string, imageUrl: Option<string>)
  datatype Comment = Comment(id: string, postId: string, comment: string, commenterId: string)
  datatype Like = Like(likerId: string, postId: string)
  /** `kind` is the `type` column; `status` has the schema default "PENDING". */
  datatype Notification = Notification(
    id: string, reciverId: string, senderId: string, postId: Option<string>,
    kind: string, message: string, read: bool, status: string,
    accepted: Option<bool>, friendReqId: Option<string>, createdAt: int)
  datatype FriendReq = FriendReq(id: string, senderId: string, reciverId: string, status: string)
  datatype Friendship = Friendship(user1Id: string, user2Id: string)
  datatype Conversation = Conversation(id: string, participants: seq<string>, lastMessage: string)
  datatype Message = Message(
    id: string, conversationId: string, senderId: string, text: string,
    mediaType: string, seenBy: seq<string>, createdAt: int)

  datatype Db = Db(
    users: map<string, User>,
    posts: seq<Post>,
    comments: seq<Comment>,
    likes: set<Like>,
    notifications: seq<Notification>,
    friendReqs: seq<FriendReq>,
    friendships: set<Friendship>,
    conversations: seq<Conversation>,
    messages: seq<Message>)

  /** What a handler leaves behind: the store (including any rows written
      before a failure), its reply, and the relay publishes it made. */
  datatype Outcome<R> = Outcome(db: Db, reply: R, published: seq<Publish>)

  const StatusOk: nat := 200
  const StatusUnauthorized: nat := 401

  predicate HasNotification(ns: seq<Notification>, id: string) {
    exists i :: 0 <= i < |ns| && ns[i].id == id
  }

  predicate HasFriendReq(rs: seq<FriendReq>, id: string) {
    exists i :: 0 <= i < |rs| && rs[i].id == id
  }

  predicate HasPost(ps: seq<Post>, id: string) {
    exists i :: 0 <= i < |ps| && ps[i].id == id
  }

  /** The first row with the given id (ids are unique in the store). */
  function FindFriendReq(rs: seq<FriendReq>, id: string): (r: Option<FriendReq>)
    ensures r.Some? <==> HasFriendReq(rs, id)
    ensures r.Some? ==> r.value in rs && r.value.id == id
  {
    if |rs| == 0 then None
    else if rs[0].id == id then Some(rs[0])
    else
      var t := FindFriendReq(rs[1..], id);
      assert forall i :: 0 <= i < |rs[1..]| ==> rs[1..][i] == rs[i + 1];
      t
  }

  function FindPost(ps: seq<Post>, id: string): (r: Option<Post>)
    ensures r.Some? <==> HasPost(ps, id)
    ensures r.Some? ==> r.value in ps && r.value.id == id
  {
    if |ps| == 0 then None
    else if ps[0].id == id then Some(ps[0])
    else
      var t := FindPost(ps[1..], id);
      assert forall i :: 0 <= i < |ps[1..]| ==> ps[1..][i] == ps[i + 1];
      t
  }
}

=== FILE: strings.dfy ===
/** String helpers with JavaScript semantics: `trim`, `startsWith`,
    `split` on a one-character separator, `join`, and the `<` order. */
module Strs {

  /** ECMAScript WhiteSpace and LineTerminator code points, which `trim` removes. */
  predicate IsSpace(c: char) {
    c == '\t' || c == '\n' || c == '\U{B}' || c == '\U{C}' || c == '\r'
    || c == ' ' || c == '\U{A0}' || c == '\U{1680}'
    || ('\U{2000}' <= c <= '\U{200A}')
    || c == '\U{2028}' || c == '\U{2029}' || c == '\U{202F}' || c == '\U{205F}'
    || c == '\U{3000}' || c == '\U{FEFF}'
  }

  ghost predicate AllSpace(s: string) {
    forall i :: 0 <= i < |s| ==> IsSpace(s[i])
  }

  /** `s.trimStart()`: the longest suffix of `s` not starting with white space. */
  function TrimStart(s: string): (r: string)
    ensures |r| <= |s| && r == s[|s| - |r|..]
    ensures AllSpace(s[..|s| - |r|])
    ensures r == [] || !IsSpace(r[0])
  {
    if |s| > 0 && IsSpace(s[0]) then
      var t := TrimStart(s[1..]);
      TrimStartStep(s, t);
      t
    else s
  }

  /** `s.trimEnd()`: the longest prefix of `s` not ending with white space. */
  function TrimEnd(s: string): (r: string)
    ensures |r| <= |s| && r == s[..|r|]
    ensures AllSpace(s[|r|..])
    ensures r == [] || !IsSpace(r[|r| - 1])
  {
    if |s| > 0 && IsSpace(s[|s| - 1]) then
      var t := TrimEnd(s[..|s| - 1]);
      TrimEndStep(s, t);
      t
    else s
  }

  /** `r` is `s[i..j]` and everything outside `i..j` is white space. */
  ghost predicate TrimmedAt(s: string, r: string, i: int, j: int) {
    0 <= i <= j <= |s| && r == s[i..j] && AllSpace(s[..i]) && AllSpace(s[j..])
  }

  /** One more leading space in front of a trimmed suffix is still dropped. */
  lemma TrimStartStep(s: string, t: string)
    requires |s| > 0 && IsSpace(s[0])
    requires |t| <= |s[1..]| && t == s[1..][|s[1..]| - |t|..] && AllSpace(s[1..][..|s[1..]| - |t|])
    ensures |t| <= |s| && t == s[|s| - |t|..] && AllSpace(s[..|s| - |t|])
  {
    forall k | 0 <= k < |s| - |t| ensures IsSpace(s[k]) {
      if k > 0 { assert s[1..][..|s[1..]| - |t|][k - 1] == s[k]; }
    }
    assert s[1..][|s[1..]| - |t|..] == s[|s| - |t|..];
  }

  /** One more trailing space after a trimmed prefix is still dropped. */
  lemma TrimEndStep(s: string, t: string)
    requires |s| > 0 && IsSpace(s[|s| - 1])
    requires |t| <= |s[..|s| - 1]| && t == s[..|s| - 1][..|t|] && AllSpace(s[..|s| - 1][|t|..])
    ensures |t| <= |s| && t == s[..|t|] && AllSpace(s[|t|..])
  {
    forall k | |t| <= k < |s| ensures IsSpace(s[k]) {
      if k < |s| - 1 { assert s[..|s| - 1][|t|..][k - |t|] == s[k]; }
    }
    assert s[..|s| - 1][..|t|] == s[..|t|];
  }

  /** `s.trim()`: `s` with leading and trailing white space removed. */
  function Trim(s: string): (r: string)
    ensures exists i, j :: TrimmedAt(s, r, i, j)
    ensures r == [] || (!IsSpace(r[0]) && !IsSpace(r[|r| - 1]))
  {
    var a := TrimStart(s);
    var r := TrimEnd(a);
    TrimParts(s, a, r);
    r
  }

  /** Where the two trims cut: the text kept by `trimEnd` after `trimStart`
      is a slice of `s` with only white space around it. */
  lemma TrimParts(s: string, a: string, r: string)
    requires |a| <= |s| && a == s[|s| - |a|..] && AllSpace(s[..|s| - |a|])
    requires a == [] || !IsSpace(a[0])
    requires |r| <= |a| && r == a[..|r|] && AllSpace(a[|r|..])
    requires r == [] || !IsSpace(r[|r| - 1])
    ensures exists i, j :: TrimmedAt(s, r, i, j)
    ensures r == [] || (!IsSpace(r[0]) && !IsSpace(r[|r| - 1]))
  {
    var i := |s| - |a|;
    forall k | i + |r| <= k < |s| ensures IsSpace(s[k]) {
      assert a[|r|..][k - i - |r|] == s[k];
    }
    assert TrimmedAt(s, r, i, i + |r|);
    assert r != [] ==> r[0] == a[0];
  }

  /** A string made only of white space trims to the empty string, and
      conversely. */
  lemma {:induction false} TrimEmptyIffAllSpace(s: string)
    ensures Trim(s) == [] <==> AllSpace(s)
  {
    var r := Trim(s);
    var i, j :| TrimmedAt(s, r, i, j);
    if r == [] {
      assert i == j;
      forall k | 0 <= k < |s| ensures IsSpace(s[k]) {
        if k < i { assert s[..i][k] == s[k]; } else { assert s[j..][k - j] == s[k]; }
      }
    } else {
      assert s[i] == r[0];
    }
  }

  predicate StartsWith(s: string, prefix: string) {
    |prefix| <= |s| && s[..|prefix|] == prefix
  }

  /** `s.split(c)` for a one-character separator `c`. */
  function Split(s: string, c: char): (r: seq<string>)
    ensures |r| >= 1
    ensures forall i :: 0 <= i < |r| ==> c !in r[i]
    ensures |r[0]| <= |s| && r[0] == s[..|r[0]|]
    ensures |r[0]| < |s| ==> s[|r[0]|] == c
  {
    if |s| == 0 then [""]
    else
      var rest := Split(s[1..], c);
      if s[0] == c then [""] + rest
      else [[s[0]] + rest[0]] + rest[1..]
  }

  /** `parts.join(c)`. */
  function Join(parts: seq<string>, c: char): string
  {
    if |parts| == 0 then ""
    else if |parts| == 1 then parts[0]
    else parts[0] + [c] + Join(parts[1..], c)
  }

  /** Splitting and joining on the same separator gives back the string. */
  lemma {:induction false} JoinSplit(s: string, c: char)
    ensures Join(Split(s, c), c) == s
  {
    if |s| > 0 {
      var rest := Split(s[1..], c);
      JoinSplit(s[1..], c);
      if s[0] != c {
        var r := [[s[0]] + rest[0]] + rest[1..];
        if |rest| == 1 {
          assert s == [s[0]] + s[1..];
        } else {
          assert r[1..] == rest[1..];
          assert Join(rest, c) == rest[0] + [c] + Join(rest[1..], c);
          assert s == [s[0]] + s[1..];
        }
      } else {
        assert s == [c] + s[1..];
      }
    }
  }

  /** Joining separator-free parts and splitting again gives back the parts. */
  lemma {:induction false} SplitJoin(parts: seq<string>, c: char)
    requires |parts| >= 1
    requires forall i :: 0 <= i < |parts| ==> c !in parts[i]
    ensures Split(Join(parts, c), c) == parts
  {
    if |parts| == 1 {
      SplitNoSeparator(parts[0], c);
    } else {
      SplitJoin(parts[1..], c);
      SplitPrefix(parts[0], Join(parts[1..], c), c);
      assert [parts[0]] + parts[1..] == parts;
    }
  }

  /** A string without the separator splits into itself. */
  lemma {:induction false} SplitNoSeparator(s: string, c: char)
    requires c !in s
    ensures Split(s, c) == [s]
  {
    if |s| > 0 {
      assert c !in s[1..] by { assert forall k :: 0 <= k < |s[1..]| ==> s[1..][k] == s[k + 1]; }
      SplitNoSeparator(s[1..], c);
      assert [s[0]] + s[1..] == s;
    }
  }

  /** A separator-free head followed by the separator starts a new piece. */
  lemma {:induction false} SplitPrefix(head: string, tail: string, c: char)
    requires c !in head
    ensures Split(head + [c] + tail, c) == [head] + Split(tail, c)
  {
    if |head| == 0 {
      assert head + [c] + tail == [c] + tail;
      assert ([c] + tail)[1..] == tail;
    } else {
      var s := head + [c] + tail;
      assert s[1..] == head[1..] + [c] + tail;
      assert c !in head[1..] by { assert forall k :: 0 <= k < |head[1..]| ==> head[1..][k] == head[k + 1]; }
      SplitPrefix(head[1..], tail, c);
      assert [head[0]] + head[1..] == head;
    }
  }

  /** `s.split(c)[0]`: the text before the first separator. */
  function BeforeFirst(s: string, c: char): (r: string)
    ensures c !in r
    ensures StartsWith(s, r)
    ensures |r| < |s| ==> s[|r|] == c
  {
    Split(s, c)[0]
  }

  /** `parts[parts.length - 1]` of `s.split(c)`: the text after the last separator. */
  function AfterLast(s: string, c: char): (r: string)
    ensures c !in r
  {
    var parts := Split(s, c);
    parts[|parts| - 1]
  }

  /** Joining ends with the last part, preceded by the separator when there
      is more than one part. */
  lemma {:induction false} JoinLast(parts: seq<string>, c: char)
    requires |parts| >= 2
    ensures Join(parts, c) == Join(parts[..|parts| - 1], c) + [c] + parts[|parts| - 1]
  {
    if |parts| > 2 {
      JoinLast(parts[1..], c);
      assert parts[1..][..|parts[1..]| - 1] == parts[..|parts| - 1][1..];
    }
  }

  /** The text after the last separator is a suffix of the string, and it is
      either the whole string or preceded by the separator. */
  lemma AfterLastIsSuffix(s: string, c: char)
    ensures var r := AfterLast(s, c);
      |r| <= |s| && s[|s| - |r|..] == r && (|r| < |s| ==> s[|s| - |r| - 1] == c)
  {
    var parts := Split(s, c);
    JoinSplit(s, c);
    if |parts| >= 2 {
      JoinLast(parts, c);
    }
  }

  /** JavaScript `a < b` on strings: lexicographic on code units. */
  predicate Less(a: string, b: string) {
    if |b| == 0 then false
    else if |a| == 0 then true
    else if a[0] != b[0] then a[0] < b[0]
    else Less(a[1..], b[1..])
  }

  /** `<` on strings is a strict total order: irreflexive, asymmetric, and
      any two distinct strings are comparable. */
  lemma {:induction false} LessTrichotomy(a: string, b: string)
    ensures !(Less(a, b) && Less(b, a))
    ensures a != b ==> Less(a, b) || Less(b, a)
    ensures !Less(a, a)
  {
    if |a| > 0 && |b| > 0 && a[0] == b[0] {
      LessTrichotomy(a[1..], b[1..]);
      if a != b {
        assert a == [a[0]] + a[1..] && b == [b[0]] + b[1..];
      }
    }
    if |a| > 0 {
      LessTrichotomy(a[1..], a[1..]);
    }
  }

  /** Whatever precedes the last separator, the text after it is the part
      that follows. */
  lemma {:induction false} AfterLastAppend(s: string, t: string, c: char)
    requires c !in t
    ensures |Split(s + [c] + t, c)| >= 2
    ensures AfterLast(s + [c] + t, c) == t
  {
    if |s| == 0 {
      assert s + [c] + t == [c] + t;
      assert ([c] + t)[1..] == t;
      SplitNoSeparator(t, c);
    } else {
      assert (s + [c] + t)[1..] == s[1..] + [c] + t;
      AfterLastAppend(s[1..], t, c);
    }
  }
}

=== FILE: user_route.dfy ===
/** A user's profile (app/api/get/userData/route.ts): GET reads it with its
    counters, PUT uploads an avatar and then updates the text fields. */
module UserRoute {
  import opened Common
  import opened Store
  import opened Images
  import PostRoute
  import FriendRoutes

  // ------------------------------------------------------------------- GET

  /** The selected columns and the three `_count` relations. */
  datatype Profile = Profile(user: User, posts: nat, sentFriendReqs: nat, recivedFriendReqs: nat)

  datatype ProfileReply = ProfileMissingId | InvalidUserId | ProfileData(data: Profile)

  function ProfileStatus(r: ProfileReply): nat {
    if r.ProfileData? then StatusOk else StatusUnauthorized
  }

  /** `_count.posts`: the posts owned by the user. */
  function CountPosts(ps: seq<Post>, ownerId: string): (n: nat)
    ensures n <= |ps|
    ensures n == 0 <==> forall i :: 0 <= i < |ps| ==> ps[i].ownerId != ownerId
  {
    CountWhere(ps, (p: Post) => p.ownerId == ownerId)
  }

  /** `_count.sentFriendReqs`: the requests the user sent. */
  function CountSent(rs: seq<FriendReq>, userId: string): (n: nat)
    ensures n <= |rs|
    ensures n == 0 <==> forall i :: 0 <= i < |rs| ==> rs[i].senderId != userId
  {
    CountWhere(rs, (r: FriendReq) => r.senderId == userId)
  }

  /** `_count.recivedFriendReqs`: the requests the user received. */
  function CountReceived(rs: seq<FriendReq>, userId: string): (n: nat)
    ensures n <= |rs|
    ensures n == 0 <==> forall i :: 0 <= i < |rs| ==> rs[i].reciverId != userId
  {
    CountWhere(rs, (r: FriendReq) => r.reciverId == userId)
  }

  /** GET: the user's row and counters; a missing or unknown id is 401. */
  function GetProfile(db: Db, userId: Option<string>): (r: ProfileReply)
    ensures r.ProfileMissingId? <==> !Truthy(userId)
    ensures r.ProfileData? <==> Truthy(userId) && userId.value in db.users
    ensures r.ProfileData? ==>
      && r.data.user == db.users[userId.value]
      && (r.data.posts == 0 <==> forall i :: 0 <= i < |db.posts| ==> db.posts[i].ownerId != userId.value)
      && r.data.posts == CountPosts(db.posts, userId.value)
      && r.data.sentFriendReqs == CountSent(db.friendReqs, userId.value)
      && r.data.recivedFriendReqs == CountReceived(db.friendReqs, userId.value)
  {
    if !Truthy(userId) then ProfileMissingId
    else if userId.value !in db.users then InvalidUserId
    else
      var u := userId.value;
      ProfileData(Profile(db.users[u], CountPosts(db.posts, u), CountSent(db.friendReqs, u), CountReceived(db.friendReqs, u)))
  }

  /** A created post adds one to its owner's post
      count and leaves every other user's count alone. */
  lemma CreatePostCounts(db: Db, form: PostRoute.CreateForm, upload: Upload, newPostId: string, u: string)
    requires PostRoute.CreatePost(db, form, upload, newPostId).reply == PostRoute.PostCreated
    ensures var db1 := PostRoute.CreatePost(db, form, upload, newPostId).db;
      CountPosts(db1.posts, u) == CountPosts(db.posts, u) + if u == form.userId.value then 1 else 0
  {
    var db1 := PostRoute.CreatePost(db, form, upload, newPostId).db;
    var p := db1.posts[|db.posts|];
    var owned := (q: Post) => q.ownerId == u;
    assert db1.posts == db.posts + [p];
    CountWhereAppend(db.posts, [p], owned);
    CountWhereSingle(p, owned);
  }

  /** A sent request adds one to the sender's sent
      count and one to the receiver's received count, and nothing else. */
  lemma SendRequestCounts(db: Db, input: FriendRoutes.RequestInput, env: FriendRoutes.RequestEnv, u: string)
    requires FriendRoutes.SendRequest(db, input, env).reply.Requested?
    ensures var db1 := FriendRoutes.SendRequest(db, input, env).db;
      && CountSent(db1.friendReqs, u) == CountSent(db.friendReqs, u) + (if u == input.senderId.value then 1 else 0)
      && CountReceived(db1.friendReqs, u) == CountReceived(db.friendReqs, u) + (if u == input.reciverId.value then 1 else 0)
  {
    var o := FriendRoutes.SendRequest(db, input, env);
    var req := o.reply.req;
    var sent := (r: FriendReq) => r.senderId == u;
    var received := (r: FriendReq) => r.reciverId == u;
    assert o.db.friendReqs == db.friendReqs + [req];
    CountWhereAppend(db.friendReqs, [req], sent);
    CountWhereSingle(req, sent);
    CountWhereAppend(db.friendReqs, [req], received);
    CountWhereSingle(req, received);
  }

  // ------------------------------------------------------------------- PUT

  /** The form keys the handler reads; the location is read from the
      misspelled key. */
  const NameKey := "name"
  const BioKey := "bio"
  const LocationKey := "loaction"

  /** The text fields of the form by key, and whether `newImage` was
      attached. */
  datatype ProfileForm = ProfileForm(fields: map<string, string>, hasNewImage: bool)

  /** The upload the handler asked for: its folder, and the public id to
      overwrite when there is one. */
  datatype UploadCall = UploadCall(folder: string, overwrite: Option<string>)

  datatype UpdateReply = ProfileUpdated(user: User) | ProfileMissingFields | ProfileNotUpdated

  /** The reply together with the upload the request made, if any. */
  datatype UpdateResult = UpdateResult(reply: UpdateReply, uploadCall: Option<UploadCall>)

  /** PUT. The upload comes first: it overwrites the old avatar's public id
      when both a new image and an old URL are given, and otherwise uploads
      afresh, which throws when no new image was sent. Only then are name,
      bio and location checked, and the row updated. */
  function UpdateProfile(db: Db, form: ProfileForm, upload: Upload): (o: Outcome<UpdateResult>)
    ensures o.published == []
    ensures !o.reply.reply.ProfileUpdated? ==> o.db == db
    ensures !form.hasNewImage ==> o.reply == UpdateResult(ProfileNotUpdated, None)
    ensures form.hasNewImage ==>
      o.reply.uploadCall == Some(UploadCall("users",
        if Truthy(Field(form.fields, "oldImage")) then Some(PublicId(form.fields["oldImage"])) else None))
    ensures o.reply.reply == ProfileMissingFields <==>
      form.hasNewImage && upload.Uploaded?
      && !(Truthy(Field(form.fields, NameKey)) && Truthy(Field(form.fields, BioKey)) && Truthy(Field(form.fields, LocationKey)))
    ensures o.reply.reply.ProfileUpdated? <==>
      form.hasNewImage && upload.Uploaded?
      && Truthy(Field(form.fields, NameKey)) && Truthy(Field(form.fields, BioKey)) && Truthy(Field(form.fields, LocationKey))
      && "userId" in form.fields && form.fields["userId"] in db.users
    ensures o.reply.reply.ProfileUpdated? ==>
      var u := o.reply.reply.user;
      && u == db.users[form.fields["userId"]].(name := form.fields[NameKey], bio := Some(form.fields[BioKey]),
                                                location := Some(form.fields[LocationKey]), avatarUrl := upload.url)
      && o.db == db.(users := db.users[form.fields["userId"] := u])
  {
    if !form.hasNewImage then Outcome(db, UpdateResult(ProfileNotUpdated, None), [])
    else
      var oldImage := Field(form.fields, "oldImage");
      var call := UploadCall("users", if Truthy(oldImage) then Some(PublicId(oldImage.value)) else None);
      if upload.UploadRejected? then Outcome(db, UpdateResult(ProfileNotUpdated, Some(call)), [])
      else
        var name, bio, location := Field(form.fields, NameKey), Field(form.fields, BioKey), Field(form.fields, LocationKey);
        if !Truthy(name) || !Truthy(bio) || !Truthy(location) then
          Outcome(db, UpdateResult(ProfileMissingFields, Some(call)), [])
        else
          var id := Field(form.fields, "userId");
          if id.None? || id.value !in db.users then Outcome(db, UpdateResult(ProfileNotUpdated, Some(call)), [])
          else
            var u := db.users[id.value].(name := name.value, bio := Some(bio.value), location := Some(location.value),
                                         avatarUrl := upload.url);
            Outcome(db.(users := db.users[id.value := u]), UpdateResult(ProfileUpdated(u), Some(call)), [])
  }

  /** Validation comes after the upload: a form missing its text fields
      still uploads the image, and then changes nothing. */
  lemma UploadBeforeValidation(db: Db, form: ProfileForm, upload: Upload)
    requires form.hasNewImage && upload.Uploaded?
    requires !Truthy(Field(form.fields, NameKey))
    ensures var o := UpdateProfile(db, form, upload);
      o.reply.uploadCall.Some? && o.reply.reply == ProfileMissingFields && o.db == db
  {
  }

  /** A form that spells the key `location` correctly, and not the way the
      handler reads it, is refused as missing a field. */
  lemma CorrectlySpelledLocationIsMissing(db: Db, form: ProfileForm, upload: Upload)
    requires form.hasNewImage && upload.Uploaded?
    requires "location" in form.fields && LocationKey !in form.fields
    ensures UpdateProfile(db, form, upload).reply.reply == ProfileMissingFields
  {
  }

  /** The updated profile is what GET returns
      next. */
  lemma UpdatedProfileIsRead(db: Db, form: ProfileForm, upload: Upload)
    requires UpdateProfile(db, form, upload).reply.reply.ProfileUpdated?
    requires form.fields["userId"] != ""
    ensures var o := UpdateProfile(db, form, upload);
      GetProfile(o.db, Some(form.fields["userId"])).data.user == o.reply.reply.user
  {
  }
}

=== FILE: wire.dfy ===
/** The socket-mode wire contract: event payloads, emitted events and the
    per-user room name. */
module Wire {
  import opened Common

  /** A socket payload: a bare string (the `join` argument) or a flat object
      whose fields are strings. A field that is absent is `undefined`. */
  datatype Payload = Text(text: string) | Obj(fields: map<string, string>)

  /** One event on the wire: its name and its payload. */
  datatype Emit = Emit(event: string, payload: Payload)

  /** `payload.k`: a string has none of the object fields used here. */
  function Prop(p: Payload, k: string): (r: Option<string>)
    ensures p.Text? ==> r.None?
    ensures p.Obj? ==> r == Field(p.fields, k)
  {
    match p
    case Text(_) => None
    case Obj(f) => Field(f, k)
  }

  /** `${p}`: a string prints as itself, an object as "[object Object]". */
  function ToText(p: Payload): (r: string)
    ensures p.Text? ==> r == p.text
    ensures p.Obj? ==> r == "[object Object]"
  {
    match p
    case Text(s) => s
    case Obj(_) => "[object Object]"
  }

  const RoomPrefix: string := "user:"

  /** The room of one user: `user:${id}`. */
  function RoomName(id: string): (r: string)
    ensures |r| == |id| + 5 && r[..5] == RoomPrefix && r[5..] == id
  {
    RoomPrefix + id
  }

  /** Distinct ids give distinct rooms, because the prefix is fixed. */
  lemma RoomNameInjective(a: string, b: string)
    ensures RoomName(a) == RoomName(b) <==> a == b
  {
    if RoomName(a) == RoomName(b) {
      assert a == RoomName(a)[5..];
    }
  }
}
